=== FILE: README.md ===
# csi-driver-nvmf in Dafny

A functional model of the core of the Kubernetes CSI driver for NVMe over
Fabrics (kubernetes-csi/csi-driver-nvmf), with proofs about it.

The driver has two halves.

- **The controller** keeps a *device registry*: the NVMe-oF subsystems found
  by `nvme discover`, indexed by NQN. It holds the set of available NQNs and
  the binding from volume name to NQN. `CreateVolume` discovers targets and
  hands out one free subsystem per volume. `DeleteVolume` releases it. The
  registry can be rebuilt from the PersistentVolumes that this driver
  provisioned.
- **The node** connects to a target through the kernel fabrics interface
  (`/dev/nvme-fabrics`) and finds the block device through its UUID symlink.
  It records the connection in a JSON *connector file* next to the volume,
  then calls `AttachDisk`, and on unpublish disconnects the controllers it
  created. The mount helpers of pkg/nvmf/nvmf.go are modelled on their own:
  publish in this revision does not reach them.

Every external effect becomes an explicit input or output of a pure function:

- command output, sysfs contents and `stat` results;
- whether a write, mkdir or mount succeeds;
- the Kubernetes PersistentVolume list;
- the iteration order of a Go map.

The model's state is plain data:

- the device registry (`DeviceRegistry.Registry`);
- the per-volume lock set (`Utils.LockSet`);
- the tracking directory of connected host NQNs (`Fabrics.Tracking`);
- the connector files (`NodeServer.ConnectorFiles`).

Modules follow the Go files:

| module | file |
|---|---|
| `Utils` | pkg/utils/utils.go |
| `DeviceRegistry` | pkg/nvmf/device_registry.go |
| `ControllerServer` | pkg/nvmf/controllerserver.go |
| `Fabrics` | pkg/nvmf/fabrics.go |
| `NvmfUtils` | pkg/nvmf/nvmf_utils.go |
| `NvmfDisk` | pkg/nvmf/nvmf.go |
| `DiskContext` | pkg/nvmf/disk.go |
| `NodeServer` | pkg/nvmf/nodeserver.go |
| `Driver` | pkg/nvmf/driver.go |

Shared modules:

- `Results`: Option, Result, Int32 and map lookup with Go's zero value.
- `GoStrings`: the parts of Go's `strings` package that the code uses.
- `Csi`: status codes and CSI enums.
- `NvmfTypes`: `nvmfDiskInfo` and the parameter keys. The `Connector`, the tracking directory and the sysfs views live in `Fabrics` and `NvmfUtils`.

Properties proved include:

- the registry invariant (an available NQN is never allocated, and every binding points at an allocated device whose volume name is the binding's key) is preserved by allocation, release, discovery, `CreateVolume` and `DeleteVolume`;
- allocation succeeds exactly when some available device is free, and any free device may be the one chosen;
- release undoes allocation;
- the UUID/NGUID conversions are mutual inverses;
- endpoint parsing round-trips;
- connect-then-disconnect restores the tracking directory;
- a connector file that was written is read back;
- the retry loops stop exactly when the device appears or the retry budget runs out.

## Model

| member | source | states |
|---|---|---|
| Utils.IsFileExisting | pkg/utils/utils.go:42-52 | a path is reported missing exactly when `stat` says it does not exist; any other stat error counts as existing |
| Utils.TryAcquire | pkg/utils/utils.go:54-62 | acquisition succeeds iff the volume was not locked; afterwards it is locked and no other entry changes; a failed attempt leaves the set unchanged |
| Utils.Release | pkg/utils/utils.go:64-68 | the volume is unlocked afterwards and every other entry is unchanged |
| Utils.ReleaseIdempotent | pkg/utils/utils.go:64-68 | releasing twice is the same as releasing once |
| Utils.AcquireThenRelease | pkg/utils/utils.go:54-68 | a successful acquire followed by release restores the lock set |
| Utils.AcquireExcludes | pkg/utils/utils.go:54-68 | a second acquire of a held volume fails, and succeeds again after release |
| Utils.FirstOccurrence | pkg/utils/utils.go:72 | finds the first position of a separator at or after a start index, or proves there is none |
| Utils.SplitFirst | pkg/utils/utils.go:72 | `SplitN(s, sep, 2)`: one part, equal to the input, exactly when the separator does not occur; otherwise two parts split at the FIRST occurrence, rejoining around the separator to the input |
| Utils.SchemeSeparator | pkg/utils/utils.go:71-72 | when the endpoint starts with `unix://` or `tcp://` (any case), the first `://` is right after the scheme |
| Utils.ParseEndpoint | pkg/utils/utils.go:70-78 | succeeds iff the lower-cased endpoint starts with `unix://` or `tcp://` and the address part is nonempty; the parts rejoin to the input |
| Utils.ParseEndpointRoundTrip | pkg/utils/utils.go:70-78 | `scheme://addr` parses back to the scheme (case kept) and address |
| Utils.WriteStringToFile | pkg/utils/utils.go:80-93 | success needs a nonempty string, a write and a flush; an empty string is the "write nothing" error |
| Utils.ReadLines | pkg/utils/utils.go:95-112 | one line per newline-separated segment (newlines plus one); line `i` is segment `i` with surrounding white space trimmed, so it is trimmed and newline-free |
| Utils.ReadLinesFirst | pkg/utils/utils.go:95-112 | without a newline the file is one trimmed line; otherwise the first line is the trimmed text before the first newline |
| Utils.ReadLinesOfJoined | pkg/utils/utils.go:95-112 | reading trimmed, newline-free lines joined by newlines gives the lines back |
| Utils.ReadLinesTrailingNewline | pkg/utils/utils.go:101-103 | a trailing newline yields a final empty line |
| NvmfUtils.FirstLine | pkg/nvmf/nvmf_utils.go:157-162 | the first line read from an attribute file is trimmed and newline-free |
| NvmfUtils.FirstLineIsFirstSegment | pkg/nvmf/nvmf_utils.go:157-162 | the attribute value is the trimmed text before the first newline, or the whole trimmed text without one |
| NvmfUtils.FindController | pkg/nvmf/nvmf_utils.go:148-165 | returns the first controller whose `subsysnqn` matches, or the listing's length when none does |
| NvmfUtils.GetDeviceNameBySubNqn | pkg/nvmf/nvmf_utils.go:141-168 | "" when the listing fails or nothing matches; otherwise the name of the first matching controller |
| NvmfUtils.NguidToUuid | pkg/nvmf/nvmf_utils.go:212-224 | a 32-character NGUID becomes a dashed 8-4-4-4-12 UUID |
| NvmfUtils.UuidToNguid | pkg/nvmf/nvmf_utils.go:212-224 | removing the dashes of a 36-character UUID gives 32 characters |
| NvmfUtils.NguidRoundTrip | pkg/nvmf/nvmf_utils.go:212-224 | dashing then undashing an NGUID gives it back |
| NvmfUtils.UuidRoundTrip | pkg/nvmf/nvmf_utils.go:212-224 | undashing then dashing a dashed UUID gives it back |
| NvmfUtils.GetDeviceIdentifierFromSysfs | pkg/nvmf/nvmf_utils.go:186-227 | NoNamespace with no namespace; IdentifierMissing or IdentifierUnreadable for an absent or unreadable attribute; IdentifierEmpty for a blank value; a non-nguid value is returned trimmed; an nguid with spaces removed must be 32 bytes, is otherwise an InvalidNguidLength error carrying its byte length, and is returned in dashed UUID form that undashes back to it |
| NvmfUtils.GetDeviceUUID | pkg/nvmf/nvmf_utils.go:171-183 | prefers the `uuid` attribute, falls back to `nguid`, and is "" exactly when both lookups fail |
| NvmfUtils.ParseDeviceToControllerPath | pkg/nvmf/nvmf_utils.go:75-81 | splits the device name at its last `n` and inserts `c0` there |
| NvmfUtils.LastNAfterPrefix | pkg/nvmf/nvmf_utils.go:76 | the last `n` of `pre + "n" + post` is the one after `pre` when `post` has none |
| NvmfUtils.ControllerPathSplit | pkg/nvmf/nvmf_utils.go:75-81 | the rescan path of `pre n post` (no `n` in `post`) is `/sys/class/block/pre c0 n post/device/rescan_controller` |
| NvmfUtils.ControllerPathExample | pkg/nvmf/nvmf_utils.go:75-81 | `nvme0n1` maps to the controller path of `nvme0c0n1` |
| NvmfUtils.DevicePathForUuid | pkg/nvmf/nvmf_utils.go:122 | the device path is `/dev/disk/by-id/nvme-uuid.` followed by exactly the UUID |
| NvmfUtils.ProbeDevicePath | pkg/nvmf/nvmf_utils.go:101-133 | a probe yields a path only when it exists and it is the by-id link of the nonempty UUID of the device serving the NQN; never when no controller matches |
| NvmfUtils.ProbeFindsExistingLink | pkg/nvmf/nvmf_utils.go:101-133 | a probe succeeds whenever a controller matches, its namespace has a UUID, and the by-id link of that UUID exists |
| NvmfUtils.FindPathFrom | pkg/nvmf/nvmf_utils.go:97-138 | the retry loop from attempt `i`: it stops at the first success or at the budget, and sleeps once per probe |
| NvmfUtils.FindPathWithRetry | pkg/nvmf/nvmf_utils.go:97-138 | finds a path iff some attempt below `maxRetries` finds one, returning the first; without a path it probes exactly `maxRetries` times |
| NvmfUtils.FindPathFromStart | pkg/nvmf/nvmf_utils.go:97-138 | the loop from the first attempt finds a path iff some attempt below the budget succeeds |
| NvmfUtils.FindPathAttempts | pkg/nvmf/nvmf_utils.go:97-138 | the found path is the first successful probe, and no earlier probe succeeded |
| NvmfUtils.WaitForPathToExist | pkg/nvmf/nvmf_utils.go:33-45 | true iff the path exists at one of the first `maxRetries` checks; sleeps between checks, not after the last |
| NvmfUtils.LastComponent | pkg/nvmf/nvmf_utils.go:71-72 | the last element of `strings.Split(resolved, "/")`: it holds no `/`, the path is some prefix, a `/` and it, and a path without `/` is its own last element |
| NvmfUtils.GetDeviceNameByVolumeID | pkg/nvmf/nvmf_utils.go:47-73 | succeeds iff the UUID link is a symlink whose target resolves and starts with `/dev`; the device name is the last `/`-component of the resolved target |
| Fabrics.GetNvmfConnector | pkg/nvmf/fabrics.go:41-51 | copies volume, NQN, endpoints and transport; sets the host NQN; uses retry 10 and interval 1 |
| Fabrics.ParseTargetEndpoint | pkg/nvmf/fabrics.go:244-252 | not exactly one colon is InvalidEndpointFormat; with one colon the result is the trimmed text before and after it, accepted iff both are nonempty, and otherwise EmptyHostOrPort |
| Fabrics.ParseTargetEndpointRoundTrip | pkg/nvmf/fabrics.go:244-252 | `ip:port` parses back to its parts |
| Fabrics.Ipv6EndpointRejected | pkg/nvmf/fabrics.go:244-247 | an IPv6 endpoint (`fe80::1:4420`) is rejected |
| Fabrics.DirectiveFor | pkg/nvmf/fabrics.go:240-261 | an endpoint yields the `nqn=…,transport=…,traddr=…,trsvcid=…,hostnqn=…` string iff it parses |
| Fabrics.EndpointSteps | pkg/nvmf/fabrics.go:240-261 | one connect directive per endpoint, in order |
| Fabrics.FirstFailingStep | pkg/nvmf/fabrics.go:240-261 | the first endpoint that is malformed or whose write fails; every earlier one parses and is written |
| Fabrics.WriteDirectives | pkg/nvmf/fabrics.go:240-261 | writes the directives in order up to the first endpoint that is malformed or whose write fails: a malformed one is not written and its parse error is returned; a failed write is counted and reported as FabricsWriteFailed; it completes iff there is no such endpoint |
| Fabrics.DisconnectSubsysWithHostNqn | pkg/nvmf/fabrics.go:88-136 | a controller is deleted iff its subsystem and host NQN match and `delete_controller` is writable; an absent hostnqn file means "unsupported" |
| Fabrics.DisconnectSubsys | pkg/nvmf/fabrics.go:138-167 | a controller is deleted iff its subsystem NQN matches and `delete_controller` is writable |
| Fabrics.HostVisits | pkg/nvmf/fabrics.go:197-198 | the host-NQN pass visits every controller in order |
| Fabrics.DeletedNames | pkg/nvmf/fabrics.go:197-224 | the controllers a sequence of visits disconnected: only those named by a Disconnected visit |
| Fabrics.DeletedNamesComplete | pkg/nvmf/fabrics.go:197-224 | every Disconnected visit is named among the deletions |
| Fabrics.FirstUnsupported | pkg/nvmf/fabrics.go:197-200 | the first controller without a hostnqn attribute; none before it lacks one |
| Fabrics.ScanWithHostNqn | pkg/nvmf/fabrics.go:197-224 | falls back iff some controller has no hostnqn attribute; it deletes, in order, exactly the controllers disconnected before the first such controller |
| Fabrics.ScanDoneDeletesAllMatches | pkg/nvmf/fabrics.go:197-224 | without a fallback, every disconnected controller is counted |
| Fabrics.ScanAnyHost | pkg/nvmf/fabrics.go:203-215 | the fallback pass deletes exactly the controllers whose subsystem matches |
| Fabrics.RemoveTracking | pkg/nvmf/fabrics.go:175-189 | removes the host from the NQN's tracking set and drops the NQN when it becomes empty; other NQNs are untouched |
| Fabrics.DeleteControllers | pkg/nvmf/fabrics.go:191-224 | -ENOENT with nothing deleted when the controller listing fails; the first pass deletes up to the first controller without hostnqn; its count is returned when it ends or another host still tracks the NQN; otherwise the second pass adds every controller serving the NQN, or -ENOENT when its listing fails |
| Fabrics.HostScanServesNqn | pkg/nvmf/fabrics.go:197-222 | every controller the first pass deletes serves the NQN and had a writable `delete_controller` |
| Fabrics.DeletedControllersServeNqn | pkg/nvmf/fabrics.go:191-224 | every controller deleted by either pass serves the NQN and had a writable `delete_controller` |
| Fabrics.DisconnectByNqn | pkg/nvmf/fabrics.go:169-225 | -EINVAL iff the NQN exceeds 223 bytes; -ENOENT with nothing changed when it is untracked; otherwise untracks the host and deletes controllers by `DeleteControllers`, with another host still tracking the NQN blocking the fallback; a nonnegative result counts the deleted controllers, each of which serves the NQN |
| Fabrics.DisconnectDeletesHostControllers | pkg/nvmf/fabrics.go:191-224 | when every controller of the NQN has a hostnqn attribute, the return value counts the deletions, and a controller is deleted iff it serves the NQN for this host with a writable `delete_controller` |
| Fabrics.OtherHostsBlockFallback | pkg/nvmf/fabrics.go:199-217 | while another host tracks the NQN, a controller of the NQN without hostnqn is never deleted |
| Fabrics.Disconnect | pkg/nvmf/fabrics.go:290-297 | fails exactly when `disconnectByNqn` returns a negative value |
| Fabrics.CreateTrackingFiles | pkg/nvmf/fabrics.go:300-316 | a failed mkdir changes nothing; otherwise the NQN is tracked and the host is added iff the file is created |
| Fabrics.Connect | pkg/nvmf/fabrics.go:228-287 | rejects negative retry or interval values and unknown transports; otherwise its writes are those of `WriteDirectives` over the endpoints; rolls back by disconnecting iff the device does not appear or the tracking directory cannot be made; a malformed endpoint or failed write returns that error with no search and no rollback; once all writes succeed its answer is that of `SearchAndTrack`; on success every endpoint was written and it returns the found path with the host tracked |
| Fabrics.WriteAndSearch | pkg/nvmf/fabrics.go:240-286 | the endpoint loop's first failure is returned as is with the writes made so far; a loop that completes continues exactly as `SearchAndTrack`, and its success implies every endpoint parsed and was written |
| Fabrics.ConnectReplies | pkg/nvmf/fabrics.go:228-287 | for valid settings the answer is: the endpoint loop's failure if it has one; else DeviceNotReady when the path search finds nothing; else TrackingDirFailed when the mkdir fails; else `Ok` of the found path |
| Fabrics.EndpointLoopWritesDirectives | pkg/nvmf/fabrics.go:240-261 | write `i` of the endpoint loop is the directive of endpoint `i`, and a loop that completes writes one per endpoint |
| Fabrics.SearchAndTrack | pkg/nvmf/fabrics.go:265-286 | after the endpoints, the search is `FindPathWithRetry` with the connector's retry settings; no path gives DeviceNotReady, a path with a failed mkdir gives TrackingDirFailed, both rolling back by disconnecting by NQN; a path with a successful mkdir gives `Ok` of that path with the tracking files created |
| Fabrics.MalformedEndpointNoRollback | pkg/nvmf/fabrics.go:246-256 | a malformed second endpoint fails the connect after the first was written, with no disconnect |
| Fabrics.RollbackOnUntrackedNqnDeletesNothing | pkg/nvmf/fabrics.go:265-273 | the rollback after a missing device finds no tracking entry and deletes nothing |
| Fabrics.ConnectDisconnectRestoresTracking | pkg/nvmf/fabrics.go:228-297 | after a successful connect of an untracked NQN, disconnect restores the tracking directory |
| Fabrics.CreateThenRemoveTracking | pkg/nvmf/fabrics.go:175-189 | creating tracking for an untracked NQN and then removing the same host restores the previous tracking |
| DeviceRegistry.NewRegistryValid | pkg/nvmf/device_registry.go:59-67 | a new registry is empty, unsynced and satisfies the invariant |
| DeviceRegistry.FirstFree | pkg/nvmf/device_registry.go:188-197 | the loop picks the first available, unallocated NQN in iteration order |
| DeviceRegistry.AllocateDevice | pkg/nvmf/device_registry.go:174-213 | "already allocated" when the volume is bound; "no available devices" when none is available or free; success binds the volume to a previously free NQN and marks it allocated; errors change nothing |
| DeviceRegistry.ReleaseDevice | pkg/nvmf/device_registry.go:216-236 | an unknown NQN is a no-op; otherwise the device is unallocated, made available, unbound from its volume name, and its volume name is cleared; the registry invariant is kept |
| DeviceRegistry.ReleaseUnbinds | pkg/nvmf/device_registry.go:216-236 | after release the NQN is available and unallocated |
| DeviceRegistry.AllocatePreservesValid | pkg/nvmf/device_registry.go:174-213 | allocation preserves the registry invariant |
| DeviceRegistry.ReleasePreservesValid | pkg/nvmf/device_registry.go:216-236 | release preserves the registry invariant |
| DeviceRegistry.AllocateSucceedsIffDeviceAvailable | pkg/nvmf/device_registry.go:178-201 | when the registry is `Valid` and no available NQN is the empty string, allocation succeeds iff the volume is unbound and some device is available |
| DeviceRegistry.AllocationsAreDistinct | pkg/nvmf/device_registry.go:183-208 | two successive allocations hand out different NQNs |
| DeviceRegistry.AnyFreeDeviceCanBeChosen | pkg/nvmf/device_registry.go:188-197 | every free NQN is chosen under some map iteration order |
| DeviceRegistry.ReleaseThenAllocate | pkg/nvmf/device_registry.go:174-236 | a released NQN can be allocated again, to another volume |
| DeviceRegistry.AllocateReleaseRoundTrip | pkg/nvmf/device_registry.go:174-236 | allocating then releasing the chosen NQN restores the registry |
| DeviceRegistry.ReleaseDeviceIdempotent | pkg/nvmf/device_registry.go:216-236 | releasing twice equals releasing once |
| DeviceRegistry.FilterRecords | pkg/nvmf/device_registry.go:292-302 | keeps exactly the records whose lower-cased NQN does not contain "discovery" and whose transport equals the requested one |
| DeviceRegistry.FilterRecordsAppend | pkg/nvmf/device_registry.go:292-302 | filtering a concatenation filters each part, so the kept records keep their order |
| DeviceRegistry.FilterRecordsSingle | pkg/nvmf/device_registry.go:292-302 | one record is kept iff it is wanted |
| DeviceRegistry.ParseNvmeDiscoveryOutput | pkg/nvmf/device_registry.go:277-305 | unparseable output gives no targets; otherwise the filtered records |
| DeviceRegistry.IndexByNqn | pkg/nvmf/device_registry.go:269-271 | every record's NQN is a key, and each key maps to a record with that NQN |
| DeviceRegistry.IndexByNqnLastWins | pkg/nvmf/device_registry.go:269-271 | for duplicate NQNs the last record wins |
| DeviceRegistry.DiscoveryKeepsLastRecord | pkg/nvmf/device_registry.go:267-302 | of several wanted records with one NQN, discovery keeps the last |
| DeviceRegistry.DiscoverNVMeDevices | pkg/nvmf/device_registry.go:239-274 | NilParams for nil parameters; MissingParams for a missing address, port or type; UnsupportedTransport for a type other than tcp/rdma in any case; CommandError for a failing command; otherwise exactly the kept records indexed by NQN |
| DeviceRegistry.UppercaseTransportFindsNothing | pkg/nvmf/device_registry.go:252-295 | `TCP` passes the transport check, yet matches no `tcp` record |
| DeviceRegistry.MergeDiscovered | pkg/nvmf/device_registry.go:154-163 | adds each new NQN as an unallocated, available device and leaves known NQNs untouched |
| DeviceRegistry.DiscoverDevices | pkg/nvmf/device_registry.go:139-171 | a discovery error changes nothing; finding as many devices as are known skips the merge; otherwise merges |
| DeviceRegistry.MergePreservesValid | pkg/nvmf/device_registry.go:154-163 | the merge preserves the invariant |
| DeviceRegistry.DiscoverPreservesValid | pkg/nvmf/device_registry.go:139-171 | discovery preserves the invariant |
| DeviceRegistry.SameCountDiscoveryIsSkipped | pkg/nvmf/device_registry.go:149-152 | when discovery finds exactly as many NQNs as are known, new NQNs among them are not added |
| DeviceRegistry.SyncOne | pkg/nvmf/device_registry.go:103-132 | a PV provisioned by and bound to this driver, whose name is unbound, records its handle as an allocated device bound to the PV name; any other PV changes nothing |
| DeviceRegistry.SyncAll | pkg/nvmf/device_registry.go:103-133 | existing bindings survive; every claimed PV name ends up bound; new bindings come only from claimed PVs; availability and the sync flag are unchanged |
| DeviceRegistry.SyncAllFrame | pkg/nvmf/device_registry.go:103-133 | a device whose NQN no claimed PV names keeps its entry |
| DeviceRegistry.SyncAllRecoveredEntries | pkg/nvmf/device_registry.go:110-131 | every added or changed device entry is the one recovered from a claimed PV with that handle |
| DeviceRegistry.SyncAllBindsFirstHandle | pkg/nvmf/device_registry.go:110-131 | a newly bound name is bound to the handle of the first claimed PV with that name |
| DeviceRegistry.SyncAllConcat | pkg/nvmf/device_registry.go:103-133 | syncing a list in two parts is syncing the first part, then the second from its result |
| DeviceRegistry.SyncAllSkipsBoundName | pkg/nvmf/device_registry.go:112-115 | a PV whose name is already bound when the loop reaches it leaves the registry unchanged |
| DeviceRegistry.SyncAllLastWriter | pkg/nvmf/device_registry.go:110-131 | a claimed PV reached while its name is unbound writes its handle's entry, which stays when no later claimed PV names that handle: the last writer wins |
| DeviceRegistry.SyncFromPV | pkg/nvmf/device_registry.go:93-136 | a failed list changes nothing; otherwise syncs all PVs |
| DeviceRegistry.SyncOnePreservesValid | pkg/nvmf/device_registry.go:110-131 | syncing a PV whose handle is not a known device preserves the invariant |
| DeviceRegistry.SyncCanLeaveAllocatedAvailable | pkg/nvmf/device_registry.go:118-130 | syncing a PV whose handle is already available leaves an allocated device in the available set |
| DeviceRegistry.EnsureInitialSync | pkg/nvmf/device_registry.go:70-88 | syncs once; a failed sync leaves the flag unset; after a sync the flag is set |
| DeviceRegistry.EnsureInitialSyncIdempotent | pkg/nvmf/device_registry.go:74-76 | a second call after success changes nothing |
| ControllerServer.IsValidVolumeCapabilities | pkg/nvmf/controllerserver.go:185-203 | valid iff the list is nonempty and each capability has exactly one of block and mount |
| ControllerServer.AllHaveOneAccessType | pkg/nvmf/controllerserver.go:190-201 | the loop accepts iff every capability has exactly one access type |
| ControllerServer.AllocateUnderLock | pkg/nvmf/controllerserver.go:68-90 | Aborted when the name is locked; otherwise allocates, and the lock is released on every path |
| ControllerServer.CreateDiscovered | pkg/nvmf/controllerserver.go:68-91 | Aborted iff the name is locked; ResourceExhausted iff allocation fails; both leave the discovered registry; success returns the allocated NQN as volume ID, capacity 0 and the parameters as context |
| ControllerServer.DiscoverAndCreate | pkg/nvmf/controllerserver.go:60-91 | Internal iff discovery fails, with the registry unchanged; otherwise allocation continues on the discovered registry |
| ControllerServer.CreateVolume | pkg/nvmf/controllerserver.go:46-92 | InvalidArgument for a bad name or bad capabilities, checked in that order and changing nothing; a valid request goes on to discovery and allocation; locks are unchanged and the registry stays well-formed |
| ControllerServer.CreateVolumeReplies | pkg/nvmf/controllerserver.go:46-92 | InvalidArgument iff the request is invalid; Internal iff discovery fails; Aborted iff the name is locked; ResourceExhausted iff allocation fails; success returns the allocated NQN and the registry after allocation |
| ControllerServer.CreatedVolumeIsBound | pkg/nvmf/controllerserver.go:75-90 | a created volume's ID is allocated, unavailable, and bound to the request name |
| ControllerServer.DeleteVolume | pkg/nvmf/controllerserver.go:95-117 | InvalidArgument for an empty ID, Aborted when locked, otherwise releases the device and succeeds |
| ControllerServer.CreatePreservesValid | pkg/nvmf/controllerserver.go:46-92 | CreateVolume preserves the registry invariant |
| ControllerServer.DeletePreservesValid | pkg/nvmf/controllerserver.go:95-117 | DeleteVolume preserves the registry invariant |
| ControllerServer.RepeatedCreateIsExhausted | pkg/nvmf/controllerserver.go:75-81 | repeating a successful create with the same name fails with ResourceExhausted |
| ControllerServer.CreateThenDeleteFreesDevice | pkg/nvmf/controllerserver.go:46-117 | deleting a created volume makes its device available and unallocated again, and unbinds the name |
| ControllerServer.DeleteUnknownIsNoop | pkg/nvmf/controllerserver.go:95-117 | deleting an unknown volume succeeds and changes nothing |
| ControllerServer.DeleteIdempotent | pkg/nvmf/controllerserver.go:95-117 | deleting twice gives the same reply and registry as deleting once |
| ControllerServer.AnswerOther | pkg/nvmf/controllerserver.go:119-165 | only ControllerGetCapabilities answers, with the driver's capabilities; every other RPC is Unimplemented |
| NvmfDisk.GetNVMfDiskInfo | pkg/nvmf/nvmf.go:65-89 | fails iff the parameters are nil or the volume ID, the transport or `targetEndpoints` is empty; otherwise the endpoints are the comma-split of `targetEndpoints` and the count is their number |
| NvmfDisk.DiskInfoEndpointsRoundTrip | pkg/nvmf/nvmf.go:65-89 | a comma-joined endpoint list is read back unchanged |
| NvmfDisk.GetNVMfDiskMounter | pkg/nvmf/nvmf.go:92-103 | block iff the capability is block; fs type and flags come from the mount capability; the connector uses the target path as host NQN |
| NvmfDisk.AttachDisk | pkg/nvmf/nvmf.go:114-133 | a nil connector is an error; otherwise it returns the connect's run, the connect error when the connect fails, and `Ok` of the connect's device path when it succeeds |
| NvmfDisk.AttachNeverReportsEmptyPath | pkg/nvmf/nvmf.go:125-128 | the empty-path branch is never taken |
| NvmfDisk.DetachDisk | pkg/nvmf/nvmf.go:136-148 | disconnects by NQN with the target path as host NQN; fails iff that returns negative |
| NvmfDisk.AttachThenDetachRestoresTracking | pkg/nvmf/nvmf.go:114-148 | detaching an attached volume restores the tracking directory |
| NvmfDisk.MountFilesystem | pkg/nvmf/nvmf.go:202-220 | format-and-mount is requested iff the target directory is created; success needs that and a successful mount |
| NvmfDisk.MountBlockDevice | pkg/nvmf/nvmf.go:223-256 | a bind mount with `bind` appended is requested iff the parent, the target file and its close succeed |
| NvmfDisk.MountVolume | pkg/nvmf/nvmf.go:151-172 | a failed check is an error; an existing mount is success without mounting; a target that is not mounted or does not exist is handed to `MountBlockDevice` for block access and `MountFilesystem` otherwise, with that helper's answer and call; success iff already mounted or the call made succeeds |
| NvmfDisk.UnmountVolume | pkg/nvmf/nvmf.go:175-199 | unmounts only when mounted; a missing path or non-mount is success |
| NvmfDisk.MissingPathIsNotMountPoint | pkg/nvmf/nvmf.go:151-199 | a missing target path is handled as "not a mount point" by both mount and unmount |
| NvmfDisk.MountThenUnmount | pkg/nvmf/nvmf.go:151-199 | a successful mount means the check found the target mounted or the mount call on the target succeeded; an unmount whose check reports the target mounted is tried and succeeds iff the unmount does (the mount table is an input, so the second check is not derived from the mount) |
| DiskContext.GetNVMfInfo | pkg/nvmf/disk.go:34-56 | succeeds iff address, NQN, port and transport are all nonempty; copies them and the device UUID |
| DiskContext.ContextRoundTrip | pkg/nvmf/disk.go:34-56 | the context of a complete target reads back to that target |
| DiskContext.VolumeIdComesFromRequest | pkg/nvmf/disk.go:49-54 | the volume ID is taken from the request, not the context |
| NodeServer.PersistConnectorFile | pkg/nvmf/fabrics.go:319-331 | success iff written; a failed create leaves no file; a failed encode leaves an unreadable file |
| NodeServer.GetConnectorFromFile | pkg/nvmf/fabrics.go:343-356 | succeeds iff a readable file exists, returning its connector |
| NodeServer.PersistThenRead | pkg/nvmf/fabrics.go:319-356 | a written connector is read back |
| NodeServer.RemoveConnectorFile | pkg/nvmf/fabrics.go:333-341 | removes the path and the path plus `.json`, and nothing else |
| NodeServer.NodePublishVolume | pkg/nvmf/nodeserver.go:56-116 | InvalidArgument for a missing capability, volume ID or target path, changing nothing; Internal when deriving the connector or connecting fails; after a connect, the files and reply are those of `PersistAndAttach`; success leaves the connector file readable |
| NodeServer.PersistAndAttach | pkg/nvmf/nodeserver.go:80-116 | the connector file is written as `PersistConnectorFile` says; a failed write is Internal; both access types are InvalidArgument; otherwise success iff the attach succeeds |
| NodeServer.PublishReplies | pkg/nvmf/nodeserver.go:56-116 | the reply over all inputs: InvalidArgument, Internal or success, in the order the handler checks |
| NodeServer.BothAccessTypesRejectedAfterConnect | pkg/nvmf/nodeserver.go:78-104 | a capability with both block and mount is rejected only after connecting and persisting, leaving both in place |
| NodeServer.PublishedConnectorIsReadBack | pkg/nvmf/nodeserver.go:80-116 | after a successful publish the connector file reads back |
| NodeServer.NodeUnpublishVolume | pkg/nvmf/nodeserver.go:118-152 | InvalidArgument for an empty ID or path; Unknown iff the detach fails; after a detach, a missing or undecodable connector file is Internal with the detach's tracking and the files unchanged; with a readable file it is `Ok` iff the disconnect with the recorded connector succeeds, any failure is Internal, the tracking is the disconnect's, and success removes the file |
| NodeServer.UnpublishWithoutConnectorFile | pkg/nvmf/nodeserver.go:137-141 | a detached volume without a connector file fails with Internal |
| NodeServer.UnpublishWithUnreadableConnectorFile | pkg/nvmf/nodeserver.go:137-141 | a detached volume whose connector file does not decode fails with Internal and keeps its files |
| NodeServer.PublishThenUnpublishRemovesFile | pkg/nvmf/nodeserver.go:56-152 | after publish then unpublish, the connector file is gone |
| NodeServer.NodeExpandVolume | pkg/nvmf/nodeserver.go:162-182 | Internal when the device name cannot be found; a device name without `n` panics; otherwise Internal when the rescan path is missing or the write fails, and Rescanned at the controller path when it succeeds |
| NodeServer.ExpandNeedsRescanPath | pkg/nvmf/nodeserver.go:169-179 | a missing rescan path is Internal |
| NodeServer.AnswerFixed | pkg/nvmf/nodeserver.go:41-192 | stage and unstage succeed empty; capabilities are EXPAND_VOLUME; info is the node ID; stats are Unimplemented |
| Driver.NewDriver | pkg/nvmf/driver.go:43-57 | no driver iff the name is empty; otherwise copies the configuration with empty capability lists |
| Driver.AddVolumeCapabilityAccessModes | pkg/nvmf/driver.go:79-87 | one access mode per input, in order, replacing the list |
| Driver.AddControllerServiceCapabilities | pkg/nvmf/driver.go:89-104 | one RPC capability per input, in order, replacing the list |
| Driver.ValidateControllerServiceRequest | pkg/nvmf/driver.go:106-117 | accepts UNKNOWN or a listed type; otherwise InvalidArgument |
| Driver.Run | pkg/nvmf/driver.go:59-77 | registers CREATE_DELETE_VOLUME and SINGLE_NODE_WRITER; creates a controller server iff configured |
| Driver.ValidateAfterRun | pkg/nvmf/driver.go:59-117 | a running driver accepts exactly UNKNOWN and CREATE_DELETE_VOLUME |

## Left out

- **I/O becomes inputs.** `nvme discover`, `/dev/nvme-fabrics` writes, sysfs reads, `stat`/`lstat`, `mkdir`, file creation, mount and unmount are parameters (oracles) or recorded requests. They are not executed effects.
- **Concurrency.** The registry `sync.RWMutex` and the `VolumeLocks` mutex are not modelled. Each operation is one atomic step.
- **JSON.** Encoding and decoding of connector files and of `nvme discover` output are not modelled. A connector file holds the connector or is unreadable. The discovery output is an already-parsed record list or a parse failure.
- **Tracking file names.** Tracking files are named by the base64 of the host NQN; the model keys them by the raw host NQN. The encoding is injective, so nothing observable is lost.
- **Path cleaning.** `filepath.Join` and `path.Join` are modelled as concatenation with `/`.
- **Time.** Sleeps are counted, not performed.
- **Case folding.** It is modelled for ASCII only.
- **Driver.Run.** The gRPC server start is not modelled, and neither is `logGRPC`.
- **Files outside the core.** pkg/nvmf/volume.go, pkg/nvmf/mounter.go, pkg/client, pkg/utils/kubeconfig.go and cmd/ are not part of this model. The constants used from pkg/nvmf/const.go are restated where they are used: `NqnSize`, `ENOENT` and `EINVAL` in `Fabrics`, `DefaultVolumeMapPath` in `NodeServer`.
- **Mismatched helper calls in nodeserver.go.** pkg/nvmf/nodeserver.go calls `getNVMfDiskInfo` and `getNvmfConnector` with one argument, but they take two. It calls the two-argument `AttachDisk` of pkg/nvmf/nvmf.go:114 with the request and a path instead of a volume ID and a connector. Their outcomes enter `NodePublishVolume` as the inputs `derived` and `attachOk`.
- **Rollback.** `Rollback` in pkg/nvmf/nodeserver.go is not defined in this revision. Its `err` argument is evaluated when each `defer` runs, and `err` is nil at both sites, so the model performs no rollback in `NodePublishVolume`.
- **Constructor arity.** `NewDeviceRegistry` is called with a different arity elsewhere; the model takes the registry fields only.
- **Kubernetes client.** The PersistentVolume list is an input: `None` stands for a failed list call.
- **Discovery endpoints.** Discovered targets keep whatever endpoints the record carries. They are not merged across records for the same NQN; the last record wins.
- NvmfUtils.GetDeviceIdentifierFromSysfs: an NGUID of 32 bytes that holds non-ASCII characters is rejected with `NonAsciiNguid`. The code slices such a value by bytes, which a string of characters cannot express.
- **NodeServer.NodeExpandVolume:** the error from opening the rescan file is ignored by the code. The model likewise folds it into the write outcome.
- **DeviceRegistry.SyncOnePreservesValid:** the invariant is proved only when the PV's handle is not already a known device. `DeviceRegistry.SyncCanLeaveAllocatedAvailable` shows that it can fail otherwise.
- **ControllerServer.CreateThenDeleteFreesDevice:** it assumes that the volume ID (an NQN) is not itself held in the lock set. Locks are keyed by both volume names and volume IDs.

## Notes on the code

The notes below record what the code does where a reader might expect otherwise.

- `CreateVolume` is not idempotent. A repeated request for an already-bound name fails with ResourceExhausted (`ControllerServer.RepeatedCreateIsExhausted`).
- `CreateVolume` does not call `EnsureInitialSync`, so the registry is not rebuilt from PersistentVolumes before allocating.
- A connect whose later endpoint is malformed fails without disconnecting the endpoints already written (`Fabrics.MalformedEndpointNoRollback`).
- The rollback after a missing device disconnects by NQN before this connect creates any tracking file. When the NQN was untracked before the connect, it deletes nothing (`Fabrics.RollbackOnUntrackedNqnDeletesNothing`).
- Discovery lower-cases the transport only for validation. The record filter compares it case-sensitively (`DeviceRegistry.UppercaseTransportFindsNothing`).
- Syncing from PersistentVolumes can break the registry invariant (`DeviceRegistry.SyncCanLeaveAllocatedAvailable`).
- `NodeUnpublishVolume` detaches and removes the connector file but does not unmount the target path.
- `NodeUnpublishVolume` removes `<path>.json` and `<path>`, where `<path>` already ends in `.json`.
- A detach failure is returned as a plain error, which the gRPC layer reports as Unknown.
- `NodeExpandVolume` indexes the device name at its last `n` without checking for one, so a name without `n` panics.
- `Csi.VolumeCapability` has a block flag and an optional mount spec, so it can hold both access types at once. A real CSI message cannot, because its access type is a `oneof`. The model keeps both fields so that it can state the code's checks for both set (pkg/nvmf/controllerserver.go:191-194, pkg/nvmf/nodeserver.go:102-104), but those branches are unreachable from real requests.

=== FILE: controller_server.dfy ===
/** pkg/nvmf/controllerserver.go: the controller service. CreateVolume hands out
    a pre-existing NVMe-oF subsystem from the device registry, DeleteVolume
    returns it; both hold the driver's per-name lock while they work. The
    output of `nvme discover` and the registry map's iteration order are
    inputs. */
module ControllerServer {
  import opened Results
  import opened Csi
  import opened Utils
  import opened DeviceRegistry

  /** `UseActualDeviceCapacity`: a created volume reports capacity 0. */
  const UseActualDeviceCapacity: int := 0

  /** Where a new volume's content comes from; passed through untouched. */
  datatype ContentSource = SnapshotSource(snapshotId: string) | VolumeSource(volumeId: string)

  /** The fields of a `CreateVolumeRequest` the server reads; `parameters` is
      `None` for a nil map. */
  datatype CreateVolumeRequest = CreateVolumeRequest(
    name: string,
    capabilities: seq<VolumeCapability>,
    parameters: Option<map<string, string>>,
    contentSource: Option<ContentSource>)

  /** The `Volume` of a `CreateVolumeResponse`. */
  datatype Volume = Volume(
    volumeId: string,
    capacityBytes: int,
    volumeContext: map<string, string>,
    contentSource: Option<ContentSource>)

  /** What a controller call leaves behind: the registry and the driver's lock
      table, with the reply. */
  datatype Outcome<T> = Outcome(registry: Registry, locks: LockSet, reply: Result<T, Code>)

  /** `isValidVolumeName`. */
  predicate IsValidVolumeName(volumeName: string) {
    volumeName != ""
  }

  /** `isValidVolumeID`. */
  predicate IsValidVolumeID(volumeId: string) {
    volumeId != ""
  }

  /** One capability asks for exactly one access type. */
  predicate HasOneAccessType(c: VolumeCapability) {
    c.block != c.mount.Some?
  }

  /** `isValidVolumeCapabilities`: a non-empty list, scanned in order, that stops
      at the first entry with both or neither access type. */
  function IsValidVolumeCapabilities(caps: seq<VolumeCapability>): (ok: bool)
    ensures ok <==> |caps| > 0 && forall i :: 0 <= i < |caps| ==> HasOneAccessType(caps[i])
  {
    |caps| > 0 && AllHaveOneAccessType(caps)
  }

  /** The loop of `isValidVolumeCapabilities`. */
  function AllHaveOneAccessType(caps: seq<VolumeCapability>): (ok: bool)
    ensures ok <==> forall i :: 0 <= i < |caps| ==> HasOneAccessType(caps[i])
  {
    if |caps| == 0 then true
    else if caps[0].block && caps[0].mount.Some? then false
    else if !caps[0].block && caps[0].mount.None? then false
    else
      assert forall i :: 1 <= i < |caps| ==> caps[i] == caps[1..][i - 1];
      AllHaveOneAccessType(caps[1..])
  }

  /** The parameters CreateVolume works with: a nil map becomes an empty one. */
  function ParametersOf(req: CreateVolumeRequest): map<string, string> {
    if req.parameters.None? then map[] else req.parameters.value
  }

  /** CreateVolume's discovery step, run on the parameters it works with. */
  function Discovery(registry: Registry, req: CreateVolumeRequest, output: DiscoverOutput)
    : (Registry, Result<(), DiscoveryError>)
  {
    DiscoverDevices(registry, Some(ParametersOf(req)), output)
  }

  /** The registry after CreateVolume's discovery step. */
  function Discovered(registry: Registry, req: CreateVolumeRequest, output: DiscoverOutput): Registry {
    Discovery(registry, req, output).0
  }

  /** The request passes both validators. */
  predicate IsValidCreateRequest(req: CreateVolumeRequest) {
    IsValidVolumeName(req.name) && IsValidVolumeCapabilities(req.capabilities)
  }

  /** The locked section of `CreateVolume`: take the name's lock, allocate,
      release the lock. The reply is the allocated NQN. */
  function AllocateUnderLock(registry: Registry, locks: LockSet, volumeName: string, order: seq<string>)
    : (out: Outcome<string>)
    requires WellFormed(registry)
    requires IsIterationOrder(order, registry.available)
    ensures out.locks == locks
    ensures WellFormed(out.registry)
    ensures volumeName in locks ==> out == Outcome(registry, locks, Err(Aborted))
    ensures volumeName !in locks ==>
              var allocation := AllocateDevice(registry, volumeName, order);
              && out.registry == allocation.0
              && (allocation.1.Err? ==> out.reply == Err(ResourceExhausted))
              && (allocation.1.Ok? ==> out.reply == Ok(allocation.1.value.disk.nqn))
  {
    var acquire := TryAcquire(locks, volumeName);
    if !acquire.0 then Outcome(registry, locks, Err(Aborted))
    else
      AcquireThenRelease(locks, volumeName);
      var allocation := AllocateDevice(registry, volumeName, order);
      var unlocked := Release(acquire.1, volumeName);
      if allocation.1.Err? then Outcome(allocation.0, unlocked, Err(ResourceExhausted))
      else Outcome(allocation.0, unlocked, Ok(allocation.1.value.disk.nqn))
  }

  /** The steps of `CreateVolume` after a successful discovery: allocate under
      the name's lock and describe the allocated subsystem as the new volume. */
  function CreateDiscovered(discovered: Registry, locks: LockSet, req: CreateVolumeRequest, order: seq<string>)
    : (out: Outcome<Volume>)
    requires WellFormed(discovered)
    requires IsIterationOrder(order, discovered.available)
    ensures out.locks == locks
    ensures WellFormed(out.registry)
    ensures out.reply.Err? ==> out.reply.error == Aborted || out.reply.error == ResourceExhausted
    ensures out.reply == Err(Aborted) <==> req.name in locks
    ensures out.reply == Err(ResourceExhausted) <==>
              req.name !in locks && AllocateDevice(discovered, req.name, order).1.Err?
    ensures out.reply.Err? ==> out.registry == discovered
    ensures out.reply.Ok? ==>
              var allocation := AllocateDevice(discovered, req.name, order);
              && allocation.1.Ok?
              && out.registry == allocation.0
              && out.reply.value == Volume(allocation.1.value.disk.nqn, UseActualDeviceCapacity,
                                           ParametersOf(req), req.contentSource)
  {
    var locked := AllocateUnderLock(discovered, locks, req.name, order);
    match locked.reply
    case Err(code) => Outcome(locked.registry, locks, Err(code))
    case Ok(nqn) =>
      Outcome(locked.registry, locks, Ok(Volume(nqn, UseActualDeviceCapacity, ParametersOf(req), req.contentSource)))
  }

  /** The steps of `CreateVolume` after validation: discover, then allocate
      under the name's lock. A failed discovery is Internal and changes nothing. */
  function DiscoverAndCreate(registry: Registry, locks: LockSet, req: CreateVolumeRequest,
                             output: DiscoverOutput, order: seq<string>): (out: Outcome<Volume>)
    requires WellFormed(registry)
    requires IsIterationOrder(order, Discovered(registry, req, output).available)
    ensures out.locks == locks
    ensures WellFormed(out.registry)
    ensures out.reply == Err(Internal) <==> Discovery(registry, req, output).1.Err?
    ensures out.reply == Err(Internal) ==> out.registry == registry
    ensures Discovery(registry, req, output).1.Ok? ==>
              out == CreateDiscovered(Discovered(registry, req, output), locks, req, order)
  {
    var discovery := Discovery(registry, req, output);
    if discovery.1.Err? then Outcome(registry, locks, Err(Internal))
    else CreateDiscovered(discovery.0, locks, req, order)
  }

  /** `CreateVolume`: validate name and capabilities, discover, then allocate
      under the name's lock. `order` is the iteration order of the available set
      after discovery. Each failing step has its own code. */
  function CreateVolume(registry: Registry, locks: LockSet, req: CreateVolumeRequest,
                        output: DiscoverOutput, order: seq<string>): (out: Outcome<Volume>)
    requires WellFormed(registry)
    requires IsIterationOrder(order, Discovered(registry, req, output).available)
    ensures out.locks == locks
    ensures WellFormed(out.registry)
    ensures !IsValidVolumeName(req.name) ==> out == Outcome(registry, locks, Err(InvalidArgument))
    ensures IsValidVolumeName(req.name) && !IsValidVolumeCapabilities(req.capabilities) ==>
              out == Outcome(registry, locks, Err(InvalidArgument))
    ensures IsValidCreateRequest(req) ==> out == DiscoverAndCreate(registry, locks, req, output, order)
  {
    if !IsValidVolumeName(req.name) then Outcome(registry, locks, Err(InvalidArgument))
    else if !IsValidVolumeCapabilities(req.capabilities) then Outcome(registry, locks, Err(InvalidArgument))
    else DiscoverAndCreate(registry, locks, req, output, order)
  }

  /** The reply codes of `CreateVolume`, each in terms of the step that fails:
      a valid request fails with Internal exactly when discovery fails, with
      Aborted exactly when the name is locked, and with ResourceExhausted exactly
      when allocation fails; success returns the allocated NQN. */
  lemma CreateVolumeReplies(registry: Registry, locks: LockSet, req: CreateVolumeRequest,
                            output: DiscoverOutput, order: seq<string>)
    requires WellFormed(registry)
    requires IsIterationOrder(order, Discovered(registry, req, output).available)
    ensures var out := CreateVolume(registry, locks, req, output, order);
            var discovered := Discovered(registry, req, output);
            && (out.reply == Err(InvalidArgument) <==> !IsValidCreateRequest(req))
            && (out.reply == Err(Internal) <==> IsValidCreateRequest(req) && Discovery(registry, req, output).1.Err?)
            && (out.reply == Err(Aborted) <==>
                  IsValidCreateRequest(req) && Discovery(registry, req, output).1.Ok? && req.name in locks)
            && (out.reply == Err(ResourceExhausted) <==>
                  IsValidCreateRequest(req) && Discovery(registry, req, output).1.Ok? && req.name !in locks
                  && AllocateDevice(discovered, req.name, order).1.Err?)
            && (out.reply.Ok? ==>
                  AllocateDevice(discovered, req.name, order).1.Ok?
                  && out.registry == AllocateDevice(discovered, req.name, order).0
                  && out.reply.value.volumeId == AllocateDevice(discovered, req.name, order).1.value.disk.nqn)
  {
    if IsValidCreateRequest(req) && Discovery(registry, req, output).1.Ok? {
      var discovered := Discovered(registry, req, output);
      assert CreateVolume(registry, locks, req, output, order) == CreateDiscovered(discovered, locks, req, order);
    }
  }

  /** A created volume's ID is the NQN of a subsystem that was available after
      discovery and is now bound to the requested name, allocated and carrying
      that name; nothing else is bound anew. */
  lemma CreatedVolumeIsBound(registry: Registry, locks: LockSet, req: CreateVolumeRequest,
                             output: DiscoverOutput, order: seq<string>)
    requires WellFormed(registry)
    requires IsIterationOrder(order, Discovered(registry, req, output).available)
    requires CreateVolume(registry, locks, req, output, order).reply.Ok?
    ensures var out := CreateVolume(registry, locks, req, output, order);
            var before := Discovered(registry, req, output);
            var nqn := out.reply.value.volumeId;
            && req.name != "" && req.name !in locks && req.name !in before.volumeToNqn
            && nqn != "" && nqn in before.available && !before.devices[nqn].isAllocated
            && out.registry.volumeToNqn == before.volumeToNqn[req.name := nqn]
            && out.registry.available == before.available - {nqn}
            && out.registry.devices[nqn] == VolumeInfo(before.devices[nqn].disk.(volName := req.name), true)
            && out.reply.value.capacityBytes == 0
            && out.reply.value.volumeContext == (if req.parameters.None? then map[] else req.parameters.value)
  {
  }

  /** `DeleteVolume`: validate the ID, lock it, and release the subsystem whose
      NQN it is, known or not. */
  function DeleteVolume(registry: Registry, locks: LockSet, volumeId: string): (out: Outcome<()>)
    requires WellFormed(registry)
    ensures out.locks == locks
    ensures !IsValidVolumeID(volumeId) ==> out == Outcome(registry, locks, Err(InvalidArgument))
    ensures IsValidVolumeID(volumeId) && volumeId in locks ==> out == Outcome(registry, locks, Err(Aborted))
    ensures out.reply.Ok? <==> IsValidVolumeID(volumeId) && volumeId !in locks
    ensures out.reply.Ok? ==> out.registry == ReleaseDevice(registry, volumeId)
    ensures out.reply.Err? ==> out.registry == registry
    ensures WellFormed(out.registry)
  {
    if !IsValidVolumeID(volumeId) then Outcome(registry, locks, Err(InvalidArgument))
    else
      var (acquired, held) := TryAcquire(locks, volumeId);
      if !acquired then Outcome(registry, locks, Err(Aborted))
      else
        AcquireThenRelease(locks, volumeId);
        Outcome(ReleaseDevice(registry, volumeId), Release(held, volumeId), Ok(()))
  }

  /** CreateVolume keeps the registry's table invariant. */
  lemma CreatePreservesValid(registry: Registry, locks: LockSet, req: CreateVolumeRequest,
                             output: DiscoverOutput, order: seq<string>)
    requires Valid(registry)
    requires IsIterationOrder(order, Discovered(registry, req, output).available)
    ensures Valid(CreateVolume(registry, locks, req, output, order).registry)
  {
    var out := CreateVolume(registry, locks, req, output, order);
    if IsValidCreateRequest(req) && Discovery(registry, req, output).1.Ok? {
      var discovered := Discovered(registry, req, output);
      DiscoverPreservesValid(registry, Some(ParametersOf(req)), output);
      AllocatePreservesValid(discovered, req.name, order);
      assert out.registry == discovered || out.registry == AllocateDevice(discovered, req.name, order).0;
    } else {
      assert out.registry == registry;
    }
  }

  /** DeleteVolume keeps the registry's table invariant. */
  lemma DeletePreservesValid(registry: Registry, locks: LockSet, volumeId: string)
    requires Valid(registry)
    ensures Valid(DeleteVolume(registry, locks, volumeId).registry)
  {
    ReleasePreservesValid(registry, volumeId);
  }

  /** CreateVolume is not idempotent: asking again for a name that is still bound
      fails with ResourceExhausted once discovery succeeds and the name is not
      locked. */
  lemma RepeatedCreateIsExhausted(registry: Registry, locks: LockSet, req: CreateVolumeRequest,
                                  output: DiscoverOutput, order: seq<string>,
                                  output2: DiscoverOutput, order2: seq<string>)
    requires WellFormed(registry)
    requires IsIterationOrder(order, Discovered(registry, req, output).available)
    requires CreateVolume(registry, locks, req, output, order).reply.Ok?
    requires IsIterationOrder(order2, Discovered(CreateVolume(registry, locks, req, output, order).registry, req, output2).available)
    requires DiscoverDevices(CreateVolume(registry, locks, req, output, order).registry,
                             Some(ParametersOf(req)), output2).1.Ok?
    ensures CreateVolume(CreateVolume(registry, locks, req, output, order).registry, locks,
                         req, output2, order2).reply == Err(ResourceExhausted)
  {
    var first := CreateVolume(registry, locks, req, output, order);
    CreatedVolumeIsBound(registry, locks, req, output, order);
    var again := Discovered(first.registry, req, output2);
    assert req.name in again.volumeToNqn;
    assert AllocateDevice(again, req.name, order2).1.Err?;
  }

  /** Deleting what CreateVolume returned unbinds the name and makes the
      subsystem available and unallocated again, provided no other call holds
      the NQN's lock. */
  lemma CreateThenDeleteFreesDevice(registry: Registry, locks: LockSet, req: CreateVolumeRequest,
                                    output: DiscoverOutput, order: seq<string>)
    requires WellFormed(registry)
    requires IsIterationOrder(order, Discovered(registry, req, output).available)
    requires CreateVolume(registry, locks, req, output, order).reply.Ok?
    requires CreateVolume(registry, locks, req, output, order).reply.value.volumeId !in locks
    ensures var created := CreateVolume(registry, locks, req, output, order);
            var nqn := created.reply.value.volumeId;
            var deleted := DeleteVolume(created.registry, created.locks, nqn);
            && deleted.reply.Ok?
            && req.name !in deleted.registry.volumeToNqn
            && nqn in deleted.registry.available
            && !deleted.registry.devices[nqn].isAllocated
            && deleted.locks == locks
  {
    CreatedVolumeIsBound(registry, locks, req, output, order);
    var created := CreateVolume(registry, locks, req, output, order);
    ReleaseUnbinds(created.registry, created.reply.value.volumeId);
  }

  /** Deleting an ID the registry never heard of succeeds and changes nothing. */
  lemma DeleteUnknownIsNoop(registry: Registry, locks: LockSet, volumeId: string)
    requires WellFormed(registry)
    requires volumeId != "" && volumeId !in locks && volumeId !in registry.devices
    ensures DeleteVolume(registry, locks, volumeId) == Outcome(registry, locks, Ok(()))
  {
  }

  /** DeleteVolume is idempotent in the CSI sense: the second call also succeeds
      and leaves the registry as the first left it. */
  lemma DeleteIdempotent(registry: Registry, locks: LockSet, volumeId: string)
    requires WellFormed(registry)
    requires "" !in registry.volumeToNqn
    requires volumeId != "" && volumeId !in locks
    ensures var first := DeleteVolume(registry, locks, volumeId);
            DeleteVolume(first.registry, first.locks, volumeId) == first
  {
    ReleaseDeviceIdempotent(registry, volumeId);
  }

  /** The controller RPCs other than CreateVolume and DeleteVolume. */
  datatype OtherControllerRpc = ControllerExpandVolume | ControllerGetVolume | ControllerPublishVolume
                              | ControllerUnpublishVolume | ValidateVolumeCapabilities | ListVolumes
                              | GetCapacity | ControllerGetCapabilities | CreateSnapshot
                              | DeleteSnapshot | ListSnapshots

  /** Only `ControllerGetCapabilities` answers, with the driver's capability
      list; the rest are Unimplemented. */
  function AnswerOther(rpc: OtherControllerRpc, cscap: seq<ControllerServiceCapability>)
    : (r: Result<seq<ControllerServiceCapability>, Code>)
    ensures r.Ok? <==> rpc == ControllerGetCapabilities
    ensures r.Ok? ==> r.value == cscap
    ensures r.Err? ==> r.error == Unimplemented
  {
    match rpc
    case ControllerGetCapabilities => Ok(cscap)
    case _ => Err(Unimplemented)
  }
}

=== FILE: csi.dfy ===
/** The parts of the CSI protocol and gRPC status codes that the driver uses. */
module Csi {
  import opened Results

  /** gRPC status codes returned by the driver. `Unknown` is what a plain Go
      error (not a status) becomes on the wire. */
  datatype Code = InvalidArgument | NotFound | Aborted | ResourceExhausted
                | Internal | Unimplemented | Unknown

  /** The mount access type of a volume capability. */
  datatype MountSpec = MountSpec(fsType: string, mountFlags: seq<string>)

  /** A `VolumeCapability`: `block` says whether the block access type is set,
      `mount` holds the mount access type when set. */
  datatype VolumeCapability = VolumeCapability(block: bool, mount: Option<MountSpec>)

  datatype AccessMode = AccessModeUnknown | SingleNodeWriter | SingleNodeReaderOnly
                      | MultiNodeReaderOnly | MultiNodeSingleWriter | MultiNodeMultiWriter

  datatype ControllerRpcType = RpcUnknown | CreateDeleteVolume | PublishUnpublishVolume
                             | ListVolumesRpc | GetCapacityRpc | CreateDeleteSnapshot
                             | ListSnapshotsRpc | CloneVolume | PublishReadonly | ExpandVolumeRpc

  /** A `ControllerServiceCapability` of the RPC kind. */
  datatype ControllerServiceCapability = ControllerServiceCapability(rpcType: ControllerRpcType)

  datatype NodeRpcType = NodeRpcUnknown | StageUnstageVolume | GetVolumeStatsRpc | NodeExpandVolumeRpc
}

=== FILE: device_registry.dfy ===
/** pkg/nvmf/device_registry.go: the controller's table of discovered NVMe-oF
    subsystems, which subsystem backs which volume, and which are free. Every
    operation is a function from the old table to the new one; the output of
    `nvme discover`, the Kubernetes PersistentVolume list and Go's map iteration
    order are inputs. */
module DeviceRegistry {
  import opened Results
  import opened GoStrings
  import opened NvmfTypes

  const ProvisionedByAnnotation := "pv.kubernetes.io/provisioned-by"
  const DiscoveryNqnMarker := "discovery"

  /** `VolumeInfo`: a subsystem and whether a volume holds it. */
  datatype VolumeInfo = VolumeInfo(disk: DiskInfo, isAllocated: bool)

  /** `DeviceRegistry`: every known subsystem by NQN, the NQNs free for
      allocation, the NQN bound to each volume name, and whether the one-shot
      sync from the API server has happened. */
  datatype Registry = Registry(
    devices: map<string, VolumeInfo>,
    available: set<string>,
    volumeToNqn: map<string, string>,
    initialSyncDone: bool)

  /** `NewDeviceRegistry`. */
  function NewDeviceRegistry(): Registry {
    Registry(map[], {}, map[], false)
  }

  /** The shape every operation keeps: an available NQN names a known subsystem
      (allocation looks it up), and each entry is filed under its own NQN. */
  ghost predicate WellFormed(r: Registry) {
    r.available <= r.devices.Keys
    && forall n :: n in r.devices ==> r.devices[n].disk.nqn == n
  }

  /** The table invariant: an available NQN is unallocated, and a binding v -> n
      points at an allocated entry whose volume name is v. */
  ghost predicate Valid(r: Registry) {
    WellFormed(r)
    && (forall n :: n in r.available ==> !r.devices[n].isAllocated)
    && (forall v :: v in r.volumeToNqn ==>
          r.volumeToNqn[v] in r.devices
          && r.devices[r.volumeToNqn[v]].isAllocated
          && r.devices[r.volumeToNqn[v]].disk.volName == v)
  }

  lemma NewRegistryValid()
    ensures Valid(NewDeviceRegistry())
    ensures !NewDeviceRegistry().initialSyncDone
  {
  }

  /** `order` is one possible iteration order of the available set: it lists
      each available NQN and nothing else. */
  ghost predicate IsIterationOrder(order: seq<string>, available: set<string>) {
    (forall i :: 0 <= i < |order| ==> order[i] in available)
    && (forall n :: n in available ==> n in order)
  }

  /** A subsystem that allocation may hand out. */
  predicate IsFree(r: Registry, n: string)
    requires n in r.devices
  {
    !r.devices[n].isAllocated
  }

  /** Position in `order` of the first NQN whose entry is not flagged allocated,
      or |order| when there is none. */
  function FirstFree(r: Registry, order: seq<string>): (k: nat)
    requires forall i :: 0 <= i < |order| ==> order[i] in r.devices
    ensures k <= |order|
    ensures k < |order| ==> IsFree(r, order[k])
    ensures forall j :: 0 <= j < k ==> !IsFree(r, order[j])
  {
    if |order| == 0 then 0
    else if IsFree(r, order[0]) then 0
    else 1 + FirstFree(r, order[1..])
  }

  datatype RegistryError = AlreadyAllocated(volumeName: string, nqn: string) | NoAvailableDevices

  /** `AllocateDevice`: bind `volumeName` to the first free available NQN in the
      map's iteration order `order`. An entry flagged allocated is skipped; an
      empty NQN picked this way reads as "none found". */
  function AllocateDevice(r: Registry, volumeName: string, order: seq<string>)
    : (out: (Registry, Result<VolumeInfo, RegistryError>))
    requires WellFormed(r)
    requires IsIterationOrder(order, r.available)
    ensures volumeName in r.volumeToNqn ==>
              out == (r, Err(AlreadyAllocated(volumeName, r.volumeToNqn[volumeName])))
    ensures r.available == {} ==> out.1.Err? && out.0 == r
    ensures (forall n :: n in r.available ==> !IsFree(r, n)) ==> out.1.Err? && out.0 == r
    ensures out.1.Err? ==> out.0 == r
    ensures volumeName !in r.volumeToNqn && out.1.Err? ==> out.1 == Err(NoAvailableDevices)
    ensures out.1.Ok? ==>
      var nqn := out.1.value.disk.nqn;
      && volumeName !in r.volumeToNqn
      && nqn != "" && nqn in r.available && IsFree(r, nqn)
      && out.1.value == VolumeInfo(r.devices[nqn].disk.(volName := volumeName), true)
      && out.0 == r.(devices := r.devices[nqn := out.1.value],
                     available := r.available - {nqn},
                     volumeToNqn := r.volumeToNqn[volumeName := nqn])
    ensures WellFormed(out.0)
  {
    if volumeName in r.volumeToNqn then
      (r, Err(AlreadyAllocated(volumeName, r.volumeToNqn[volumeName])))
    else if |r.available| == 0 then
      (r, Err(NoAvailableDevices))
    else
      var k := FirstFree(r, order);
      var nqn := if k < |order| then order[k] else "";
      if nqn == "" then (r, Err(NoAvailableDevices))
      else
        var device := VolumeInfo(r.devices[nqn].disk.(volName := volumeName), true);
        (r.(devices := r.devices[nqn := device],
            available := r.available - {nqn},
            volumeToNqn := r.volumeToNqn[volumeName := nqn]),
         Ok(device))
  }

  /** `ReleaseDevice`: an unknown NQN is ignored; otherwise the entry is freed,
      its volume name's binding dropped and the NQN made available again. */
  function ReleaseDevice(r: Registry, nqn: string): (r': Registry)
    ensures nqn !in r.devices ==> r' == r
    ensures nqn in r.devices ==>
      && r'.devices == r.devices[nqn := VolumeInfo(r.devices[nqn].disk.(volName := ""), false)]
      && r'.available == r.available + {nqn}
      && r'.volumeToNqn == r.volumeToNqn - {r.devices[nqn].disk.volName}
      && r'.initialSyncDone == r.initialSyncDone
    ensures WellFormed(r) ==> WellFormed(r')
  {
    if nqn !in r.devices then r
    else
      var device := r.devices[nqn];
      r.(devices := r.devices[nqn := VolumeInfo(device.disk.(volName := ""), false)],
         available := r.available + {nqn},
         volumeToNqn := r.volumeToNqn - {device.disk.volName})
  }

  /** Releasing a known subsystem drops the binding of the volume it carried
      and leaves it available and unallocated. */
  lemma ReleaseUnbinds(r: Registry, nqn: string)
    requires WellFormed(r)
    requires nqn in r.devices
    ensures var r' := ReleaseDevice(r, nqn);
            && r.devices[nqn].disk.volName !in r'.volumeToNqn
            && nqn in r'.available && nqn in r'.devices && !r'.devices[nqn].isAllocated
  {
  }

  lemma AllocatePreservesValid(r: Registry, volumeName: string, order: seq<string>)
    requires Valid(r)
    requires IsIterationOrder(order, r.available)
    ensures Valid(AllocateDevice(r, volumeName, order).0)
  {
    var (r', res) := AllocateDevice(r, volumeName, order);
    if res.Ok? {
      var nqn := res.value.disk.nqn;
      forall v | v in r'.volumeToNqn
        ensures r'.volumeToNqn[v] in r'.devices
        ensures r'.devices[r'.volumeToNqn[v]].isAllocated
        ensures r'.devices[r'.volumeToNqn[v]].disk.volName == v
      {
        if v != volumeName {
          assert r.volumeToNqn[v] != nqn;
        }
      }
    }
  }

  lemma ReleasePreservesValid(r: Registry, nqn: string)
    requires Valid(r)
    ensures Valid(ReleaseDevice(r, nqn))
  {
    var r' := ReleaseDevice(r, nqn);
    if nqn in r.devices {
      var name := r.devices[nqn].disk.volName;
      forall v | v in r'.volumeToNqn
        ensures r'.volumeToNqn[v] in r'.devices
        ensures r'.devices[r'.volumeToNqn[v]].isAllocated
        ensures r'.devices[r'.volumeToNqn[v]].disk.volName == v
      {
        assert v != name && v in r.volumeToNqn;
      }
    }
  }

  /** On a valid table, allocation succeeds exactly when the name is unbound and
      some non-empty NQN is available. */
  lemma AllocateSucceedsIffDeviceAvailable(r: Registry, volumeName: string, order: seq<string>)
    requires Valid(r)
    requires "" !in r.available
    requires IsIterationOrder(order, r.available)
    ensures AllocateDevice(r, volumeName, order).1.Ok? <==>
              volumeName !in r.volumeToNqn && r.available != {}
  {
    if volumeName !in r.volumeToNqn && r.available != {} {
      var n :| n in r.available;
      var i :| 0 <= i < |order| && order[i] == n;
      var k := FirstFree(r, order);
      assert IsFree(r, order[i]);
      assert k <= i;
    }
  }

  /** Two allocations in a row never hand out the same subsystem. */
  lemma AllocationsAreDistinct(r: Registry, name1: string, order1: seq<string>, name2: string, order2: seq<string>)
    requires Valid(r)
    requires IsIterationOrder(order1, r.available)
    requires AllocateDevice(r, name1, order1).1.Ok?
    requires IsIterationOrder(order2, AllocateDevice(r, name1, order1).0.available)
    requires AllocateDevice(AllocateDevice(r, name1, order1).0, name2, order2).1.Ok?
    ensures AllocateDevice(AllocateDevice(r, name1, order1).0, name2, order2).1.value.disk.nqn
            != AllocateDevice(r, name1, order1).1.value.disk.nqn
    ensures name1 != name2
  {
  }

  /** The NQNs of a set in some order. */
  ghost function Enumerate(s: set<string>): (order: seq<string>)
    ensures forall i :: 0 <= i < |order| ==> order[i] in s
    ensures forall n :: n in s ==> n in order
    decreases s
  {
    if s == {} then []
    else
      var x :| x in s;
      [x] + Enumerate(s - {x})
  }

  /** The choice is the map's: any free, non-empty available NQN is picked under
      some iteration order. */
  lemma AnyFreeDeviceCanBeChosen(r: Registry, volumeName: string, nqn: string)
    requires WellFormed(r)
    requires volumeName !in r.volumeToNqn
    requires nqn in r.available && IsFree(r, nqn) && nqn != ""
    ensures exists order :: IsIterationOrder(order, r.available)
              && AllocateDevice(r, volumeName, order).1.Ok?
              && AllocateDevice(r, volumeName, order).1.value.disk.nqn == nqn
  {
    var order := [nqn] + Enumerate(r.available - {nqn});
    assert order[0] == nqn;
    assert IsIterationOrder(order, r.available);
    assert FirstFree(r, order) == 0;
  }

  /** Releasing a subsystem makes it allocatable again. */
  lemma ReleaseThenAllocate(r: Registry, nqn: string, volumeName: string)
    requires Valid(r)
    requires nqn in r.devices && nqn != ""
    requires volumeName !in ReleaseDevice(r, nqn).volumeToNqn
    ensures exists order :: IsIterationOrder(order, ReleaseDevice(r, nqn).available)
              && AllocateDevice(ReleaseDevice(r, nqn), volumeName, order).1.Ok?
              && AllocateDevice(ReleaseDevice(r, nqn), volumeName, order).1.value.disk.nqn == nqn
  {
    AnyFreeDeviceCanBeChosen(ReleaseDevice(r, nqn), volumeName, nqn);
  }

  /** Releasing what was just allocated gives the table back, provided the
      subsystem carried no volume name before. */
  lemma AllocateReleaseRoundTrip(r: Registry, volumeName: string, order: seq<string>)
    requires Valid(r)
    requires IsIterationOrder(order, r.available)
    requires AllocateDevice(r, volumeName, order).1.Ok?
    requires r.devices[AllocateDevice(r, volumeName, order).1.value.disk.nqn].disk.volName == ""
    ensures ReleaseDevice(AllocateDevice(r, volumeName, order).0,
                          AllocateDevice(r, volumeName, order).1.value.disk.nqn) == r
  {
    var (r', res) := AllocateDevice(r, volumeName, order);
    var nqn := res.value.disk.nqn;
    var r'' := ReleaseDevice(r', nqn);
    assert r''.devices[nqn] == r.devices[nqn];
    assert r''.devices == r.devices;
    assert r''.volumeToNqn == r.volumeToNqn;
  }

  /** Releasing twice is releasing once, unless a volume named "" is bound. */
  lemma ReleaseDeviceIdempotent(r: Registry, nqn: string)
    requires WellFormed(r)
    requires "" !in r.volumeToNqn
    ensures ReleaseDevice(ReleaseDevice(r, nqn), nqn) == ReleaseDevice(r, nqn)
  {
    var r' := ReleaseDevice(r, nqn);
    if nqn in r.devices {
      assert r'.devices[nqn].disk.volName == "";
      assert "" !in r'.volumeToNqn;
      assert r'.volumeToNqn - {""} == r'.volumeToNqn;
    }
  }

  /** A discovery record that names the discovery subsystem itself. */
  predicate IsDiscoveryRecord(d: DiskInfo) {
    Contains(ToLower(d.nqn), DiscoveryNqnMarker)
  }

  /** A record `parseNvmeDiscoveryOutput` keeps for transport `targetType`. */
  predicate IsWantedRecord(d: DiskInfo, targetType: string) {
    !IsDiscoveryRecord(d) && d.transport == targetType
  }

  /** The filtering loop of `parseNvmeDiscoveryOutput`, over the decoded records. */
  function FilterRecords(records: seq<DiskInfo>, targetType: string): (kept: seq<DiskInfo>)
    ensures |kept| <= |records|
    ensures forall d :: d in kept <==> d in records && IsWantedRecord(d, targetType)
  {
    if |records| == 0 then []
    else
      var rest := FilterRecords(records[1..], targetType);
      if IsWantedRecord(records[0], targetType) then [records[0]] + rest else rest
  }

  /** Filtering a concatenation filters each part: the kept records keep their
      relative order. */
  lemma {:induction false} FilterRecordsAppend(a: seq<DiskInfo>, b: seq<DiskInfo>, targetType: string)
    ensures FilterRecords(a + b, targetType) == FilterRecords(a, targetType) + FilterRecords(b, targetType)
    decreases |a|
  {
    if |a| > 0 {
      assert (a + b)[1..] == a[1..] + b;
      FilterRecordsAppend(a[1..], b, targetType);
    } else {
      assert a + b == b;
    }
  }

  /** A single record is kept exactly when it is wanted. */
  lemma FilterRecordsSingle(d: DiskInfo, targetType: string)
    ensures FilterRecords([d], targetType) == if IsWantedRecord(d, targetType) then [d] else []
  {
    assert [d][1..] == [];
  }

  /** Of several wanted records with the same NQN, the one discovery keeps is
      the last in the output. */
  lemma DiscoveryKeepsLastRecord(records: seq<DiskInfo>, targetType: string, i: nat)
    requires i < |records| && IsWantedRecord(records[i], targetType)
    requires forall j :: i < j < |records| && IsWantedRecord(records[j], targetType) ==> records[j].nqn != records[i].nqn
    ensures IndexByNqn(FilterRecords(records, targetType))[records[i].nqn] == records[i]
  {
    var before := FilterRecords(records[..i], targetType);
    var after := FilterRecords(records[i + 1..], targetType);
    assert records == records[..i] + [records[i]] + records[i + 1..];
    FilterRecordsAppend(records[..i] + [records[i]], records[i + 1..], targetType);
    FilterRecordsAppend(records[..i], [records[i]], targetType);
    FilterRecordsSingle(records[i], targetType);
    var kept := before + [records[i]] + after;
    assert FilterRecords(records, targetType) == kept;
    forall j | |before| < j < |kept|
      ensures kept[j].nqn != records[i].nqn
    {
      assert kept[j] == after[j - |before| - 1];
      assert kept[j] in records[i + 1..];
    }
    assert kept[|before|] == records[i];
    IndexByNqnLastWins(kept, |before|);
  }

  /** `parseNvmeDiscoveryOutput`: `records` is the decoded "records" array, or
      `None` when the output is not valid JSON (which yields no targets). */
  function ParseNvmeDiscoveryOutput(records: Option<seq<DiskInfo>>, targetType: string): (targets: seq<DiskInfo>)
    ensures records.None? ==> targets == []
    ensures records.Some? ==> targets == FilterRecords(records.value, targetType)
  {
    match records
    case None => []
    case Some(rs) => FilterRecords(rs, targetType)
  }

  /** The records keyed by NQN, folded from first to last. */
  function IndexByNqn(ds: seq<DiskInfo>): (m: map<string, DiskInfo>)
    ensures forall i :: 0 <= i < |ds| ==> ds[i].nqn in m
    ensures forall n :: n in m ==> m[n].nqn == n && m[n] in ds
  {
    if |ds| == 0 then map[]
    else
      var last := ds[|ds| - 1];
      IndexByNqn(ds[..|ds| - 1])[last.nqn := last]
  }

  /** A later record with the same NQN replaces an earlier one: the record kept
      for an NQN is its last occurrence. */
  lemma {:induction false} IndexByNqnLastWins(ds: seq<DiskInfo>, i: nat)
    requires i < |ds|
    requires forall j :: i < j < |ds| ==> ds[j].nqn != ds[i].nqn
    ensures IndexByNqn(ds)[ds[i].nqn] == ds[i]
  {
    if i < |ds| - 1 {
      var init := ds[..|ds| - 1];
      assert init[i] == ds[i];
      IndexByNqnLastWins(init, i);
    }
  }

  /** The output of `nvme discover ... -o json`: the command failed, or it printed
      something whose "records" array decodes to the given list (`None` when it
      does not decode). */
  datatype DiscoverOutput = CommandFailed | Printed(records: Option<seq<DiskInfo>>)

  datatype DiscoveryError = NilParams | MissingParams | UnsupportedTransport(targetType: string) | CommandError

  /** `discoverNVMeDevices`: validate the parameters, then index the kept records
      by NQN. `params` is `None` for a nil map. */
  function DiscoverNVMeDevices(params: Option<map<string, string>>, output: DiscoverOutput)
    : (r: Result<map<string, DiskInfo>, DiscoveryError>)
    ensures params.None? ==> r == Err(NilParams)
    ensures (params.Some? && (Lookup(params.value, ParamAddr) == "" || Lookup(params.value, ParamPort) == ""
                              || Lookup(params.value, ParamType) == "")) ==> r == Err(MissingParams)
    ensures r.Ok? ==> params.Some?
                      && Lookup(params.value, ParamAddr) != "" && Lookup(params.value, ParamPort) != ""
                      && (ToLower(Lookup(params.value, ParamType)) == "tcp"
                          || ToLower(Lookup(params.value, ParamType)) == "rdma")
                      && output.Printed?
    ensures r.Ok? ==> forall n :: n in r.value ==>
                        r.value[n].nqn == n && IsWantedRecord(r.value[n], Lookup(params.value, ParamType))
    ensures r.Ok? && output.records.None? ==> r.value == map[]
    ensures (params.Some? && Lookup(params.value, ParamAddr) != "" && Lookup(params.value, ParamPort) != ""
             && Lookup(params.value, ParamType) != "")
            ==> var targetType := Lookup(params.value, ParamType);
                && (ToLower(targetType) != "tcp" && ToLower(targetType) != "rdma" ==>
                      r == Err(UnsupportedTransport(targetType)))
                && (ToLower(targetType) in {"tcp", "rdma"} && output.CommandFailed? ==> r == Err(CommandError))
                && (ToLower(targetType) in {"tcp", "rdma"} && output.Printed? ==>
                      r == Ok(IndexByNqn(ParseNvmeDiscoveryOutput(output.records, targetType))))
  {
    match params
    case None => Err(NilParams)
    case Some(p) =>
      var targetAddr := Lookup(p, ParamAddr);
      var targetPort := Lookup(p, ParamPort);
      var targetType := Lookup(p, ParamType);
      if targetAddr == "" || targetPort == "" || targetType == "" then Err(MissingParams)
      else if ToLower(targetType) != "tcp" && ToLower(targetType) != "rdma" then
        Err(UnsupportedTransport(targetType))
      else match output
        case CommandFailed => Err(CommandError)
        case Printed(records) =>
          var targets := ParseNvmeDiscoveryOutput(records, targetType);
          var m := IndexByNqn(targets);
          assert forall n :: n in m ==> m[n] in targets;
          Ok(m)
  }

  /** Requested transport "TCP" passes the case-insensitive check, but the exact
      comparison with the records' "tcp" then drops every record. */
  lemma {:induction false} UppercaseTransportFindsNothing(records: seq<DiskInfo>)
    requires forall i :: 0 <= i < |records| ==> records[i].transport == "tcp"
    ensures FilterRecords(records, "TCP") == []
  {
    if |records| > 0 {
      UppercaseTransportFindsNothing(records[1..]);
    }
  }

  /** The merge step of `DiscoverDevices`: every newly seen NQN enters unallocated
      and available; known NQNs are left alone. */
  function MergeDiscovered(r: Registry, found: map<string, DiskInfo>): (r': Registry)
    ensures r'.devices.Keys == r.devices.Keys + found.Keys
    ensures forall n :: n in r.devices ==> r'.devices[n] == r.devices[n]
    ensures forall n :: n in found && n !in r.devices ==> r'.devices[n] == VolumeInfo(found[n], false)
    ensures r'.available == r.available + (found.Keys - r.devices.Keys)
    ensures r'.volumeToNqn == r.volumeToNqn && r'.initialSyncDone == r.initialSyncDone
  {
    var newNqns := found.Keys - r.devices.Keys;
    var added := map n | n in newNqns :: VolumeInfo(found[n], false);
    r.(devices := r.devices + added, available := r.available + newNqns)
  }

  /** `DiscoverDevices`: a discovery error leaves the table alone, and so does a
      discovery that finds as many subsystems as the table already has. */
  function DiscoverDevices(r: Registry, params: Option<map<string, string>>, output: DiscoverOutput)
    : (out: (Registry, Result<(), DiscoveryError>))
    ensures out.1.Err? <==> DiscoverNVMeDevices(params, output).Err?
    ensures out.1.Err? ==> out.0 == r
    ensures out.1.Ok? && |DiscoverNVMeDevices(params, output).value| == |r.devices| ==> out.0 == r
    ensures out.1.Ok? && |DiscoverNVMeDevices(params, output).value| != |r.devices| ==>
              out.0 == MergeDiscovered(r, DiscoverNVMeDevices(params, output).value)
    ensures forall n :: n in r.devices ==> n in out.0.devices && out.0.devices[n] == r.devices[n]
    ensures out.0.volumeToNqn == r.volumeToNqn
    ensures WellFormed(r) ==> WellFormed(out.0)
  {
    match DiscoverNVMeDevices(params, output)
    case Err(e) => (r, Err(e))
    case Ok(found) =>
      if |found| == |r.devices| then (r, Ok(()))
      else (MergeDiscovered(r, found), Ok(()))
  }

  lemma MergePreservesValid(r: Registry, found: map<string, DiskInfo>)
    requires Valid(r)
    requires forall n :: n in found ==> found[n].nqn == n
    ensures Valid(MergeDiscovered(r, found))
  {
    var r' := MergeDiscovered(r, found);
    forall n | n in r'.available
      ensures n in r'.devices && !r'.devices[n].isAllocated
    {
      if n in r.available {
        assert r'.devices[n] == r.devices[n];
      }
    }
    forall v | v in r'.volumeToNqn
      ensures r'.volumeToNqn[v] in r'.devices
      ensures r'.devices[r'.volumeToNqn[v]] == r.devices[r.volumeToNqn[v]]
    {
    }
  }

  lemma DiscoverPreservesValid(r: Registry, params: Option<map<string, string>>, output: DiscoverOutput)
    requires Valid(r)
    ensures Valid(DiscoverDevices(r, params, output).0)
  {
    var found := DiscoverNVMeDevices(params, output);
    if found.Ok? && |found.value| != |r.devices| {
      MergePreservesValid(r, found.value);
    }
  }

  /** A discovery that finds a different subsystem than the one already known,
      but the same number of them, registers nothing. */
  lemma SameCountDiscoveryIsSkipped(r: Registry, params: Option<map<string, string>>, output: DiscoverOutput)
    requires DiscoverNVMeDevices(params, output).Ok?
    requires |DiscoverNVMeDevices(params, output).value| == |r.devices|
    ensures DiscoverDevices(r, params, output).0.devices == r.devices
  {
  }

  /** The parts of a PersistentVolume the sync reads. */
  datatype CsiSource = CsiSource(driver: string, volumeHandle: string, volumeAttributes: map<string, string>)
  datatype PersistentVolume = PersistentVolume(name: string, annotations: map<string, string>, csi: Option<CsiSource>)

  /** The PV was provisioned by, and is served by, the driver named `driverName`. */
  predicate ClaimedBy(pv: PersistentVolume, driverName: string) {
    ProvisionedByAnnotation in pv.annotations && pv.annotations[ProvisionedByAnnotation] == driverName
    && pv.csi.Some? && pv.csi.value.driver == driverName
  }

  /** The entry recovered from a PV. */
  function RecoveredEntry(pv: PersistentVolume): VolumeInfo
    requires pv.csi.Some?
  {
    var attrs := pv.csi.value.volumeAttributes;
    VolumeInfo(DiskInfo(pv.name, pv.csi.value.volumeHandle, Lookup(attrs, ParamAddr),
                        Lookup(attrs, ParamPort), Lookup(attrs, ParamType), []), true)
  }

  /** One iteration of the `SyncFromPV` loop: a claimed PV whose name is not yet
      bound records its handle as an allocated entry and binds its name to it. */
  function SyncOne(r: Registry, driverName: string, pv: PersistentVolume): (r': Registry)
    ensures !ClaimedBy(pv, driverName) || pv.name in r.volumeToNqn ==> r' == r
    ensures ClaimedBy(pv, driverName) && pv.name !in r.volumeToNqn ==>
              r' == r.(devices := r.devices[pv.csi.value.volumeHandle := RecoveredEntry(pv)],
                       volumeToNqn := r.volumeToNqn[pv.name := pv.csi.value.volumeHandle])
  {
    if !ClaimedBy(pv, driverName) then r
    else if pv.name in r.volumeToNqn then r
    else
      var nqn := pv.csi.value.volumeHandle;
      r.(devices := r.devices[nqn := RecoveredEntry(pv)],
         volumeToNqn := r.volumeToNqn[pv.name := nqn])
  }

  /** The `SyncFromPV` loop over the listed PVs, in order. */
  function SyncAll(r: Registry, driverName: string, pvs: seq<PersistentVolume>): (r': Registry)
    ensures r'.available == r.available && r'.initialSyncDone == r.initialSyncDone
    ensures forall v :: v in r.volumeToNqn ==> v in r'.volumeToNqn && r'.volumeToNqn[v] == r.volumeToNqn[v]
    ensures r.devices.Keys <= r'.devices.Keys
    ensures forall i :: 0 <= i < |pvs| && ClaimedBy(pvs[i], driverName) ==> pvs[i].name in r'.volumeToNqn
    ensures forall v :: v in r'.volumeToNqn && v !in r.volumeToNqn ==>
              exists i :: 0 <= i < |pvs| && pvs[i].name == v && ClaimedBy(pvs[i], driverName)
    ensures WellFormed(r) ==> WellFormed(r')
    decreases |pvs|
  {
    if |pvs| == 0 then r
    else
      var r1 := SyncOne(r, driverName, pvs[0]);
      var r' := SyncAll(r1, driverName, pvs[1..]);
      assert forall i :: 1 <= i < |pvs| ==> pvs[i] == pvs[1..][i - 1];
      r'
  }

  /** No PV of the list that the driver claims has `nqn` as its handle. */
  predicate NotRecovered(pvs: seq<PersistentVolume>, driverName: string, nqn: string) {
    forall i :: 0 <= i < |pvs| && ClaimedBy(pvs[i], driverName) ==> pvs[i].csi.value.volumeHandle != nqn
  }

  /** Devices no claimed PV names keep their entries through the sync. */
  lemma {:induction false} SyncAllFrame(r: Registry, driverName: string, pvs: seq<PersistentVolume>, n: string)
    requires n in r.devices && NotRecovered(pvs, driverName, n)
    ensures n in SyncAll(r, driverName, pvs).devices
    ensures SyncAll(r, driverName, pvs).devices[n] == r.devices[n]
    decreases |pvs|
  {
    if |pvs| > 0 {
      var r1 := SyncOne(r, driverName, pvs[0]);
      assert NotRecovered(pvs[1..], driverName, n) by {
        forall i | 0 <= i < |pvs[1..]| && ClaimedBy(pvs[1..][i], driverName)
          ensures pvs[1..][i].csi.value.volumeHandle != n
        {
          assert pvs[1..][i] == pvs[i + 1];
        }
      }
      SyncAllFrame(r1, driverName, pvs[1..], n);
    }
  }

  /** Every device entry the sync adds or changes is the entry recovered from a
      claimed PV with that handle. */
  lemma {:induction false} SyncAllRecoveredEntries(r: Registry, driverName: string, pvs: seq<PersistentVolume>, n: string)
    requires n in SyncAll(r, driverName, pvs).devices
    requires n !in r.devices || SyncAll(r, driverName, pvs).devices[n] != r.devices[n]
    ensures exists i :: 0 <= i < |pvs| && ClaimedBy(pvs[i], driverName)
                        && pvs[i].csi.value.volumeHandle == n
                        && SyncAll(r, driverName, pvs).devices[n] == RecoveredEntry(pvs[i])
    decreases |pvs|
  {
    var r' := SyncAll(r, driverName, pvs);
    assert |pvs| > 0;
    var r1 := SyncOne(r, driverName, pvs[0]);
    assert r' == SyncAll(r1, driverName, pvs[1..]);
    if n in r1.devices && r'.devices[n] == r1.devices[n] {
      assert r1 != r;
      assert ClaimedBy(pvs[0], driverName) && pvs[0].csi.value.volumeHandle == n;
    } else {
      SyncAllRecoveredEntries(r1, driverName, pvs[1..], n);
      var i :| 0 <= i < |pvs[1..]| && ClaimedBy(pvs[1..][i], driverName)
               && pvs[1..][i].csi.value.volumeHandle == n && r'.devices[n] == RecoveredEntry(pvs[1..][i]);
      assert pvs[1..][i] == pvs[i + 1];
    }
  }

  /** A name the sync binds is bound to the handle of the first claimed PV with
      that name. */
  lemma {:induction false} SyncAllBindsFirstHandle(r: Registry, driverName: string, pvs: seq<PersistentVolume>, v: string)
    requires v !in r.volumeToNqn && v in SyncAll(r, driverName, pvs).volumeToNqn
    ensures exists i :: 0 <= i < |pvs| && pvs[i].name == v && ClaimedBy(pvs[i], driverName)
                        && SyncAll(r, driverName, pvs).volumeToNqn[v] == pvs[i].csi.value.volumeHandle
                        && forall j :: 0 <= j < i ==> !(ClaimedBy(pvs[j], driverName) && pvs[j].name == v)
    decreases |pvs|
  {
    var r' := SyncAll(r, driverName, pvs);
    assert |pvs| > 0;
    var r1 := SyncOne(r, driverName, pvs[0]);
    assert r' == SyncAll(r1, driverName, pvs[1..]);
    if ClaimedBy(pvs[0], driverName) && pvs[0].name == v {
      assert r1.volumeToNqn[v] == pvs[0].csi.value.volumeHandle;
      assert r'.volumeToNqn[v] == r1.volumeToNqn[v];
    } else {
      assert v !in r1.volumeToNqn;
      SyncAllBindsFirstHandle(r1, driverName, pvs[1..], v);
      var i :| 0 <= i < |pvs[1..]| && pvs[1..][i].name == v && ClaimedBy(pvs[1..][i], driverName)
               && r'.volumeToNqn[v] == pvs[1..][i].csi.value.volumeHandle
               && forall j :: 0 <= j < i ==> !(ClaimedBy(pvs[1..][j], driverName) && pvs[1..][j].name == v);
      assert pvs[1..][i] == pvs[i + 1];
      forall j | 0 <= j < i + 1
        ensures !(ClaimedBy(pvs[j], driverName) && pvs[j].name == v)
      {
        if j > 0 { assert pvs[1..][j - 1] == pvs[j]; }
      }
    }
  }

  /** Syncing a list in two parts is syncing the first part, then the second
      from where the first left off. */
  lemma {:induction false} SyncAllConcat(r: Registry, driverName: string, a: seq<PersistentVolume>, b: seq<PersistentVolume>)
    ensures SyncAll(r, driverName, a + b) == SyncAll(SyncAll(r, driverName, a), driverName, b)
    decreases |a|
  {
    if |a| == 0 {
      assert a + b == b;
    } else {
      assert (a + b)[0] == a[0];
      assert (a + b)[1..] == a[1..] + b;
      SyncAllConcat(SyncOne(r, driverName, a[0]), driverName, a[1..], b);
    }
  }

  /** A claimed PV whose name is already bound when the loop reaches it is
      skipped: the registry is as the earlier PVs left it. */
  lemma SyncAllSkipsBoundName(r: Registry, driverName: string, pvs: seq<PersistentVolume>, pv: PersistentVolume)
    requires pv.name in SyncAll(r, driverName, pvs).volumeToNqn
    ensures SyncAll(r, driverName, pvs + [pv]) == SyncAll(r, driverName, pvs)
  {
    SyncAllConcat(r, driverName, pvs, [pv]);
    assert [pv][1..] == [];
  }

  /** The entry of a handle is written by the last claimed PV that names it and
      whose name is still unbound when the loop reaches it: a PV written at
      step `i` whose handle no later claimed PV names keeps its entry. */
  lemma SyncAllLastWriter(r: Registry, driverName: string, pvs: seq<PersistentVolume>, i: nat)
    requires i < |pvs| && ClaimedBy(pvs[i], driverName)
    requires pvs[i].name !in SyncAll(r, driverName, pvs[..i]).volumeToNqn
    requires NotRecovered(pvs[i + 1..], driverName, pvs[i].csi.value.volumeHandle)
    ensures pvs[i].csi.value.volumeHandle in SyncAll(r, driverName, pvs).devices
    ensures SyncAll(r, driverName, pvs).devices[pvs[i].csi.value.volumeHandle] == RecoveredEntry(pvs[i])
  {
    var n := pvs[i].csi.value.volumeHandle;
    var before := SyncAll(r, driverName, pvs[..i]);
    assert pvs == pvs[..i] + ([pvs[i]] + pvs[i + 1..]);
    SyncAllConcat(r, driverName, pvs[..i], [pvs[i]] + pvs[i + 1..]);
    var written := SyncOne(before, driverName, pvs[i]);
    assert SyncAll(before, driverName, [pvs[i]] + pvs[i + 1..]) == SyncAll(written, driverName, pvs[i + 1..]) by {
      assert ([pvs[i]] + pvs[i + 1..])[0] == pvs[i];
      assert ([pvs[i]] + pvs[i + 1..])[1..] == pvs[i + 1..];
    }
    assert written.devices[n] == RecoveredEntry(pvs[i]);
    SyncAllFrame(written, driverName, pvs[i + 1..], n);
  }

  /** `SyncFromPV`: `pvs` is the PV list, or `None` when listing fails (nothing
      changes then). */
  function SyncFromPV(r: Registry, driverName: string, pvs: Option<seq<PersistentVolume>>)
    : (out: (Registry, Result<(), string>))
    ensures pvs.None? <==> out.1.Err?
    ensures pvs.None? ==> out.0 == r
    ensures pvs.Some? ==> out.0 == SyncAll(r, driverName, pvs.value)
  {
    match pvs
    case None => (r, Err("failed to list PersistentVolumes"))
    case Some(list) => (SyncAll(r, driverName, list), Ok(()))
  }

  /** Recovering a PV keeps the table valid as long as its handle is not already
      in the table. */
  lemma SyncOnePreservesValid(r: Registry, driverName: string, pv: PersistentVolume)
    requires Valid(r)
    requires pv.csi.Some? ==> pv.csi.value.volumeHandle !in r.devices
    ensures Valid(SyncOne(r, driverName, pv))
  {
    var r' := SyncOne(r, driverName, pv);
    if ClaimedBy(pv, driverName) && pv.name !in r.volumeToNqn {
      var nqn := pv.csi.value.volumeHandle;
      forall v | v in r'.volumeToNqn
        ensures r'.volumeToNqn[v] in r'.devices
        ensures r'.devices[r'.volumeToNqn[v]].isAllocated
        ensures r'.devices[r'.volumeToNqn[v]].disk.volName == v
      {
        if v != pv.name {
          assert r.volumeToNqn[v] in r.devices;
        }
      }
    }
  }

  /** The sync does not consult the available set: recovering a PV whose NQN an
      earlier discovery already made available leaves that NQN available while
      flagged allocated. Allocation skips such entries. */
  lemma SyncCanLeaveAllocatedAvailable()
    ensures var nqn := "nqn.2014-08.org.example:vol1";
            var r := Registry(map[nqn := VolumeInfo(DiskInfo("", nqn, "", "", "tcp", []), false)], {nqn}, map[], false);
            var pv := PersistentVolume("pv1", map[ProvisionedByAnnotation := "csi.nvmf.com"],
                                       Some(CsiSource("csi.nvmf.com", nqn, map[])));
            Valid(r) && !Valid(SyncOne(r, "csi.nvmf.com", pv))
  {
  }

  /** `EnsureInitialSync`: sync once; after a success it does nothing, after a
      failure the flag stays down so the next call tries again. */
  function EnsureInitialSync(r: Registry, driverName: string, pvs: Option<seq<PersistentVolume>>)
    : (out: (Registry, Result<(), string>))
    ensures r.initialSyncDone ==> out == (r, Ok(()))
    ensures !r.initialSyncDone && pvs.None? ==> out.1.Err? && out.0 == r && !out.0.initialSyncDone
    ensures !r.initialSyncDone && pvs.Some? ==>
              out.1.Ok? && out.0 == SyncAll(r, driverName, pvs.value).(initialSyncDone := true)
    ensures out.1.Ok? ==> out.0.initialSyncDone
  {
    if r.initialSyncDone then (r, Ok(()))
    else
      var (synced, res) := SyncFromPV(r, driverName, pvs);
      if res.Err? then (r, Err("failed to sync from Kubernetes API: " + res.error))
      else (synced.(initialSyncDone := true), Ok(()))
  }

  /** Once a sync has succeeded, later calls change nothing, whatever the PV list. */
  lemma EnsureInitialSyncIdempotent(r: Registry, driverName: string,
                                    pvs1: Option<seq<PersistentVolume>>, pvs2: Option<seq<PersistentVolume>>)
    requires EnsureInitialSync(r, driverName, pvs1).1.Ok?
    ensures EnsureInitialSync(EnsureInitialSync(r, driverName, pvs1).0, driverName, pvs2)
            == (EnsureInitialSync(r, driverName, pvs1).0, Ok(()))
  {
  }
}

=== FILE: disk_context.dfy ===
/** pkg/nvmf/disk.go: the target description read from a publish request's
    volume context, in the revision that addresses the target by address, port
    and device UUID. */
module DiskContext {
  import opened Results

  const KeyAddr := "targetTrAddr"
  const KeyPort := "targetTrPort"
  const KeyType := "targetTrType"
  const KeyDeviceUuid := "deviceUUID"
  const KeyNqn := "nqn"

  /** disk.go's `nvmfDiskInfo`. */
  datatype TargetInfo = TargetInfo(
    volId: string,
    nqn: string,
    addr: string,
    port: string,
    deviceUuid: string,
    transport: string)

  /** Everything the request must name. */
  predicate IsComplete(info: TargetInfo) {
    info.addr != "" && info.nqn != "" && info.port != "" && info.transport != ""
  }

  /** `getNVMfInfo`: `context` is `None` when the request carries no volume
      context; reading a nil map gives "" for every key. The volume ID comes
      from the request, the rest verbatim from the context. */
  function GetNVMfInfo(volumeId: string, context: Option<map<string, string>>): (r: Result<TargetInfo, string>)
    ensures context.None? ==> r.Err?
    ensures context.Some? ==>
              var ctx := context.value;
              (r.Ok? <==> Lookup(ctx, KeyAddr) != "" && Lookup(ctx, KeyNqn) != ""
                          && Lookup(ctx, KeyPort) != "" && Lookup(ctx, KeyType) != "")
    ensures r.Ok? ==>
              var ctx := context.value;
              && IsComplete(r.value)
              && r.value == TargetInfo(volumeId, Lookup(ctx, KeyNqn), Lookup(ctx, KeyAddr), Lookup(ctx, KeyPort),
                                       Lookup(ctx, KeyDeviceUuid), Lookup(ctx, KeyType))
  {
    var volOpts := if context.None? then map[] else context.value;
    var targetTrAddr := Lookup(volOpts, KeyAddr);
    var targetTrPort := Lookup(volOpts, KeyPort);
    var targetTrType := Lookup(volOpts, KeyType);
    var deviceUuid := Lookup(volOpts, KeyDeviceUuid);
    var nqn := Lookup(volOpts, KeyNqn);
    if targetTrAddr == "" || nqn == "" || targetTrPort == "" || targetTrType == "" then
      Err("Some Nvme target info is missing")
    else
      Ok(TargetInfo(volumeId, nqn, targetTrAddr, targetTrPort, deviceUuid, targetTrType))
  }

  /** The volume context that describes a target. */
  function ContextOf(info: TargetInfo): map<string, string> {
    map[KeyAddr := info.addr, KeyPort := info.port, KeyType := info.transport,
        KeyDeviceUuid := info.deviceUuid, KeyNqn := info.nqn]
  }

  /** Reading back the context of a complete target gives the target, whatever
      its device UUID (empty included), when the request carries its volume ID. */
  lemma ContextRoundTrip(info: TargetInfo)
    requires IsComplete(info)
    ensures GetNVMfInfo(info.volId, Some(ContextOf(info))) == Ok(info)
  {
  }

  /** The volume ID is the request's, not the context's NQN: two requests
      differing only in their volume ID give targets differing only there. */
  lemma VolumeIdComesFromRequest(volumeId1: string, volumeId2: string, context: map<string, string>)
    requires GetNVMfInfo(volumeId1, Some(context)).Ok?
    ensures GetNVMfInfo(volumeId2, Some(context)).Ok?
    ensures GetNVMfInfo(volumeId2, Some(context)).value
            == GetNVMfInfo(volumeId1, Some(context)).value.(volId := volumeId2)
  {
  }
}

=== FILE: driver.dfy ===
/** pkg/nvmf/driver.go: the driver record, its capability tables, and the setup
    `Run` performs before serving. */
module Driver {
  import opened Results
  import opened Csi

  /** The fields of `GlobalConfig` the driver reads. */
  datatype GlobalConfig = GlobalConfig(
    volumeMapDir: string,
    driverName: string,
    region: string,
    nodeId: string,
    version: string,
    isControllerServer: bool)

  /** A `VolumeCapability_AccessMode`. */
  datatype VolumeCapabilityAccessMode = VolumeCapabilityAccessMode(mode: AccessMode)

  /** `driver`; `hasControllerServer` records whether a controller server was
      created. */
  datatype DriverState = DriverState(
    name: string,
    nodeId: string,
    version: string,
    region: string,
    volumeMapDir: string,
    cap: seq<VolumeCapabilityAccessMode>,
    cscap: seq<ControllerServiceCapability>,
    hasControllerServer: bool)

  /** `NewDriver`: `None` stands for the fatal exit on an empty driver name. */
  function NewDriver(conf: GlobalConfig): (d: Option<DriverState>)
    ensures d.None? <==> conf.driverName == ""
    ensures d.Some? ==>
              && d.value.name == conf.driverName && d.value.version == conf.version
              && d.value.nodeId == conf.nodeId && d.value.region == conf.region
              && d.value.volumeMapDir == conf.volumeMapDir
              && d.value.cap == [] && d.value.cscap == [] && !d.value.hasControllerServer
  {
    if conf.driverName == "" then None
    else Some(DriverState(conf.driverName, conf.nodeId, conf.version, conf.region, conf.volumeMapDir, [], [], false))
  }

  /** `AddVolumeCapabilityAccessModes`: one entry per mode, in order, replacing
      the driver's list; the new list is also returned. */
  method AddVolumeCapabilityAccessModes(d: DriverState, modes: seq<AccessMode>)
    returns (d': DriverState, cap: seq<VolumeCapabilityAccessMode>)
    ensures |cap| == |modes|
    ensures forall i :: 0 <= i < |modes| ==> cap[i].mode == modes[i]
    ensures d' == d.(cap := cap)
  {
    cap := [];
    var i := 0;
    while i < |modes|
      invariant 0 <= i <= |modes|
      invariant |cap| == i
      invariant forall k :: 0 <= k < i ==> cap[k].mode == modes[k]
    {
      cap := cap + [VolumeCapabilityAccessMode(modes[i])];
      i := i + 1;
    }
    d' := d.(cap := cap);
  }

  /** `AddControllerServiceCapabilities`: one RPC capability per type, in
      order, replacing `cscap`. */
  method AddControllerServiceCapabilities(d: DriverState, types: seq<ControllerRpcType>)
    returns (d': DriverState)
    ensures |d'.cscap| == |types|
    ensures forall i :: 0 <= i < |types| ==> d'.cscap[i].rpcType == types[i]
    ensures d' == d.(cscap := d'.cscap)
  {
    var csc: seq<ControllerServiceCapability> := [];
    var i := 0;
    while i < |types|
      invariant 0 <= i <= |types|
      invariant |csc| == i
      invariant forall k :: 0 <= k < i ==> csc[k].rpcType == types[k]
    {
      csc := csc + [ControllerServiceCapability(types[i])];
      i := i + 1;
    }
    d' := d.(cscap := csc);
  }

  /** `ValidateControllerServiceRequest`: UNKNOWN is always allowed; any other
      type only when the driver lists it, else InvalidArgument. */
  method ValidateControllerServiceRequest(d: DriverState, c: ControllerRpcType) returns (r: Result<(), Code>)
    ensures r.Ok? <==> c == RpcUnknown || exists i :: 0 <= i < |d.cscap| && d.cscap[i].rpcType == c
    ensures r.Err? ==> r.error == InvalidArgument
  {
    if c == RpcUnknown {
      return Ok(());
    }
    var i := 0;
    while i < |d.cscap|
      invariant 0 <= i <= |d.cscap|
      invariant forall k :: 0 <= k < i ==> d.cscap[k].rpcType != c
    {
      if d.cscap[i].rpcType == c {
        return Ok(());
      }
      i := i + 1;
    }
    return Err(InvalidArgument);
  }

  /** The capability setup of `Run`: exactly CREATE_DELETE_VOLUME and
      SINGLE_NODE_WRITER, and a controller server only when configured. Starting
      the gRPC server is not part of this model. */
  method Run(d: DriverState, conf: GlobalConfig) returns (d': DriverState)
    ensures |d'.cscap| == 1 && d'.cscap[0].rpcType == CreateDeleteVolume
    ensures |d'.cap| == 1 && d'.cap[0].mode == SingleNodeWriter
    ensures d'.hasControllerServer <==> conf.isControllerServer || d.hasControllerServer
    ensures d'.name == d.name && d'.nodeId == d.nodeId && d'.version == d.version
    ensures d'.region == d.region && d'.volumeMapDir == d.volumeMapDir
  {
    var withCscap := AddControllerServiceCapabilities(d, [CreateDeleteVolume]);
    var withCap, _ := AddVolumeCapabilityAccessModes(withCscap, [SingleNodeWriter]);
    d' := withCap.(hasControllerServer := withCap.hasControllerServer || conf.isControllerServer);
  }

  /** After `Run`, the driver accepts exactly UNKNOWN and CREATE_DELETE_VOLUME. */
  method ValidateAfterRun(d: DriverState, conf: GlobalConfig, c: ControllerRpcType) returns (r: Result<(), Code>)
    ensures r.Ok? <==> c == RpcUnknown || c == CreateDeleteVolume
  {
    var running := Run(d, conf);
    r := ValidateControllerServiceRequest(running, c);
    assert (exists i :: 0 <= i < |running.cscap| && running.cscap[i].rpcType == c) <==> c == CreateDeleteVolume by {
      assert running.cscap[0].rpcType == CreateDeleteVolume;
    }
  }
}

=== FILE: fabrics.dfy ===
/** pkg/nvmf/fabrics.go: the NVMe-oF connector. Connecting writes one connect
    directive per target endpoint to /dev/nvme-fabrics, waits for the namespace to
    show up, and records a tracking file under /run/nvmf/<nqn>/; disconnecting
    removes that tracking file and deletes the matching controllers in sysfs.
    The fabrics device, sysfs and /run/nvmf are inputs and outputs of the
    functions here. */
module Fabrics {
  import opened Results
  import opened GoStrings
  import opened Utils
  import opened NvmfTypes
  import opened NvmfUtils

  /** Longest NQN in bytes (section 4.5 of the NVM Express Base Specification). */
  const NqnSize := 223
  /** The driver's own errno values, returned negated. */
  const ENOENT := 1
  const EINVAL := 2

  const DefaultRetryCount: Int32 := 10
  const DefaultCheckInterval: Int32 := 1

  /** `Connector`: everything needed to connect and later disconnect a subsystem. */
  datatype Connector = Connector(
    volumeId: string,
    targetNqn: string,
    targetEndpoints: seq<string>,
    transport: string,
    hostNqn: string,
    retryCount: Int32,
    checkInterval: Int32)

  /** `getNvmfConnector`: copy the disk description, use the default retry settings. */
  function GetNvmfConnector(info: DiskInfo, hostNqn: string): (c: Connector)
    ensures c.volumeId == info.volName && c.targetNqn == info.nqn
    ensures c.targetEndpoints == info.endpoints && c.transport == info.transport
    ensures c.hostNqn == hostNqn
    ensures c.retryCount == 10 && c.checkInterval == 1
  {
    Connector(info.volName, info.nqn, info.endpoints, info.transport, hostNqn,
              DefaultRetryCount, DefaultCheckInterval)
  }

  /** The tracking tree under /run/nvmf: for each NQN directory, the host NQNs
      that have a tracking file in it. A file is named by the host NQN (the
      source names it by the host NQN's base64 encoding, which is just as
      injective). */
  type Tracking = map<string, set<string>>

  datatype ConnectError =
    | InvalidRetrySettings
    | UnsupportedTransport
    | InvalidEndpointFormat(endpoint: string)
    | EmptyHostOrPort(endpoint: string)
    | FabricsWriteFailed(endpoint: string)
    | DeviceNotReady
    | TrackingDirFailed

  /** The two transports the connector accepts, compared case-insensitively. */
  predicate IsSupportedTransport(transport: string) {
    ToLower(transport) == "tcp" || ToLower(transport) == "rdma"
  }

  /** One "IP:Port" endpoint: exactly one ':' and non-blank halves, trimmed. */
  function ParseTargetEndpoint(endpoint: string): (r: Result<(string, string), ConnectError>)
    ensures r.Ok? ==> CountChar(endpoint, ':') == 1
    ensures CountChar(endpoint, ':') != 1 ==> r == Err(InvalidEndpointFormat(endpoint))
    ensures CountChar(endpoint, ':') == 1 ==>
              var j := IndexOf(endpoint, ':');
              var host := TrimSpace(endpoint[..j]);
              var port := TrimSpace(endpoint[j + 1..]);
              && (r.Ok? <==> host != "" && port != "")
              && (r.Ok? ==> r.value == (host, port))
              && (r.Err? ==> r == Err(EmptyHostOrPort(endpoint)))
    ensures r.Ok? ==> r.value.0 != "" && r.value.1 != ""
                      && IsTrimmed(r.value.0) && IsTrimmed(r.value.1)
                      && ':' !in r.value.0 && ':' !in r.value.1
    ensures r.Err? ==> r.error.InvalidEndpointFormat? || r.error.EmptyHostOrPort?
  {
    var parts := Split(endpoint, ':');
    SplitCount(endpoint, ':');
    if |parts| != 2 then Err(InvalidEndpointFormat(endpoint))
    else
      SplitAtOnlySeparator(endpoint, ':');
      var ip := TrimSpace(parts[0]);
      var port := TrimSpace(parts[1]);
      TrimmedHasNo(parts[0], ':');
      TrimmedHasNo(parts[1], ':');
      if ip == "" || port == "" then Err(EmptyHostOrPort(endpoint))
      else Ok((ip, port))
  }

  /** A string with one separator splits into the text before and after it. */
  lemma SplitAtOnlySeparator(s: string, sep: char)
    requires CountChar(s, sep) == 1
    ensures Split(s, sep) == [s[..IndexOf(s, sep)], s[IndexOf(s, sep) + 1..]]
  {
    var j := IndexOf(s, sep);
    SplitCount(s, sep);
    SplitCount(s[j + 1..], sep);
    assert Split(s, sep) == [s[..j]] + Split(s[j + 1..], sep);
  }

  /** Trimming keeps a character out if it was out. */
  lemma TrimmedHasNo(s: string, c: char)
    requires c !in s
    ensures c !in TrimSpace(s)
  {
    var i, j :| 0 <= i <= j <= |s| && TrimSpace(s) == s[i..j];
  }

  /** A trimmed, non-empty host and port without ':' come back out of their
      "host:port" form unchanged. */
  lemma ParseTargetEndpointRoundTrip(ip: string, port: string)
    requires ip != "" && port != "" && IsTrimmed(ip) && IsTrimmed(port)
    requires ':' !in ip && ':' !in port
    ensures ParseTargetEndpoint(ip + ":" + port) == Ok((ip, port))
  {
    assert Join([ip, port], ':') == ip + ":" + port;
    SplitJoin([ip, port], ':');
    TrimSpaceOfTrimmed(ip);
    TrimSpaceOfTrimmed(port);
  }

  /** Two occurrences of a character count at least twice. */
  lemma TwoOccurrences(s: string, c: char, i: nat, j: nat)
    requires i < j < |s| && s[i] == c && s[j] == c
    ensures CountChar(s, c) >= 2
  {
    assert s == s[..j] + s[j..];
    assert s[..j][i] == c;
    assert s[j..][0] == c;
    CountAppend(s[..j], s[j..], c);
  }

  /** An IPv6 literal has more than one ':' and is rejected. */
  lemma Ipv6EndpointRejected()
    ensures ParseTargetEndpoint("fe80::1:4420").Err?
  {
    var ep := "fe80::1:4420";
    TwoOccurrences(ep, ':', 4, 5);
  }

  /** The text written to /dev/nvme-fabrics for one endpoint. */
  function ConnectDirective(c: Connector, ip: string, port: string): string {
    "nqn=" + c.targetNqn + ",transport=" + c.transport + ",traddr=" + ip
      + ",trsvcid=" + port + ",hostnqn=" + c.hostNqn
  }

  /** The directive for one endpoint, or why the endpoint is rejected. */
  function DirectiveFor(c: Connector, endpoint: string): (d: Result<string, ConnectError>)
    ensures d.Ok? <==> ParseTargetEndpoint(endpoint).Ok?
    ensures d.Ok? ==> d.value == ConnectDirective(c, ParseTargetEndpoint(endpoint).value.0,
                                                    ParseTargetEndpoint(endpoint).value.1)
    ensures d.Err? ==> d.error == ParseTargetEndpoint(endpoint).error
  {
    match ParseTargetEndpoint(endpoint)
    case Ok(hostPort) => Ok(ConnectDirective(c, hostPort.0, hostPort.1))
    case Err(e) => Err(e)
  }

  /** One endpoint of the connector with its directive. */
  datatype Step = Step(endpoint: string, directive: Result<string, ConnectError>)

  function EndpointSteps(c: Connector): (steps: seq<Step>)
    ensures |steps| == |c.targetEndpoints|
    ensures forall i :: 0 <= i < |steps| ==>
              steps[i] == Step(c.targetEndpoints[i], DirectiveFor(c, c.targetEndpoints[i]))
    ensures forall i :: 0 <= i < |steps| && steps[i].directive.Err? ==>
              !steps[i].directive.error.DeviceNotReady? && !steps[i].directive.error.TrackingDirFailed?
  {
    seq(|c.targetEndpoints|, i requires 0 <= i < |c.targetEndpoints| =>
      Step(c.targetEndpoints[i], DirectiveFor(c, c.targetEndpoints[i])))
  }

  /** The outcome of the endpoint loop: directives written, and the error that
      stopped it. */
  datatype EndpointPass = EndpointPass(directives: seq<string>, failure: Option<ConnectError>)

  /** The first endpoint from `k` on that is rejected or whose write fails, or
      the number of endpoints when there is none. */
  function FirstFailingStep(steps: seq<Step>, k: nat, writeOk: nat -> bool): (stop: nat)
    requires k <= |steps|
    ensures k <= stop <= |steps|
    ensures forall i :: k <= i < stop ==> steps[i].directive.Ok? && writeOk(i)
    ensures stop < |steps| ==> steps[stop].directive.Err? || !writeOk(stop)
    decreases |steps| - k
  {
    if k == |steps| then k
    else if steps[k].directive.Err? || !writeOk(k) then k
    else FirstFailingStep(steps, k + 1, writeOk)
  }

  /** Endpoints `k..` in order: a rejected endpoint stops the loop, and so does a
      failed write. `writeOk(i)` says whether opening /dev/nvme-fabrics and
      writing the directive of endpoint `i` succeed. */
  function WriteDirectives(steps: seq<Step>, k: nat, writeOk: nat -> bool): (p: EndpointPass)
    requires k <= |steps|
    requires forall i :: 0 <= i < |steps| && steps[i].directive.Err? ==>
               !steps[i].directive.error.DeviceNotReady? && !steps[i].directive.error.TrackingDirFailed?
    ensures |p.directives| <= |steps| - k
    ensures p.failure.None? ==> |p.directives| == |steps| - k
    ensures p.failure.None? <==> (forall i :: k <= i < |steps| ==> steps[i].directive.Ok? && writeOk(i))
    ensures forall i :: 0 <= i < |p.directives| ==> steps[k + i].directive == Ok(p.directives[i])
    ensures p.failure.Some? ==> !p.failure.value.DeviceNotReady? && !p.failure.value.TrackingDirFailed?
    ensures var stop := FirstFailingStep(steps, k, writeOk);
            && (p.failure.None? <==> stop == |steps|)
            && (stop < |steps| && steps[stop].directive.Err? ==>
                  |p.directives| == stop - k && p.failure == Some(steps[stop].directive.error))
            && (stop < |steps| && steps[stop].directive.Ok? ==>
                  |p.directives| == stop - k + 1 && p.failure == Some(FabricsWriteFailed(steps[stop].endpoint)))
    decreases |steps| - k
  {
    if k == |steps| then EndpointPass([], None)
    else
      match steps[k].directive
      case Err(e) => EndpointPass([], Some(e))
      case Ok(directive) =>
        if !writeOk(k) then EndpointPass([directive], Some(FabricsWriteFailed(steps[k].endpoint)))
        else
          var rest := WriteDirectives(steps, k + 1, writeOk);
          EndpointPass([directive] + rest.directives, rest.failure)
  }

  /** The outcome of `disconnectSubsysWithHostNqn` for one controller. */
  datatype HostDisconnect = Disconnected | NoController | UnsupportedHostnqn

  /** `disconnectSubsysWithHostNqn`: delete the controller when it serves `nqn` for
      `hostNqn`. A missing hostnqn attribute means the kernel predates it. */
  function DisconnectSubsysWithHostNqn(nqn: string, hostNqn: string, ctrl: ControllerEntry): (r: HostDisconnect)
    ensures r == Disconnected <==>
      AttrIs(ctrl.subsysnqn, nqn) && AttrIs(ctrl.hostnqn, hostNqn) && ctrl.deleteWritable
    ensures r == UnsupportedHostnqn <==> AttrIs(ctrl.subsysnqn, nqn) && ctrl.hostnqn.Absent?
  {
    match ctrl.subsysnqn
    case Absent => NoController
    case Unreadable => NoController
    case Content(subsys) =>
      if FirstLine(subsys) != nqn then NoController
      else match ctrl.hostnqn
        case Absent => UnsupportedHostnqn
        case Unreadable => NoController
        case Content(host) =>
          if FirstLine(host) != hostNqn then NoController
          else if !ctrl.deleteWritable then NoController
          else Disconnected
  }

  /** `disconnectSubsys`: delete the controller when it serves `nqn`, whatever host. */
  function DisconnectSubsys(nqn: string, ctrl: ControllerEntry): (deleted: bool)
    ensures deleted <==> AttrIs(ctrl.subsysnqn, nqn) && ctrl.deleteWritable
  {
    match ctrl.subsysnqn
    case Absent => false
    case Unreadable => false
    case Content(subsys) => FirstLine(subsys) == nqn && ctrl.deleteWritable
  }

  /** One controller as the first pass sees it: its name and the outcome of
      `disconnectSubsysWithHostNqn` on it. */
  datatype Visit = Visit(name: string, outcome: HostDisconnect)

  function HostVisits(nqn: string, hostNqn: string, ctrls: seq<ControllerEntry>): (v: seq<Visit>)
    ensures |v| == |ctrls|
    ensures forall i :: 0 <= i < |ctrls| ==>
              v[i] == Visit(ctrls[i].name, DisconnectSubsysWithHostNqn(nqn, hostNqn, ctrls[i]))
  {
    seq(|ctrls|, i requires 0 <= i < |ctrls| =>
      Visit(ctrls[i].name, DisconnectSubsysWithHostNqn(nqn, hostNqn, ctrls[i])))
  }

  /** The first pass over the controllers: either it ends, or it stops at the
      first controller without a hostnqn attribute. */
  datatype HostScan = ScanDone(deleted: seq<string>) | FellBack(deleted: seq<string>)

  /** The controllers the visits deleted, in visiting order. */
  function DeletedNames(visits: seq<Visit>): (names: seq<string>)
    ensures |names| <= |visits|
    ensures forall x :: x in names ==> exists i :: 0 <= i < |visits| && visits[i] == Visit(x, Disconnected)
  {
    if |visits| == 0 then []
    else (if visits[0].outcome == Disconnected then [visits[0].name] else []) + DeletedNames(visits[1..])
  }

  /** Every visit that deleted its controller is named among the deletions. */
  lemma {:induction false} DeletedNamesComplete(visits: seq<Visit>, i: nat)
    requires i < |visits| && visits[i].outcome == Disconnected
    ensures visits[i].name in DeletedNames(visits)
  {
    if i > 0 {
      assert visits[1..][i - 1] == visits[i];
      DeletedNamesComplete(visits[1..], i - 1);
    }
  }

  /** Where the first pass stops: the first controller without a hostnqn
      attribute, or the end of the listing. */
  function FirstUnsupported(visits: seq<Visit>): (k: nat)
    ensures k <= |visits|
    ensures k < |visits| ==> visits[k].outcome == UnsupportedHostnqn
    ensures forall i :: 0 <= i < k ==> visits[i].outcome != UnsupportedHostnqn
  {
    if |visits| == 0 || visits[0].outcome == UnsupportedHostnqn then 0
    else 1 + FirstUnsupported(visits[1..])
  }

  /** The first pass: it falls back exactly when some controller lacks the
      hostnqn attribute, and it deletes, in order, the controllers deleted
      before the first such one. */
  function ScanWithHostNqn(visits: seq<Visit>): (s: HostScan)
    ensures |s.deleted| <= |visits|
    ensures s.FellBack? <==> exists i :: 0 <= i < |visits| && visits[i].outcome == UnsupportedHostnqn
    ensures s.FellBack? <==> FirstUnsupported(visits) < |visits|
    ensures s.deleted == DeletedNames(visits[..FirstUnsupported(visits)])
    ensures forall x :: x in s.deleted ==>
      exists i :: 0 <= i < |visits| && visits[i] == Visit(x, Disconnected)
  {
    if |visits| == 0 then ScanDone([])
    else
      var rest := ScanWithHostNqn(visits[1..]);
      var k := FirstUnsupported(visits);
      assert visits[..k] == [] || visits[..k] == [visits[0]] + visits[1..][..k - 1];
      match visits[0].outcome
      case UnsupportedHostnqn => FellBack([])
      case NoController => rest
      case Disconnected =>
        if rest.ScanDone? then ScanDone([visits[0].name] + rest.deleted)
        else FellBack([visits[0].name] + rest.deleted)
  }

  /** A first pass that does not fall back deletes every controller that serves
      the NQN for this host. */
  lemma {:induction false} ScanDoneDeletesAllMatches(visits: seq<Visit>)
    requires ScanWithHostNqn(visits).ScanDone?
    ensures forall i :: 0 <= i < |visits| && visits[i].outcome == Disconnected
              ==> visits[i].name in ScanWithHostNqn(visits).deleted
  {
    if |visits| > 0 {
      var s := ScanWithHostNqn(visits);
      var rest := ScanWithHostNqn(visits[1..]);
      assert visits[0].outcome != UnsupportedHostnqn;
      assert rest.ScanDone?;
      ScanDoneDeletesAllMatches(visits[1..]);
      forall i | 1 <= i < |visits| && visits[i].outcome == Disconnected
        ensures visits[i].name in s.deleted
      {
        assert visits[1..][i - 1] == visits[i];
      }
    }
  }

  /** The fallback pass: every controller serving `nqn` is deleted, whatever host. */
  function ScanAnyHost(nqn: string, ctrls: seq<ControllerEntry>): (deleted: seq<string>)
    ensures |deleted| <= |ctrls|
    ensures forall x :: x in deleted ==>
      exists i :: 0 <= i < |ctrls| && ctrls[i].name == x && DisconnectSubsys(nqn, ctrls[i])
    ensures forall i :: 0 <= i < |ctrls| && DisconnectSubsys(nqn, ctrls[i]) ==> ctrls[i].name in deleted
  {
    if |ctrls| == 0 then []
    else
      var rest := ScanAnyHost(nqn, ctrls[1..]);
      if DisconnectSubsys(nqn, ctrls[0]) then [ctrls[0].name] + rest else rest
  }

  /** What `disconnectByNqn` sees in sysfs: the controller listing, and the
      listing read again by the fallback (each `None` when reading fails). */
  datatype SysfsView = SysfsView(controllers: Option<seq<ControllerEntry>>, rescan: Option<seq<ControllerEntry>>)

  /** The result code, the controllers deleted in order, and the tracking tree after. */
  datatype DisconnectRun = DisconnectRun(ret: int, deleted: seq<string>, tracking: Tracking)

  /** The tracking tree after removing the host's file and, when the NQN directory
      is then empty, the directory. */
  function RemoveTracking(tracking: Tracking, nqn: string, hostNqn: string): (t: Tracking)
    requires nqn in tracking
    ensures nqn in t ==> t[nqn] == tracking[nqn] - {hostNqn} && t[nqn] != {}
    ensures nqn !in t <==> tracking[nqn] - {hostNqn} == {}
    ensures forall n :: n != nqn ==> (n in t <==> n in tracking) && (n in t ==> t[n] == tracking[n])
  {
    var left := tracking[nqn] - {hostNqn};
    if left == {} then tracking - {nqn} else tracking[nqn := left]
  }

  /** The controller half of `disconnectByNqn`, run once the host's tracking
      file is gone: the result code and the controllers deleted, in order.
      `othersLeft` says whether another host still tracks the NQN. The first
      pass deletes this host's controllers up to the first controller without
      a hostnqn attribute; that controller ends it, and only when no other host
      is left does a second pass delete every controller serving the NQN. */
  function DeleteControllers(nqn: string, hostNqn: string, othersLeft: bool, sysfs: SysfsView)
    : (r: (int, seq<string>))
    ensures r.0 == -ENOENT || r.0 == |r.1|
    ensures sysfs.controllers.None? ==> r == (-ENOENT, [])
    ensures sysfs.controllers.Some? ==>
              var visits := HostVisits(nqn, hostNqn, sysfs.controllers.value);
              var stop := FirstUnsupported(visits);
              var first := DeletedNames(visits[..stop]);
              && (stop == |visits| || othersLeft ==> r == (|first|, first))
              && (stop < |visits| && !othersLeft && sysfs.rescan.None? ==> r == (-ENOENT, first))
              && (stop < |visits| && !othersLeft && sysfs.rescan.Some? ==>
                    r.1 == first + ScanAnyHost(nqn, sysfs.rescan.value) && r.0 == |r.1|)
  {
    match sysfs.controllers
    case None => (-ENOENT, [])
    case Some(ctrls) =>
      match ScanWithHostNqn(HostVisits(nqn, hostNqn, ctrls))
      case ScanDone(d) => (|d|, d)
      case FellBack(d) =>
        if othersLeft then (|d|, d)
        else match sysfs.rescan
          case None => (-ENOENT, d)
          case Some(again) =>
            var e := ScanAnyHost(nqn, again);
            (|d| + |e|, d + e)
  }

  /** Every controller the first pass deletes serves the NQN and had a writable
      `delete_controller` file. */
  lemma HostScanServesNqn(nqn: string, hostNqn: string, ctrls: seq<ControllerEntry>)
    ensures forall x :: x in ScanWithHostNqn(HostVisits(nqn, hostNqn, ctrls)).deleted ==>
              exists i :: 0 <= i < |ctrls| && ctrls[i].name == x
                          && AttrIs(ctrls[i].subsysnqn, nqn) && ctrls[i].deleteWritable
  {
    var visits := HostVisits(nqn, hostNqn, ctrls);
    forall x | x in ScanWithHostNqn(visits).deleted
      ensures exists i :: 0 <= i < |ctrls| && ctrls[i].name == x
                          && AttrIs(ctrls[i].subsysnqn, nqn) && ctrls[i].deleteWritable
    {
      var i :| 0 <= i < |visits| && visits[i] == Visit(x, Disconnected);
      assert ctrls[i].name == x;
    }
  }

  /** Every controller deleted serves the NQN and had a writable
      `delete_controller` file. */
  lemma DeletedControllersServeNqn(nqn: string, hostNqn: string, othersLeft: bool, sysfs: SysfsView)
    ensures var r := DeleteControllers(nqn, hostNqn, othersLeft, sysfs);
      forall x :: x in r.1 ==> exists i ::
      (sysfs.controllers.Some? && 0 <= i < |sysfs.controllers.value| && sysfs.controllers.value[i].name == x
       && AttrIs(sysfs.controllers.value[i].subsysnqn, nqn) && sysfs.controllers.value[i].deleteWritable)
      || (sysfs.rescan.Some? && 0 <= i < |sysfs.rescan.value| && sysfs.rescan.value[i].name == x
       && AttrIs(sysfs.rescan.value[i].subsysnqn, nqn) && sysfs.rescan.value[i].deleteWritable)
  {
    if sysfs.controllers.Some? {
      HostScanServesNqn(nqn, hostNqn, sysfs.controllers.value);
    }
  }

  /** `disconnectByNqn`: -EINVAL for an over-long NQN; -ENOENT when the NQN's
      tracking directory cannot be read; otherwise the host's tracking file is
      removed (and the directory with it when it empties) and the controllers
      are deleted as `DeleteControllers` says. */
  function DisconnectByNqn(nqn: string, hostNqn: string, tracking: Tracking, sysfs: SysfsView): (r: DisconnectRun)
    ensures r.ret == -EINVAL <==> Utf8Len(nqn) > NqnSize
    ensures r.ret < 0 ==> r.ret == -EINVAL || r.ret == -ENOENT
    ensures r.ret >= 0 ==> r.ret == |r.deleted|
    ensures Utf8Len(nqn) <= NqnSize && nqn !in tracking ==> r == DisconnectRun(-ENOENT, [], tracking)
    ensures Utf8Len(nqn) > NqnSize ==> r.deleted == [] && r.tracking == tracking
    ensures Utf8Len(nqn) <= NqnSize && nqn in tracking ==> r.tracking == RemoveTracking(tracking, nqn, hostNqn)
    ensures Utf8Len(nqn) <= NqnSize && nqn in tracking ==>
              (r.ret, r.deleted) == DeleteControllers(nqn, hostNqn, tracking[nqn] - {hostNqn} != {}, sysfs)
    ensures nqn in r.tracking ==> hostNqn !in r.tracking[nqn] || Utf8Len(nqn) > NqnSize
    ensures forall n :: n != nqn ==> (n in r.tracking <==> n in tracking)
                                     && (n in r.tracking ==> r.tracking[n] == tracking[n])
    ensures forall x :: x in r.deleted ==> exists i ::
      (sysfs.controllers.Some? && 0 <= i < |sysfs.controllers.value| && sysfs.controllers.value[i].name == x
       && AttrIs(sysfs.controllers.value[i].subsysnqn, nqn) && sysfs.controllers.value[i].deleteWritable)
      || (sysfs.rescan.Some? && 0 <= i < |sysfs.rescan.value| && sysfs.rescan.value[i].name == x
       && AttrIs(sysfs.rescan.value[i].subsysnqn, nqn) && sysfs.rescan.value[i].deleteWritable)
  {
    if Utf8Len(nqn) > NqnSize then DisconnectRun(-EINVAL, [], tracking)
    else if nqn !in tracking then DisconnectRun(-ENOENT, [], tracking)
    else
      var othersLeft := tracking[nqn] - {hostNqn} != {};
      DeletedControllersServeNqn(nqn, hostNqn, othersLeft, sysfs);
      var (ret, deleted) := DeleteControllers(nqn, hostNqn, othersLeft, sysfs);
      DisconnectRun(ret, deleted, RemoveTracking(tracking, nqn, hostNqn))
  }

  /** When no controller of the NQN lacks the hostnqn attribute, the disconnect
      deletes exactly the controllers serving the NQN for this host, and counts
      them. */
  lemma DisconnectDeletesHostControllers(nqn: string, hostNqn: string, tracking: Tracking,
                                         ctrls: seq<ControllerEntry>, rescan: Option<seq<ControllerEntry>>)
    requires Utf8Len(nqn) <= NqnSize && nqn in tracking
    requires forall i :: 0 <= i < |ctrls| ==> !(AttrIs(ctrls[i].subsysnqn, nqn) && ctrls[i].hostnqn.Absent?)
    ensures var r := DisconnectByNqn(nqn, hostNqn, tracking, SysfsView(Some(ctrls), rescan));
            && r.ret == |r.deleted|
            && forall x :: x in r.deleted <==>
                 (exists i :: 0 <= i < |ctrls| && ctrls[i].name == x && AttrIs(ctrls[i].subsysnqn, nqn)
                              && AttrIs(ctrls[i].hostnqn, hostNqn) && ctrls[i].deleteWritable)
  {
    var visits := HostVisits(nqn, hostNqn, ctrls);
    var r := DisconnectByNqn(nqn, hostNqn, tracking, SysfsView(Some(ctrls), rescan));
    assert FirstUnsupported(visits) == |visits|;
    assert visits[..|visits|] == visits;
    assert r.deleted == DeletedNames(visits);
    forall i | 0 <= i < |ctrls| && AttrIs(ctrls[i].subsysnqn, nqn) && AttrIs(ctrls[i].hostnqn, hostNqn)
                 && ctrls[i].deleteWritable
      ensures ctrls[i].name in r.deleted
    {
      DeletedNamesComplete(visits, i);
    }
  }

  /** While another host still tracks the NQN, a controller without the
      hostnqn attribute ends the disconnect: no controller is deleted from it
      on, not even one this host connected. */
  lemma OtherHostsBlockFallback(nqn: string, hostNqn: string, tracking: Tracking,
                                ctrls: seq<ControllerEntry>, rescan: Option<seq<ControllerEntry>>, k: nat)
    requires Utf8Len(nqn) <= NqnSize && nqn in tracking && tracking[nqn] - {hostNqn} != {}
    requires k < |ctrls| && AttrIs(ctrls[k].subsysnqn, nqn) && ctrls[k].hostnqn.Absent?
    requires forall i :: 0 <= i < |ctrls| && ctrls[i].name == ctrls[k].name ==> i == k
    ensures ctrls[k].name !in DisconnectByNqn(nqn, hostNqn, tracking, SysfsView(Some(ctrls), rescan)).deleted
  {
    var visits := HostVisits(nqn, hostNqn, ctrls);
    var stop := FirstUnsupported(visits);
    assert stop <= k by {
      assert visits[k].outcome == UnsupportedHostnqn;
    }
    forall i | 0 <= i < stop
      ensures visits[..stop][i] != Visit(ctrls[k].name, Disconnected)
    {
      assert visits[..stop][i].name == ctrls[i].name;
    }
  }

  /** `Connector.Disconnect`: fails exactly when `disconnectByNqn` returns a
      negative code. */
  function Disconnect(c: Connector, tracking: Tracking, sysfs: SysfsView): (r: (Result<(), string>, DisconnectRun))
    ensures r.1 == DisconnectByNqn(c.targetNqn, c.hostNqn, tracking, sysfs)
    ensures r.0.Err? <==> r.1.ret < 0
    ensures r.0.Err? ==> r.1.ret == -EINVAL || r.1.ret == -ENOENT
  {
    var run := DisconnectByNqn(c.targetNqn, c.hostNqn, tracking, sysfs);
    if run.ret < 0 then (Err("Disconnect: failed to disconnect by nqn: " + c.targetNqn), run)
    else (Ok(()), run)
  }

  /** `createTrackingFiles`: make /run/nvmf/<nqn> and the host's file in it. Only a
      failure to make the directory is an error; a failure to create the file
      is logged and ignored. */
  function CreateTrackingFiles(c: Connector, tracking: Tracking, mkdirOk: bool, createOk: bool)
    : (r: (Result<(), ConnectError>, Tracking))
    ensures r.0.Ok? <==> mkdirOk
    ensures !mkdirOk ==> r.1 == tracking
    ensures mkdirOk ==> c.targetNqn in r.1
    ensures mkdirOk ==> forall h :: h in r.1[c.targetNqn] <==>
              (c.targetNqn in tracking && h in tracking[c.targetNqn]) || (createOk && h == c.hostNqn)
    ensures forall n :: n != c.targetNqn ==> (n in r.1 <==> n in tracking)
                                             && (n in r.1 ==> r.1[n] == tracking[n])
  {
    if !mkdirOk then (Err(TrackingDirFailed), tracking)
    else
      var existing := if c.targetNqn in tracking then tracking[c.targetNqn] else {};
      var files := if createOk then existing + {c.hostNqn} else existing;
      (Ok(()), tracking[c.targetNqn := files])
  }

  /** Everything `Connect` observes: whether each fabrics write succeeds, what
      each device search attempt sees, whether the tracking directory and file
      can be made, the tracking tree, and sysfs as a rollback would see it. */
  datatype ConnectEnv = ConnectEnv(
    writeOk: nat -> bool,
    observe: nat -> Probe,
    mkdirOk: bool,
    createOk: bool,
    tracking: Tracking,
    rollbackSysfs: SysfsView)

  /** A `Connect` run: directives written, the device search (when it ran), the
      rollback disconnect (when there was one), the tracking tree after, and
      the device path or error. */
  datatype ConnectRun = ConnectRun(
    directives: seq<string>,
    search: Option<PathSearch>,
    rollback: Option<DisconnectRun>,
    tracking: Tracking,
    result: Result<string, ConnectError>)

  /** The part of `Connect` after every endpoint was written: wait for the
      device, then create the tracking files; either failure rolls back with a
      disconnect by NQN. */
  function SearchAndTrack(c: Connector, env: ConnectEnv, directives: seq<string>): (run: ConnectRun)
    ensures run.directives == directives && run.search.Some?
    ensures run.result.Ok? ==>
              run.search.value.path == Some(run.result.value)
              && HasPrefix(run.result.value, UuidLinkPrefix + ".")
              && env.mkdirOk
              && run.tracking == CreateTrackingFiles(c, env.tracking, env.mkdirOk, env.createOk).1
    ensures run.result.Err? ==> run.result.error == DeviceNotReady || run.result.error == TrackingDirFailed
    ensures run.rollback.Some? <==> run.result.Err?
    ensures run.rollback.Some? ==>
              run.rollback.value == DisconnectByNqn(c.targetNqn, c.hostNqn, env.tracking, env.rollbackSysfs)
              && run.tracking == run.rollback.value.tracking
    ensures run.result == Err(DeviceNotReady) ==> run.search.value.path.None?
    ensures var found := FindPathWithRetry(c.targetNqn, c.retryCount, c.checkInterval, env.observe).path;
            && run.search.value.path == found
            && (found.None? ==> run.result == Err(DeviceNotReady))
            && (found.Some? && !env.mkdirOk ==> run.result == Err(TrackingDirFailed))
            && (found.Some? && env.mkdirOk ==> run.result == Ok(found.value))
  {
    var search := FindPathWithRetry(c.targetNqn, c.retryCount, c.checkInterval, env.observe);
    if search.path.None? then
      var rollback := DisconnectByNqn(c.targetNqn, c.hostNqn, env.tracking, env.rollbackSysfs);
      ConnectRun(directives, Some(search), Some(rollback), rollback.tracking, Err(DeviceNotReady))
    else
      var (created, tracking) := CreateTrackingFiles(c, env.tracking, env.mkdirOk, env.createOk);
      if created.Err? then
        var rollback := DisconnectByNqn(c.targetNqn, c.hostNqn, tracking, env.rollbackSysfs);
        ConnectRun(directives, Some(search), Some(rollback), rollback.tracking, Err(TrackingDirFailed))
      else
        ConnectRun(directives, Some(search), None, tracking, Ok(search.path.value))
  }

  /** `Connector.Connect`. */
  function Connect(c: Connector, env: ConnectEnv): (run: ConnectRun)
    ensures c.retryCount < 0 || c.checkInterval < 0 ==>
              run.result == Err(InvalidRetrySettings) && run.directives == []
    ensures c.retryCount >= 0 && c.checkInterval >= 0 && !IsSupportedTransport(c.transport) ==>
              run.result == Err(UnsupportedTransport) && run.directives == []
    ensures run.directives != [] ==> IsSupportedTransport(c.transport)
    ensures c.retryCount >= 0 && c.checkInterval >= 0 && IsSupportedTransport(c.transport) ==>
              run.directives == WriteDirectives(EndpointSteps(c), 0, env.writeOk).directives
    ensures run.result.Ok? ==>
              |run.directives| == |c.targetEndpoints|
              && (forall i :: 0 <= i < |c.targetEndpoints| ==>
                    ParseTargetEndpoint(c.targetEndpoints[i]).Ok? && env.writeOk(i))
              && run.search.Some? && run.search.value.path == Some(run.result.value)
              && HasPrefix(run.result.value, UuidLinkPrefix + ".")
              && env.mkdirOk && c.targetNqn in run.tracking
              && (env.createOk ==> c.hostNqn in run.tracking[c.targetNqn])
    ensures run.rollback.Some? <==>
              run.result.Err? && (run.result.error == DeviceNotReady || run.result.error == TrackingDirFailed)
    ensures run.rollback.Some? ==>
              run.rollback.value == DisconnectByNqn(c.targetNqn, c.hostNqn, env.tracking, env.rollbackSysfs)
              && run.tracking == run.rollback.value.tracking
    ensures run.result.Err? && run.rollback.None? ==> run.tracking == env.tracking
    ensures run.result.Ok? ==> run.tracking == CreateTrackingFiles(c, env.tracking, env.mkdirOk, env.createOk).1
    ensures run.result == Err(DeviceNotReady) ==> run.search.Some? && run.search.value.path.None?
    ensures c.retryCount >= 0 && c.checkInterval >= 0 && IsSupportedTransport(c.transport) ==>
              var pass := WriteDirectives(EndpointSteps(c), 0, env.writeOk);
              && (pass.failure.Some? ==> run.result == Err(pass.failure.value) && run.search.None?)
              && (pass.failure.None? ==> run.result == SearchAndTrack(c, env, pass.directives).result)
  {
    if c.retryCount < 0 || c.checkInterval < 0 then
      ConnectRun([], None, None, env.tracking, Err(InvalidRetrySettings))
    else if !IsSupportedTransport(c.transport) then
      ConnectRun([], None, None, env.tracking, Err(UnsupportedTransport))
    else
      WriteAndSearch(c, env)
  }

  /** `Connect` once its settings and transport are accepted: write every
      endpoint's directive, stopping at the first failure, then search for
      the device and track it. */
  function WriteAndSearch(c: Connector, env: ConnectEnv): (run: ConnectRun)
    requires c.retryCount >= 0 && c.checkInterval >= 0 && IsSupportedTransport(c.transport)
    ensures var pass := WriteDirectives(EndpointSteps(c), 0, env.writeOk);
            && run.directives == pass.directives
            && (pass.failure.Some? ==> run == ConnectRun(pass.directives, None, None, env.tracking, Err(pass.failure.value)))
            && (pass.failure.None? ==> run == SearchAndTrack(c, env, pass.directives))
    ensures run.result.Ok? ==>
              |run.directives| == |c.targetEndpoints|
              && forall i :: 0 <= i < |c.targetEndpoints| ==>
                   ParseTargetEndpoint(c.targetEndpoints[i]).Ok? && env.writeOk(i)
  {
    var steps := EndpointSteps(c);
    var pass := WriteDirectives(steps, 0, env.writeOk);
    if pass.failure.Some? then
      ConnectRun(pass.directives, None, None, env.tracking, Err(pass.failure.value))
    else
      assert forall i :: 0 <= i < |c.targetEndpoints| ==>
               ParseTargetEndpoint(c.targetEndpoints[i]).Ok? && env.writeOk(i) by {
        forall i | 0 <= i < |c.targetEndpoints|
          ensures ParseTargetEndpoint(c.targetEndpoints[i]).Ok? && env.writeOk(i)
        {
          assert steps[i].directive.Ok? && env.writeOk(i);
        }
      }
      SearchAndTrack(c, env, pass.directives)
  }

  /** The reply of a connect with valid settings and a supported transport:
      the first failing endpoint's error; otherwise DeviceNotReady when no
      probe finds the device, TrackingDirFailed when the tracking directory
      cannot be made, and the found path when both succeed. */
  lemma ConnectReplies(c: Connector, env: ConnectEnv)
    requires c.retryCount >= 0 && c.checkInterval >= 0 && IsSupportedTransport(c.transport)
    ensures var failure := WriteDirectives(EndpointSteps(c), 0, env.writeOk).failure;
            var found := FindPathWithRetry(c.targetNqn, c.retryCount, c.checkInterval, env.observe).path;
            var result := Connect(c, env).result;
            && (failure.Some? ==> result == Err(failure.value))
            && (failure.None? && found.None? ==> result == Err(DeviceNotReady))
            && (failure.None? && found.Some? && !env.mkdirOk ==> result == Err(TrackingDirFailed))
            && (failure.None? && found.Some? && env.mkdirOk ==> result == Ok(found.value))
  {
  }

  /** Directive `i` of the endpoint loop is the directive of endpoint `i`, and
      a loop that completes wrote one for every endpoint. With `Connect`'s
      contract this makes a connect's writes exactly the endpoints' directives,
      in order. */
  lemma EndpointLoopWritesDirectives(c: Connector, writeOk: nat -> bool)
    ensures var pass := WriteDirectives(EndpointSteps(c), 0, writeOk);
            && (forall i :: 0 <= i < |pass.directives| ==>
                  i < |c.targetEndpoints| && DirectiveFor(c, c.targetEndpoints[i]) == Ok(pass.directives[i]))
            && (pass.failure.None? ==> |pass.directives| == |c.targetEndpoints|)
  {
    var steps := EndpointSteps(c);
    var pass := WriteDirectives(steps, 0, writeOk);
    forall i | 0 <= i < |pass.directives|
      ensures i < |c.targetEndpoints| && DirectiveFor(c, c.targetEndpoints[i]) == Ok(pass.directives[i])
    {
      assert steps[0 + i].directive == Ok(pass.directives[i]);
    }
  }

  /** A malformed endpoint fails the connect with no rollback, even when earlier
      endpoints were already connected. */
  lemma MalformedEndpointNoRollback(c: Connector, env: ConnectEnv, good: string, bad: string)
    requires c.retryCount >= 0 && c.checkInterval >= 0 && IsSupportedTransport(c.transport)
    requires c.targetEndpoints == [good, bad]
    requires ParseTargetEndpoint(good).Ok? && env.writeOk(0)
    requires ParseTargetEndpoint(bad).Err?
    ensures Connect(c, env).result.Err?
    ensures Connect(c, env).rollback.None?
    ensures |Connect(c, env).directives| == 1
  {
    var steps := EndpointSteps(c);
    var rest := WriteDirectives(steps, 1, env.writeOk);
    assert rest.failure.Some? && rest.directives == [];
  }

  /** When the device never appears for an NQN that no host tracks yet, the
      rollback finds no tracking directory and deletes no controller: the
      controllers just connected stay connected. */
  lemma RollbackOnUntrackedNqnDeletesNothing(c: Connector, env: ConnectEnv)
    requires c.targetNqn !in env.tracking
    requires Connect(c, env).result == Err(DeviceNotReady)
    ensures Connect(c, env).rollback.Some?
    ensures Connect(c, env).rollback.value.ret < 0
    ensures Connect(c, env).rollback.value.deleted == []
  {
  }

  /** A successful connect of an NQN no host tracked, followed by a disconnect of
      the same connector, leaves the tracking tree as it was before. */
  lemma ConnectDisconnectRestoresTracking(c: Connector, env: ConnectEnv, sysfs: SysfsView)
    requires c.targetNqn !in env.tracking
    requires Utf8Len(c.targetNqn) <= NqnSize
    requires Connect(c, env).result.Ok?
    ensures Disconnect(c, Connect(c, env).tracking, sysfs).1.tracking == env.tracking
  {
    CreateThenRemoveTracking(c, env.tracking, env.createOk);
  }

  /** Removing the host's file right after creating the tracking of an NQN no
      host tracked gives the tree back. */
  lemma CreateThenRemoveTracking(c: Connector, tracking: Tracking, createOk: bool)
    requires c.targetNqn !in tracking
    ensures var created := CreateTrackingFiles(c, tracking, true, createOk).1;
            c.targetNqn in created && RemoveTracking(created, c.targetNqn, c.hostNqn) == tracking
  {
    var created := CreateTrackingFiles(c, tracking, true, createOk).1;
    assert created[c.targetNqn] - {c.hostNqn} == {};
    assert RemoveTracking(created, c.targetNqn, c.hostNqn).Keys == tracking.Keys;
  }
}

=== FILE: go_strings.dfy ===
/** Models of the operations of Go's `strings` package that the driver uses.
    A Go string is modelled as a sequence of Unicode scalar values; where the
    driver compares a byte length, `Utf8Len` gives the UTF-8 length. Case
    mapping covers ASCII letters only. */
module GoStrings {

  /** `unicode.IsSpace`: the Latin-1 spaces plus the Unicode White_Space characters. */
  predicate IsSpace(c: char) {
    var n := c as int;
    n == 0x20 || (0x09 <= n <= 0x0D) || n == 0x85 || n == 0xA0 || n == 0x1680
    || (0x2000 <= n <= 0x200A) || n == 0x2028 || n == 0x2029 || n == 0x202F
    || n == 0x205F || n == 0x3000
  }

  predicate AllSpace(s: string) {
    forall i :: 0 <= i < |s| ==> IsSpace(s[i])
  }

  /** A string with no white space at either end: what `TrimSpace` produces. */
  predicate IsTrimmed(s: string) {
    |s| == 0 || (!IsSpace(s[0]) && !IsSpace(s[|s| - 1]))
  }

  function LowerChar(c: char): (r: char)
    ensures 'A' <= c <= 'Z' ==> 'a' <= r <= 'z'
    ensures !('A' <= c <= 'Z') ==> r == c
  {
    if 'A' <= c <= 'Z' then (c as int + 32) as char else c
  }

  /** `strings.ToLower`, for ASCII letters. */
  function ToLower(s: string): (r: string)
    ensures |r| == |s|
    ensures forall i :: 0 <= i < |s| ==> r[i] == LowerChar(s[i])
  {
    seq(|s|, i requires 0 <= i < |s| => LowerChar(s[i]))
  }

  /** `strings.HasPrefix`. */
  predicate HasPrefix(s: string, prefix: string) {
    prefix <= s
  }

  predicate OccursAt(s: string, sub: string, i: nat) {
    i + |sub| <= |s| && s[i..i + |sub|] == sub
  }

  /** `strings.Contains`. */
  predicate Contains(s: string, sub: string) {
    exists i: nat :: i <= |s| && OccursAt(s, sub, i)
  }

  /** Number of occurrences of `c` in `s`. */
  function CountChar(s: string, c: char): (n: nat)
    ensures n <= |s|
    ensures n == 0 <==> c !in s
  {
    if |s| == 0 then 0 else (if s[0] == c then 1 else 0) + CountChar(s[1..], c)
  }

  /** Index of the first occurrence of `c` (`strings.IndexByte` when it is found). */
  function IndexOf(s: string, c: char): (i: nat)
    requires c in s
    ensures i < |s| && s[i] == c && c !in s[..i]
  {
    if s[0] == c then 0
    else
      var j := IndexOf(s[1..], c);
      assert s[..j + 1] == [s[0]] + s[1..][..j];
      j + 1
  }

  /** `strings.LastIndex` for a one-character needle that is present. */
  function LastIndexOf(s: string, c: char): (i: nat)
    requires c in s
    ensures i < |s| && s[i] == c && c !in s[i + 1..]
  {
    if s[|s| - 1] == c then |s| - 1
    else
      assert c in s[..|s| - 1] by {
        var k :| 0 <= k < |s| && s[k] == c;
        assert s[..|s| - 1][k] == c;
      }
      var i := LastIndexOf(s[..|s| - 1], c);
      assert s[i + 1..] == s[..|s| - 1][i + 1..] + [s[|s| - 1]];
      i
  }

  /** `strings.Split` with a one-character separator: never empty, no piece holds
      the separator. */
  function Split(s: string, sep: char): (parts: seq<string>)
    ensures |parts| >= 1
    ensures forall i :: 0 <= i < |parts| ==> sep !in parts[i]
    decreases |s|
  {
    if sep !in s then [s]
    else
      var i := IndexOf(s, sep);
      [s[..i]] + Split(s[i + 1..], sep)
  }

  /** `strings.Join` with a one-character separator. */
  function Join(parts: seq<string>, sep: char): string
    decreases |parts|
  {
    if |parts| == 0 then ""
    else if |parts| == 1 then parts[0]
    else parts[0] + [sep] + Join(parts[1..], sep)
  }

  /** Joining the pieces of a split gives the original string back. */
  lemma {:induction false} JoinSplit(s: string, sep: char)
    ensures Join(Split(s, sep), sep) == s
    decreases |s|
  {
    if sep in s {
      var i := IndexOf(s, sep);
      var rest := Split(s[i + 1..], sep);
      JoinSplit(s[i + 1..], sep);
      assert Split(s, sep) == [s[..i]] + rest;
      assert s == s[..i] + [sep] + s[i + 1..];
    }
  }

  /** A leading separator-free piece is split off first. */
  lemma SplitCons(a: string, b: string, sep: char)
    requires sep !in a
    ensures Split(a + [sep] + b, sep) == [a] + Split(b, sep)
  {
    var s := a + [sep] + b;
    assert s[..|a|] == a;
    assert s[|a| + 1..] == b;
  }

  /** Splitting a join of separator-free pieces gives the pieces back. */
  lemma {:induction false} SplitJoin(parts: seq<string>, sep: char)
    requires |parts| >= 1
    requires forall i :: 0 <= i < |parts| ==> sep !in parts[i]
    ensures Split(Join(parts, sep), sep) == parts
    decreases |parts|
  {
    if |parts| > 1 {
      SplitCons(parts[0], Join(parts[1..], sep), sep);
      SplitJoin(parts[1..], sep);
      assert parts == [parts[0]] + parts[1..];
    }
  }

  /** The number of pieces is one more than the number of separators. */
  lemma {:induction false} SplitCount(s: string, sep: char)
    ensures |Split(s, sep)| == CountChar(s, sep) + 1
    decreases |s|
  {
    if sep in s {
      var i := IndexOf(s, sep);
      assert |Split(s, sep)| == 1 + |Split(s[i + 1..], sep)|;
      SplitCount(s[i + 1..], sep);
      CountAppend(s[..i], [sep] + s[i + 1..], sep);
      CountAppend([sep], s[i + 1..], sep);
      assert s == s[..i] + ([sep] + s[i + 1..]);
    }
  }

  lemma {:induction false} CountAppend(a: string, b: string, c: char)
    ensures CountChar(a + b, c) == CountChar(a, c) + CountChar(b, c)
    decreases |a|
  {
    if |a| > 0 {
      assert (a + b)[1..] == a[1..] + b;
      CountAppend(a[1..], b, c);
    } else {
      assert a + b == b;
    }
  }

  /** Number of white-space characters at the start of `s`. */
  function LeadingSpaces(s: string): (n: nat)
    ensures n <= |s|
    ensures AllSpace(s[..n])
    ensures n == |s| || !IsSpace(s[n])
  {
    if |s| == 0 || !IsSpace(s[0]) then 0
    else
      var n := LeadingSpaces(s[1..]);
      assert s[..n + 1] == [s[0]] + s[1..][..n];
      n + 1
  }

  /** Number of white-space characters at the end of `s`. */
  function TrailingSpaces(s: string): (n: nat)
    ensures n <= |s|
    ensures AllSpace(s[|s| - n..])
    ensures n == |s| || !IsSpace(s[|s| - n - 1])
  {
    if |s| == 0 || !IsSpace(s[|s| - 1]) then 0
    else
      var n := TrailingSpaces(s[..|s| - 1]);
      assert s[|s| - (n + 1)..] == s[..|s| - 1][|s| - 1 - n..] + [s[|s| - 1]];
      n + 1
  }

  /** `strings.TrimSpace`: the middle of `s` between two runs of white space,
      with no white space left at either end. */
  function TrimSpace(s: string): (r: string)
    ensures IsTrimmed(r)
    ensures |r| <= |s|
    ensures exists i, j :: 0 <= i <= j <= |s| && r == s[i..j] && AllSpace(s[..i]) && AllSpace(s[j..])
  {
    var i := LeadingSpaces(s);
    var t := s[i..];
    var n := TrailingSpaces(t);
    var r := t[..|t| - n];
    assert IsTrimmed(r) by {
      if |r| > 0 {
        assert r[0] == s[i];
        assert r[|r| - 1] == t[|t| - n - 1];
      }
    }
    assert r == s[i..|s| - n];
    assert AllSpace(s[|s| - n..]) by {
      assert t[|t| - n..] == s[|s| - n..];
    }
    r
  }

  /** Trimming a string that is already trimmed changes nothing. */
  lemma TrimSpaceOfTrimmed(s: string)
    requires IsTrimmed(s)
    ensures TrimSpace(s) == s
  {
  }

  /** `strings.ReplaceAll(s, string(c), "")`. */
  function RemoveChar(s: string, c: char): (r: string)
    ensures c !in r
    ensures |r| <= |s|
    ensures forall x :: x in r ==> x in s
  {
    if |s| == 0 then ""
    else (if s[0] == c then "" else [s[0]]) + RemoveChar(s[1..], c)
  }

  lemma {:induction false} RemoveAbsentChar(s: string, c: char)
    requires c !in s
    ensures RemoveChar(s, c) == s
  {
    if |s| > 0 {
      RemoveAbsentChar(s[1..], c);
      assert s == [s[0]] + s[1..];
    }
  }

  /** Number of bytes of the UTF-8 encoding of one character. */
  function CharUtf8Len(c: char): (n: nat)
    ensures 1 <= n <= 4
    ensures c as int < 0x80 <==> n == 1
  {
    var v := c as int;
    if v < 0x80 then 1 else if v < 0x800 then 2 else if v < 0x1_0000 then 3 else 4
  }

  /** Go's `len` of a string: its length in UTF-8 bytes. */
  function Utf8Len(s: string): (n: nat)
    ensures |s| <= n <= 4 * |s|
  {
    if |s| == 0 then 0 else CharUtf8Len(s[0]) + Utf8Len(s[1..])
  }

  predicate IsAscii(s: string) {
    forall i :: 0 <= i < |s| ==> s[i] as int < 0x80
  }

  /** For ASCII text the byte length is the character count. */
  lemma {:induction false} AsciiUtf8Len(s: string)
    requires IsAscii(s)
    ensures Utf8Len(s) == |s|
  {
    if |s| > 0 {
      assert IsAscii(s[1..]) by {
        forall i | 0 <= i < |s[1..]| ensures s[1..][i] as int < 0x80 {
          assert s[1..][i] == s[i + 1];
        }
      }
      AsciiUtf8Len(s[1..]);
    }
  }
}

=== FILE: node_server.dfy ===
/** pkg/nvmf/nodeserver.go: the node service. Publishing connects the target,
    records the connector in a file named after the volume and attaches the
    device; unpublishing detaches, disconnects with the recorded connector and
    removes the file. The connect and disconnect are the connector's; the
    connector files and the other file-system calls are inputs or state. */
module NodeServer {
  import opened Results
  import opened GoStrings
  import opened Csi
  import opened Utils
  import opened NvmfUtils
  import opened Fabrics
  import opened NvmfDisk

  /** `DefaultVolumeMapPath`, where connector files live. */
  const DefaultVolumeMapPath := "/var/lib/kubelet/plugins/csi.nvmf.com/volumes"

  /** `path.Join(DefaultVolumeMapPath, volumeId + ".json")`. */
  function ConnectorFilePath(volumeId: string): string {
    DefaultVolumeMapPath + "/" + volumeId + ".json"
  }

  /** The connector files by path; `None` is a file whose content does not
      decode to a connector. */
  type ConnectorFiles = map<string, Option<Connector>>

  /** What the node changes: the connector's tracking tree and the connector
      files. */
  datatype NodeState = NodeState(tracking: Tracking, files: ConnectorFiles)

  /** How `persistConnectorFile` goes: the file cannot be created, it is created
      but encoding fails, or the connector is written. */
  datatype PersistOutcome = CreateFailed | EncodeFailed | Written

  /** `persistConnectorFile`. */
  function PersistConnectorFile(files: ConnectorFiles, c: Connector, path: string, outcome: PersistOutcome)
    : (out: (Result<(), string>, ConnectorFiles))
    ensures out.0.Ok? <==> outcome == Written
    ensures outcome == Written ==> out.1 == files[path := Some(c)]
    ensures outcome == CreateFailed ==> out.1 == files
    ensures outcome == EncodeFailed ==> out.1 == files[path := None]
  {
    match outcome
    case CreateFailed => (Err("error creating nvmf persistence file"), files)
    case EncodeFailed => (Err("error encoding connector"), files[path := None])
    case Written => (Ok(()), files[path := Some(c)])
  }

  /** `GetConnectorFromFile`. */
  function GetConnectorFromFile(files: ConnectorFiles, path: string): (r: Result<Connector, string>)
    ensures r.Ok? <==> path in files && files[path].Some?
    ensures r.Ok? ==> r.value == files[path].value
  {
    if path !in files then Err("no such file")
    else match files[path]
      case None => Err("cannot decode connector")
      case Some(c) => Ok(c)
  }

  /** Reading back a written connector gives the same connector. */
  lemma PersistThenRead(files: ConnectorFiles, c: Connector, path: string)
    ensures GetConnectorFromFile(PersistConnectorFile(files, c, path, Written).1, path) == Ok(c)
  {
  }

  /** `removeConnectorFile(p)`: removes `p + ".json"` and `p`, ignoring
      failures. */
  function RemoveConnectorFile(files: ConnectorFiles, path: string): (r: ConnectorFiles)
    ensures path !in r && path + ".json" !in r
    ensures forall p :: p != path && p != path + ".json" ==> (p in r <==> p in files)
    ensures forall p :: p in r ==> r[p] == files[p]
  {
    files - {path + ".json", path}
  }

  /** The fields of a `NodePublishVolumeRequest` the server reads. */
  datatype PublishRequest = PublishRequest(volumeId: string, targetPath: string, capability: Option<VolumeCapability>)

  /** The outcomes publishing depends on: the connector derived from the
      request (or why there is none), the connect's environment, the write of
      the connector file, and the attach. */
  datatype PublishEnv = PublishEnv(
    derived: Result<Connector, string>,
    connect: ConnectEnv,
    persist: PersistOutcome,
    attachOk: bool)

  /** The connect publishing performs. */
  function PublishConnect(state: NodeState, env: PublishEnv): ConnectRun
    requires env.derived.Ok?
  {
    Connect(env.derived.value, env.connect.(tracking := state.tracking))
  }

  /** The request passes the three pre-checks. */
  predicate PassesPublishChecks(req: PublishRequest) {
    req.capability.Some? && req.volumeId != "" && req.targetPath != ""
  }

  /** The capability asks for both block and mount access. */
  predicate AsksBothAccessTypes(req: PublishRequest) {
    req.capability.Some? && req.capability.value.block && req.capability.value.mount.Some?
  }

  /** Publishing once the target is connected: write the connector file, refuse
      a capability with both access types, then attach. */
  function PersistAndAttach(files: ConnectorFiles, req: PublishRequest, connector: Connector, env: PublishEnv)
    : (out: (ConnectorFiles, Result<(), Code>))
    ensures out.0 == PersistConnectorFile(files, connector, ConnectorFilePath(req.volumeId), env.persist).1
    ensures env.persist != Written ==> out.1 == Err(Internal)
    ensures env.persist == Written && AsksBothAccessTypes(req) ==> out.1 == Err(InvalidArgument)
    ensures env.persist == Written && !AsksBothAccessTypes(req) ==> (out.1.Ok? <==> env.attachOk)
    ensures out.1.Err? ==> out.1.error == InvalidArgument || out.1.error == Internal
  {
    var (persisted, written) := PersistConnectorFile(files, connector, ConnectorFilePath(req.volumeId), env.persist);
    if persisted.Err? then (written, Err(Internal))
    else if AsksBothAccessTypes(req) then (written, Err(InvalidArgument))
    else if !env.attachOk then (written, Err(Internal))
    else (written, Ok(()))
  }

  /** `NodePublishVolume`. The capability's access types are checked only after
      the connect and the connector file. */
  function NodePublishVolume(state: NodeState, req: PublishRequest, env: PublishEnv)
    : (out: (NodeState, Result<(), Code>))
    ensures req.capability.None? ==> out == (state, Err(InvalidArgument))
    ensures req.capability.Some? && req.volumeId == "" ==> out == (state, Err(InvalidArgument))
    ensures req.capability.Some? && req.volumeId != "" && req.targetPath == "" ==> out == (state, Err(InvalidArgument))
    ensures PassesPublishChecks(req) && env.derived.Err? ==> out == (state, Err(Internal))
    ensures PassesPublishChecks(req) && env.derived.Ok? ==>
              out.0.tracking == PublishConnect(state, env).tracking
    ensures PassesPublishChecks(req) && env.derived.Ok? && PublishConnect(state, env).result.Err? ==>
              out.1 == Err(Internal) && out.0.files == state.files
    ensures PassesPublishChecks(req) && env.derived.Ok? && PublishConnect(state, env).result.Ok? ==>
              out.0.files == PersistConnectorFile(state.files, env.derived.value,
                                                  ConnectorFilePath(req.volumeId), env.persist).1
              && out.1 == PersistAndAttach(state.files, req, env.derived.value, env).1
    ensures out.1.Ok? ==>
              && PassesPublishChecks(req) && env.derived.Ok?
              && PublishConnect(state, env).result.Ok?
              && out.0.files == state.files[ConnectorFilePath(req.volumeId) := Some(env.derived.value)]
              && !AsksBothAccessTypes(req)
              && env.attachOk
    ensures out.1.Err? ==> out.1.error == InvalidArgument || out.1.error == Internal
  {
    if req.capability.None? then (state, Err(InvalidArgument))
    else if req.volumeId == "" then (state, Err(InvalidArgument))
    else if req.targetPath == "" then (state, Err(InvalidArgument))
    else match env.derived
      case Err(_) => (state, Err(Internal))
      case Ok(connector) =>
        var run := PublishConnect(state, env);
        var connected := state.(tracking := run.tracking);
        if run.result.Err? then (connected, Err(Internal))
        else if run.result.value == "" then (connected, Err(Internal))
        else
          var (files, reply) := PersistAndAttach(state.files, req, connector, env);
          (connected.(files := files), reply)
  }

  /** The reply of a publish over all inputs: InvalidArgument for a failed
      pre-check or for both access types, Internal when the connector cannot
      be derived, the connect fails, the connector file cannot be written or
      the attach fails, and success otherwise. */
  lemma PublishReplies(state: NodeState, req: PublishRequest, env: PublishEnv)
    ensures var reply := NodePublishVolume(state, req, env).1;
            && (!PassesPublishChecks(req) ==> reply == Err(InvalidArgument))
            && ((PassesPublishChecks(req) && (env.derived.Err? || PublishConnect(state, env).result.Err?))
                ==> reply == Err(Internal))
            && (PassesPublishChecks(req) && env.derived.Ok? && PublishConnect(state, env).result.Ok? ==>
                  && (env.persist != Written ==> reply == Err(Internal))
                  && (env.persist == Written && AsksBothAccessTypes(req) ==> reply == Err(InvalidArgument))
                  && (env.persist == Written && !AsksBothAccessTypes(req) && !env.attachOk ==> reply == Err(Internal))
                  && (env.persist == Written && !AsksBothAccessTypes(req) && env.attachOk ==> reply == Ok(())))
  {
  }

  /** A request asking for both access types is refused only after the target
      is connected and its connector file written. */
  lemma BothAccessTypesRejectedAfterConnect(state: NodeState, req: PublishRequest, env: PublishEnv)
    requires PassesPublishChecks(req) && AsksBothAccessTypes(req)
    requires env.derived.Ok? && PublishConnect(state, env).result.Ok? && env.persist == Written
    ensures NodePublishVolume(state, req, env).1 == Err(InvalidArgument)
    ensures GetConnectorFromFile(NodePublishVolume(state, req, env).0.files, ConnectorFilePath(req.volumeId))
            == Ok(env.derived.value)
    ensures NodePublishVolume(state, req, env).0.tracking == PublishConnect(state, env).tracking
  {
  }

  /** After a successful publish the connector file holds the connector that
      was connected. */
  lemma PublishedConnectorIsReadBack(state: NodeState, req: PublishRequest, env: PublishEnv)
    requires NodePublishVolume(state, req, env).1.Ok?
    ensures GetConnectorFromFile(NodePublishVolume(state, req, env).0.files, ConnectorFilePath(req.volumeId))
            == Ok(env.derived.value)
  {
  }

  /** The sysfs each of unpublish's two disconnects sees. */
  datatype UnpublishEnv = UnpublishEnv(detachSysfs: SysfsView, disconnectSysfs: SysfsView)

  /** `NodeUnpublishVolume`: detach with the volume ID as NQN and the target path
      as host NQN, then disconnect with the recorded connector, then remove its
      file. A detach failure is returned as a plain error, which gRPC reports as
      Unknown. */
  function NodeUnpublishVolume(state: NodeState, volumeId: string, targetPath: string, env: UnpublishEnv)
    : (out: (NodeState, Result<(), Code>))
    ensures volumeId == "" ==> out == (state, Err(InvalidArgument))
    ensures volumeId != "" && targetPath == "" ==> out == (state, Err(InvalidArgument))
    ensures volumeId != "" && targetPath != "" ==>
              (out.1 == Err(Unknown) <==> DetachDisk(volumeId, targetPath, state.tracking, env.detachSysfs).0.Err?)
    ensures out.1 == Err(Unknown) ==> out.0.files == state.files
    ensures out.1.Ok? ==>
              && volumeId != "" && targetPath != ""
              && DetachDisk(volumeId, targetPath, state.tracking, env.detachSysfs).0.Ok?
              && GetConnectorFromFile(state.files, ConnectorFilePath(volumeId)).Ok?
              && out.0.files == RemoveConnectorFile(state.files, ConnectorFilePath(volumeId))
              && ConnectorFilePath(volumeId) !in out.0.files
              && out.0.tracking == DisconnectByNqn(
                   GetConnectorFromFile(state.files, ConnectorFilePath(volumeId)).value.targetNqn,
                   GetConnectorFromFile(state.files, ConnectorFilePath(volumeId)).value.hostNqn,
                   DetachDisk(volumeId, targetPath, state.tracking, env.detachSysfs).1.tracking,
                   env.disconnectSysfs).tracking
    ensures out.1.Err? ==> out.0.files == state.files
    ensures volumeId != "" && targetPath != "" && DetachDisk(volumeId, targetPath, state.tracking, env.detachSysfs).0.Ok? ==>
              var afterDetach := DetachDisk(volumeId, targetPath, state.tracking, env.detachSysfs).1.tracking;
              var file := GetConnectorFromFile(state.files, ConnectorFilePath(volumeId));
              && (file.Err? ==> out == (state.(tracking := afterDetach), Err(Internal)))
              && (file.Ok? ==>
                    var disconnected := Disconnect(file.value, afterDetach, env.disconnectSysfs);
                    && out.0.tracking == disconnected.1.tracking
                    && (out.1.Ok? <==> disconnected.0.Ok?)
                    && (out.1.Err? ==> out.1 == Err(Internal)))
  {
    if volumeId == "" then (state, Err(InvalidArgument))
    else if targetPath == "" then (state, Err(InvalidArgument))
    else
      var (detached, detachRun) := DetachDisk(volumeId, targetPath, state.tracking, env.detachSysfs);
      var afterDetach := state.(tracking := detachRun.tracking);
      if detached.Err? then (afterDetach, Err(Unknown))
      else
        var connectorFilePath := ConnectorFilePath(volumeId);
        match GetConnectorFromFile(state.files, connectorFilePath)
        case Err(_) => (afterDetach, Err(Internal))
        case Ok(connector) =>
          var (disconnected, run) := Disconnect(connector, afterDetach.tracking, env.disconnectSysfs);
          var afterDisconnect := afterDetach.(tracking := run.tracking);
          if disconnected.Err? then (afterDisconnect, Err(Internal))
          else (afterDisconnect.(files := RemoveConnectorFile(state.files, connectorFilePath)), Ok(()))
  }

  /** Unpublishing a volume whose connector file is missing fails with Internal
      once the detach succeeded, and leaves the files alone. */
  lemma UnpublishWithoutConnectorFile(state: NodeState, volumeId: string, targetPath: string, env: UnpublishEnv)
    requires volumeId != "" && targetPath != ""
    requires DetachDisk(volumeId, targetPath, state.tracking, env.detachSysfs).0.Ok?
    requires ConnectorFilePath(volumeId) !in state.files
    ensures NodeUnpublishVolume(state, volumeId, targetPath, env).1 == Err(Internal)
    ensures NodeUnpublishVolume(state, volumeId, targetPath, env).0.files == state.files
  {
  }

  /** The same holds for a connector file whose content does not decode. */
  lemma UnpublishWithUnreadableConnectorFile(state: NodeState, volumeId: string, targetPath: string, env: UnpublishEnv)
    requires volumeId != "" && targetPath != ""
    requires DetachDisk(volumeId, targetPath, state.tracking, env.detachSysfs).0.Ok?
    requires ConnectorFilePath(volumeId) in state.files && state.files[ConnectorFilePath(volumeId)].None?
    ensures NodeUnpublishVolume(state, volumeId, targetPath, env).1 == Err(Internal)
    ensures NodeUnpublishVolume(state, volumeId, targetPath, env).0.files == state.files
  {
  }

  /** After a publish and a successful unpublish of the same volume, no connector
      file is left for it. */
  lemma PublishThenUnpublishRemovesFile(state: NodeState, req: PublishRequest, env: PublishEnv, uenv: UnpublishEnv)
    requires NodePublishVolume(state, req, env).1.Ok?
    requires NodeUnpublishVolume(NodePublishVolume(state, req, env).0, req.volumeId, req.targetPath, uenv).1.Ok?
    ensures ConnectorFilePath(req.volumeId)
            !in NodeUnpublishVolume(NodePublishVolume(state, req, env).0, req.volumeId, req.targetPath, uenv).0.files
  {
  }

  /** The answer of `NodeExpandVolume`: the controller rescan was triggered
      through `path`, a status error, or a panic when the device name holds no
      "n" (the slice in `parseDeviceToControllerPath` is out of range). */
  datatype ExpandOutcome = Rescanned(path: string) | Failed(code: Code) | Panicked

  /** `NodeExpandVolume`: find the device behind the volume's by-id link and
      write "1" to its controller's rescan file, which must exist. */
  function NodeExpandVolume(volumeId: string, lstat: string -> LinkStatus, stat: string -> StatResult,
                            writeFails: bool, flushFails: bool): (out: ExpandOutcome)
    ensures GetDeviceNameByVolumeID(volumeId, lstat).Err? ==> out == Failed(Internal)
    ensures out.Panicked? <==> GetDeviceNameByVolumeID(volumeId, lstat).Ok?
                               && 'n' !in GetDeviceNameByVolumeID(volumeId, lstat).value
    ensures out.Rescanned? ==>
              var name := GetDeviceNameByVolumeID(volumeId, lstat).value;
              && 'n' in name
              && out.path == ParseDeviceToControllerPath(name)
              && IsFileExisting(stat(out.path))
              && WriteStringToFile("1", writeFails, flushFails).Ok?
    ensures out.Failed? ==> out.code == Internal
    ensures GetDeviceNameByVolumeID(volumeId, lstat).Ok? && 'n' in GetDeviceNameByVolumeID(volumeId, lstat).value ==>
              var scanPath := ParseDeviceToControllerPath(GetDeviceNameByVolumeID(volumeId, lstat).value);
              && (!IsFileExisting(stat(scanPath)) ==> out == Failed(Internal))
              && (IsFileExisting(stat(scanPath)) && WriteStringToFile("1", writeFails, flushFails).Err? ==>
                    out == Failed(Internal))
              && (IsFileExisting(stat(scanPath)) && WriteStringToFile("1", writeFails, flushFails).Ok? ==>
                    out == Rescanned(scanPath))
  {
    match GetDeviceNameByVolumeID(volumeId, lstat)
    case Err(_) => Failed(Internal)
    case Ok(deviceName) =>
      if 'n' !in deviceName then Panicked
      else
        var scanPath := ParseDeviceToControllerPath(deviceName);
        if !IsFileExisting(stat(scanPath)) then Failed(Internal)
        else if WriteStringToFile("1", writeFails, flushFails).Err? then Failed(Internal)
        else Rescanned(scanPath)
  }

  /** A missing rescan file fails the expansion with Internal. */
  lemma ExpandNeedsRescanPath(volumeId: string, lstat: string -> LinkStatus, stat: string -> StatResult,
                              writeFails: bool, flushFails: bool)
    requires GetDeviceNameByVolumeID(volumeId, lstat).Ok?
    requires 'n' in GetDeviceNameByVolumeID(volumeId, lstat).value
    requires stat(ParseDeviceToControllerPath(GetDeviceNameByVolumeID(volumeId, lstat).value)) == StatNotExist
    ensures NodeExpandVolume(volumeId, lstat, stat, writeFails, flushFails) == Failed(Internal)
  {
  }

  /** The node RPCs with fixed answers. */
  datatype FixedNodeRpc = NodeStageVolume | NodeUnstageVolume | NodeGetCapabilities | NodeGetInfo | NodeGetVolumeStats

  datatype NodeReply = Empty | Capabilities(rpcs: seq<NodeRpcType>) | Info(nodeId: string)

  /** Stage and unstage do nothing and succeed, the only capability offered is
      volume expansion, the node info is the driver's node ID, and volume
      statistics are Unimplemented. */
  function AnswerFixed(rpc: FixedNodeRpc, nodeId: string): (r: Result<NodeReply, Code>)
    ensures r.Err? <==> rpc == NodeGetVolumeStats
    ensures r.Err? ==> r.error == Unimplemented
    ensures rpc == NodeStageVolume || rpc == NodeUnstageVolume ==> r == Ok(Empty)
    ensures rpc == NodeGetCapabilities ==>
              r.Ok? && r.value.Capabilities? && forall t :: t in r.value.rpcs <==> t == NodeExpandVolumeRpc
    ensures rpc == NodeGetInfo ==> r == Ok(Info(nodeId))
  {
    match rpc
    case NodeStageVolume => Ok(Empty)
    case NodeUnstageVolume => Ok(Empty)
    case NodeGetCapabilities => Ok(Capabilities([NodeExpandVolumeRpc]))
    case NodeGetInfo => Ok(Info(nodeId))
    case NodeGetVolumeStats => Err(Unimplemented)
  }
}

=== FILE: nvmf_disk.dfy ===
/** pkg/nvmf/nvmf.go: turning a volume's parameters into a target description,
    attaching and detaching it through the connector, and mounting or
    unmounting it. The mount library's answers and the file-system calls are
    inputs. */
module NvmfDisk {
  import opened Results
  import opened GoStrings
  import opened Csi
  import opened NvmfTypes
  import opened NvmfUtils
  import opened Fabrics

  /** `getNVMfDiskInfo`: `params` is `None` for a nil map. The NQN is the volume
      ID, and the endpoints string is split on ',' with nothing trimmed. */
  function GetNVMfDiskInfo(volumeId: string, params: Option<map<string, string>>): (r: Result<DiskInfo, string>)
    ensures params.None? ==> r.Err?
    ensures r.Ok? <==> params.Some? && volumeId != "" && Lookup(params.value, ParamType) != ""
                       && Lookup(params.value, ParamEndpoint) != ""
    ensures r.Ok? ==>
              && r.value.volName == volumeId && r.value.nqn == volumeId
              && r.value.transport == Lookup(params.value, ParamType)
              && r.value.addr == "" && r.value.port == ""
              && |r.value.endpoints| == CountChar(Lookup(params.value, ParamEndpoint), ',') + 1
              && (forall i :: 0 <= i < |r.value.endpoints| ==> ',' !in r.value.endpoints[i])
              && Join(r.value.endpoints, ',') == Lookup(params.value, ParamEndpoint)
  {
    match params
    case None => Err("discovery parameters are nil")
    case Some(p) =>
      var targetTrType := Lookup(p, ParamType);
      var targetTrEndpoints := Lookup(p, ParamEndpoint);
      var nqn := volumeId;
      if nqn == "" || targetTrType == "" || targetTrEndpoints == "" then
        Err("some nvme target info is missing")
      else
        var endpoints := Split(targetTrEndpoints, ',');
        JoinSplit(targetTrEndpoints, ',');
        SplitCount(targetTrEndpoints, ',');
        Ok(DiskInfo(volumeId, nqn, "", "", targetTrType, endpoints))
  }

  /** The volume context a list of endpoints is published with. */
  function EndpointContext(transport: string, endpoints: seq<string>): map<string, string> {
    map[ParamType := transport, ParamEndpoint := Join(endpoints, ',')]
  }

  /** Joining comma-free endpoints into the context and reading the context back
      gives the same endpoints. */
  lemma DiskInfoEndpointsRoundTrip(volumeId: string, transport: string, endpoints: seq<string>)
    requires volumeId != "" && transport != ""
    requires |endpoints| >= 1 && endpoints[0] != ""
    requires forall i :: 0 <= i < |endpoints| ==> ',' !in endpoints[i]
    ensures GetNVMfDiskInfo(volumeId, Some(EndpointContext(transport, endpoints)))
            == Ok(DiskInfo(volumeId, volumeId, "", "", transport, endpoints))
  {
    var joined := Join(endpoints, ',');
    SplitJoin(endpoints, ',');
    assert |joined| > 0 by {
      if |endpoints| > 1 {
        assert joined == endpoints[0] + [','] + Join(endpoints[1..], ',');
      }
    }
    assert Lookup(EndpointContext(transport, endpoints), ParamEndpoint) == joined;
  }

  /** `nvmfDiskMounter` without its library handles. */
  datatype DiskMounter = DiskMounter(
    info: DiskInfo,
    isBlock: bool,
    fsType: string,
    mountOptions: seq<string>,
    targetPath: string,
    connector: Connector)

  /** `getNVMfDiskMounter`: the access type and mount settings come from the
      capability (empty when it has no mount part), and the connector is built
      with the target path standing in as host NQN. */
  function GetNVMfDiskMounter(info: DiskInfo, targetPath: string, cap: VolumeCapability): (m: DiskMounter)
    ensures m.isBlock <==> cap.block
    ensures cap.mount.None? ==> m.fsType == "" && m.mountOptions == []
    ensures cap.mount.Some? ==> m.fsType == cap.mount.value.fsType && m.mountOptions == cap.mount.value.mountFlags
    ensures m.connector.hostNqn == m.targetPath == targetPath
    ensures m.connector.targetNqn == info.nqn && m.connector.targetEndpoints == info.endpoints
    ensures m.connector.transport == info.transport
  {
    var fsType := if cap.mount.Some? then cap.mount.value.fsType else "";
    var options := if cap.mount.Some? then cap.mount.value.mountFlags else [];
    DiskMounter(info, cap.block, fsType, options, targetPath, GetNvmfConnector(info, targetPath))
  }

  datatype AttachError = NilConnector | ConnectFailed(reason: ConnectError) | EmptyDevicePath

  /** `AttachDisk`: `connector` is `None` for a nil pointer; otherwise the
      connect runs in `env` and its run is returned with the answer. */
  function AttachDisk(volumeId: string, connector: Option<Connector>, env: ConnectEnv)
    : (out: (Result<string, AttachError>, Option<ConnectRun>))
    ensures connector.None? ==> out == (Err(NilConnector), None)
    ensures connector.Some? ==> out.1 == Some(Connect(connector.value, env))
    ensures connector.Some? && Connect(connector.value, env).result.Err? ==>
              out.0 == Err(ConnectFailed(Connect(connector.value, env).result.error))
    ensures out.0.Ok? ==> out.0.value != "" && out.1.Some? && out.1.value.result == Ok(out.0.value)
    ensures connector.Some? && Connect(connector.value, env).result.Ok? ==>
              out.0 == Ok(Connect(connector.value, env).result.value)
  {
    match connector
    case None => (Err(NilConnector), None)
    case Some(c) =>
      var run := Connect(c, env);
      match run.result
      case Err(e) => (Err(ConnectFailed(e)), Some(run))
      case Ok(devicePath) =>
        if devicePath == "" then (Err(EmptyDevicePath), Some(run))
        else (Ok(devicePath), Some(run))
  }

  /** The empty-path check never fires: a successful connect always yields a
      by-id link path. */
  lemma AttachNeverReportsEmptyPath(volumeId: string, connector: Option<Connector>, env: ConnectEnv)
    ensures AttachDisk(volumeId, connector, env).0 != Err(EmptyDevicePath)
  {
    if connector.Some? && Connect(connector.value, env).result.Ok? {
      var p := Connect(connector.value, env).result.value;
      assert HasPrefix(p, UuidLinkPrefix + ".");
      assert |p| > 0;
    }
  }

  /** `DetachDisk`: disconnect with a connector that carries only the NQN and,
      as host NQN, the target path. */
  function DetachDisk(targetNqn: string, targetPath: string, tracking: Tracking, sysfs: SysfsView)
    : (out: (Result<(), string>, DisconnectRun))
    ensures out.1 == DisconnectByNqn(targetNqn, targetPath, tracking, sysfs)
    ensures out.0.Err? <==> out.1.ret < 0
  {
    Disconnect(Connector("", targetNqn, [], "", targetPath, 0, 0), tracking, sysfs)
  }

  /** A volume attached through the mounter's connector of an NQN no host tracked
      before is untracked again by the detach of the same NQN and target path. */
  lemma AttachThenDetachRestoresTracking(m: DiskMounter, env: ConnectEnv, sysfs: SysfsView)
    requires m.connector.hostNqn == m.targetPath
    requires m.connector.targetNqn !in env.tracking
    requires Utf8Len(m.connector.targetNqn) <= NqnSize
    requires AttachDisk(m.info.volName, Some(m.connector), env).0.Ok?
    ensures DetachDisk(m.connector.targetNqn, m.targetPath,
                       AttachDisk(m.info.volName, Some(m.connector), env).1.value.tracking, sysfs).1.tracking
            == env.tracking
  {
    ConnectDisconnectRestoresTracking(m.connector, env, sysfs);
  }

  /** The answer of `IsLikelyNotMountPoint`: a mount point, not one, a path
      that does not exist (the library then also reports "not a mount point"),
      or another error. */
  datatype MountCheck = Mounted | NotMounted | PathMissing | CheckFailed

  /** The outcomes of the file-system calls a mount makes. */
  datatype MountEnv = MountEnv(
    check: MountCheck,
    mkdirOk: bool,
    parentExists: bool,
    openOk: bool,
    closeOk: bool,
    mountOk: bool)

  /** The mount-library call a mount ends in. */
  datatype MountCall =
    | FormatAndMount(source: string, target: string, fsType: string, options: seq<string>)
    | BindMount(source: string, target: string, fsType: string, options: seq<string>)

  datatype MountError = CheckError | MkdirFailed | ParentMissing | CreateFileFailed | CloseFailed | MountFailed

  /** `mountFilesystem`: create the target directory, then format and mount
      with the capability's options. */
  function MountFilesystem(devicePath: string, nm: DiskMounter, env: MountEnv)
    : (out: (Result<(), MountError>, Option<MountCall>))
    ensures out.1.Some? <==> env.mkdirOk
    ensures out.1.Some? ==> out.1.value == FormatAndMount(devicePath, nm.targetPath, nm.fsType, nm.mountOptions)
    ensures out.0.Ok? <==> env.mkdirOk && env.mountOk
  {
    if !env.mkdirOk then (Err(MkdirFailed), None)
    else
      var call := FormatAndMount(devicePath, nm.targetPath, nm.fsType, nm.mountOptions);
      if !env.mountOk then (Err(MountFailed), Some(call)) else (Ok(()), Some(call))
  }

  /** `mountBlockDevice`: create the parent directory, check it, create and
      close the target file, then bind-mount with "bind" appended to the
      options. */
  function MountBlockDevice(devicePath: string, nm: DiskMounter, env: MountEnv)
    : (out: (Result<(), MountError>, Option<MountCall>))
    ensures out.1.Some? <==> env.mkdirOk && env.parentExists && env.openOk && env.closeOk
    ensures out.1.Some? ==> out.1.value == BindMount(devicePath, nm.targetPath, nm.fsType, nm.mountOptions + ["bind"])
    ensures out.0.Ok? <==> out.1.Some? && env.mountOk
  {
    if !env.mkdirOk then (Err(MkdirFailed), None)
    else if !env.parentExists then (Err(ParentMissing), None)
    else if !env.openOk then (Err(CreateFileFailed), None)
    else if !env.closeOk then (Err(CloseFailed), None)
    else
      var call := BindMount(devicePath, nm.targetPath, nm.fsType, nm.mountOptions + ["bind"]);
      if !env.mountOk then (Err(MountFailed), Some(call)) else (Ok(()), Some(call))
  }

  /** `MountVolume`: nothing to do on a mount point; a block volume is bind
      mounted, anything else formatted and mounted. */
  function MountVolume(sourcePath: string, nm: DiskMounter, env: MountEnv)
    : (out: (Result<(), MountError>, Option<MountCall>))
    ensures env.check == CheckFailed ==> out == (Err(CheckError), None)
    ensures env.check == Mounted ==> out == (Ok(()), None)
    ensures out.1.Some? && out.1.value.BindMount? ==>
              nm.isBlock && out.1.value.options == nm.mountOptions + ["bind"]
    ensures out.1.Some? && out.1.value.FormatAndMount? ==>
              !nm.isBlock && out.1.value.options == nm.mountOptions
    ensures out.1.Some? ==> out.1.value.source == sourcePath && out.1.value.target == nm.targetPath
                            && (env.check == NotMounted || env.check == PathMissing)
    ensures out.0.Ok? <==> env.check == Mounted || (out.1.Some? && env.mountOk)
    ensures env.check == NotMounted || env.check == PathMissing ==>
              out == (if nm.isBlock then MountBlockDevice(sourcePath, nm, env) else MountFilesystem(sourcePath, nm, env))
  {
    match env.check
    case CheckFailed => (Err(CheckError), None)
    case Mounted => (Ok(()), None)
    case _ =>
      if nm.isBlock then MountBlockDevice(sourcePath, nm, env) else MountFilesystem(sourcePath, nm, env)
  }

  /** `UnmountVolume`: returns the answer and whether the unmount was tried. */
  function UnmountVolume(targetPath: string, check: MountCheck, unmountOk: bool): (out: (Result<(), string>, bool))
    ensures out.1 <==> check == Mounted
    ensures out.0.Ok? <==> check == NotMounted || check == PathMissing || (check == Mounted && unmountOk)
  {
    match check
    case PathMissing => (Ok(()), false)
    case CheckFailed => (Err("failed to check mount point"), false)
    case NotMounted => (Ok(()), false)
    case Mounted => if unmountOk then (Ok(()), true) else (Err("failed to unmount volume"), true)
  }

  /** Mount and unmount both handle a missing target path like an existing path
      that is not a mount point. */
  lemma MissingPathIsNotMountPoint(sourcePath: string, nm: DiskMounter, env: MountEnv, unmountOk: bool)
    ensures MountVolume(sourcePath, nm, env.(check := PathMissing)) == MountVolume(sourcePath, nm, env.(check := NotMounted))
    ensures UnmountVolume(nm.targetPath, PathMissing, unmountOk) == UnmountVolume(nm.targetPath, NotMounted, unmountOk)
  {
  }

  /** A successful mount leaves the target a mount point: it either was one
      already or the mount call was made and succeeded. The unmount that then
      finds it mounted tries the unmount, and succeeds exactly when that does. */
  lemma MountThenUnmount(sourcePath: string, nm: DiskMounter, env: MountEnv, unmountOk: bool)
    requires MountVolume(sourcePath, nm, env).0.Ok?
    ensures env.check == Mounted
            || (MountVolume(sourcePath, nm, env).1.Some? && env.mountOk
                && MountVolume(sourcePath, nm, env).1.value.target == nm.targetPath)
    ensures UnmountVolume(nm.targetPath, Mounted, unmountOk).1
    ensures UnmountVolume(nm.targetPath, Mounted, unmountOk).0.Ok? <==> unmountOk
  {
  }
}

=== FILE: nvmf_types.dfy ===
/** The NVMe-oF target description of pkg/nvmf/nvmf.go, shared by the device
    registry, the connector and the disk mounter. */
module NvmfTypes {

  /** Volume-context and discovery parameter keys. */
  const ParamAddr := "targetTrAddr"
  const ParamPort := "targetTrPort"
  const ParamType := "targetTrType"
  const ParamEndpoint := "targetTrEndpoint"

  /** `nvmfDiskInfo`: one NVMe-oF subsystem as seen by the driver. */
  datatype DiskInfo = DiskInfo(
    volName: string,
    nqn: string,
    addr: string,
    port: string,
    transport: string,
    endpoints: seq<string>)
}

=== FILE: nvmf_utils.dfy ===
/** pkg/nvmf/nvmf_utils.go: finding the block device of a connected subsystem in
    sysfs, reading its namespace identifier, and the bounded retry loops. Every
    sysfs or /dev observation is an input. */
module NvmfUtils {
  import opened Results
  import opened GoStrings
  import opened Utils

  const SysNvmf := "/sys/class/nvme"
  const UuidLinkPrefix := "/dev/disk/by-id/nvme-uuid"
  const ControllerPrefix := "/sys/class/block"
  const RescanSuffix := "device/rescan_controller"

  /** One sysfs attribute file: missing (open fails), unreadable (read fails),
      or readable with the given content. */
  datatype AttrFile = Absent | Unreadable | Content(data: string)

  /** A controller directory under /sys/class/nvme. `deleteWritable` says whether
      writing "1" to its `delete_controller` file succeeds. */
  datatype ControllerEntry = ControllerEntry(
    name: string,
    subsysnqn: AttrFile,
    hostnqn: AttrFile,
    deleteWritable: bool)

  /** The first line of a file, as `ReadLinesFromFile(f)[0]` returns it. */
  function FirstLine(data: string): (line: string)
    ensures IsTrimmed(line) && '\n' !in line
  {
    ReadLines(data)[0]
  }

  /** The first line is the text before the first newline, or all of the text
      when it holds none, with surrounding white space trimmed. */
  lemma FirstLineIsFirstSegment(data: string)
    ensures '\n' !in data ==> FirstLine(data) == TrimSpace(data)
    ensures '\n' in data ==> FirstLine(data) == TrimSpace(data[..IndexOf(data, '\n')])
  {
    ReadLinesFirst(data);
  }

  /** The attribute file is readable and its first line is `value`. */
  predicate AttrIs(f: AttrFile, value: string) {
    f.Content? && FirstLine(f.data) == value
  }

  /** Position of the first controller whose `subsysnqn` reads `nqn`, or the
      length of the list when there is none. */
  function FindController(ctrls: seq<ControllerEntry>, nqn: string): (k: nat)
    ensures k <= |ctrls|
    ensures k < |ctrls| ==> AttrIs(ctrls[k].subsysnqn, nqn)
    ensures forall j :: 0 <= j < k ==> !AttrIs(ctrls[j].subsysnqn, nqn)
  {
    if |ctrls| == 0 then 0
    else if AttrIs(ctrls[0].subsysnqn, nqn) then 0
    else 1 + FindController(ctrls[1..], nqn)
  }

  /** `getDeviceNameBySubNqn`: the name of the first controller reporting
      `targetNqn`, or "" when the directory cannot be listed or none matches. */
  function GetDeviceNameBySubNqn(listing: Option<seq<ControllerEntry>>, targetNqn: string): (name: string)
    ensures listing.None? ==> name == ""
    ensures listing.Some? && (forall i :: 0 <= i < |listing.value| ==> !AttrIs(listing.value[i].subsysnqn, targetNqn))
            ==> name == ""
    ensures listing.Some? && (exists i :: 0 <= i < |listing.value| && AttrIs(listing.value[i].subsysnqn, targetNqn))
            ==> exists i :: 0 <= i < |listing.value| && name == listing.value[i].name
                  && AttrIs(listing.value[i].subsysnqn, targetNqn)
                  && forall j :: 0 <= j < i ==> !AttrIs(listing.value[j].subsysnqn, targetNqn)
  {
    match listing
    case None => ""
    case Some(ctrls) =>
      var k := FindController(ctrls, targetNqn);
      if k < |ctrls| then ctrls[k].name else ""
  }

  /** The namespace directories of one controller and the identifier files of
      the first of them, keyed by identifier type ("uuid", "nguid"). */
  datatype NamespaceView = NamespaceView(namespaces: seq<string>, identifiers: map<string, AttrFile>)

  datatype IdentifierError = NoNamespace | IdentifierMissing | IdentifierUnreadable
                           | IdentifierEmpty | InvalidNguidLength(length: nat) | NonAsciiNguid

  /** A UUID in the canonical 8-4-4-4-12 layout of section 3 of RFC 4122:
      36 characters with dashes at positions 8, 13, 18 and 23. */
  predicate IsDashedUuid(u: string) {
    |u| == 36 && u[8] == '-' && u[13] == '-' && u[18] == '-' && u[23] == '-'
  }

  /** Reformat a 32-character NGUID as a dashed UUID. */
  function NguidToUuid(id: string): (u: string)
    requires |id| == 32
    ensures IsDashedUuid(u)
  {
    id[0..8] + "-" + id[8..12] + "-" + id[12..16] + "-" + id[16..20] + "-" + id[20..]
  }

  /** Drop the four dashes of a dashed UUID. */
  function UuidToNguid(u: string): (id: string)
    requires |u| == 36
    ensures |id| == 32
  {
    u[..8] + u[9..13] + u[14..18] + u[19..23] + u[24..]
  }

  /** Removing the dashes of the reformatted NGUID gives the NGUID back. */
  lemma NguidRoundTrip(id: string)
    requires |id| == 32
    ensures UuidToNguid(NguidToUuid(id)) == id
  {
    var u := NguidToUuid(id);
    assert u[..8] == id[0..8];
    assert u[9..13] == id[8..12];
    assert u[14..18] == id[12..16];
    assert u[19..23] == id[16..20];
    assert u[24..] == id[20..];
    assert id == id[0..8] + id[8..12] + id[12..16] + id[16..20] + id[20..];
  }

  /** Every dashed UUID is the reformatting of its undashed form. */
  lemma UuidRoundTrip(u: string)
    requires IsDashedUuid(u)
    ensures NguidToUuid(UuidToNguid(u)) == u
  {
    var id := UuidToNguid(u);
    assert id[0..8] == u[..8];
    assert id[8..12] == u[9..13];
    assert id[12..16] == u[14..18];
    assert id[16..20] == u[19..23];
    assert id[20..] == u[24..];
    assert u == u[..8] + "-" + u[9..13] + "-" + u[14..18] + "-" + u[19..23] + "-" + u[24..];
  }

  /** `getDeviceIdentifierFromSysfs`: the trimmed identifier of the first
      namespace; an "nguid" has its spaces removed, must then be 32 bytes long,
      and is returned in dashed UUID form. A 32-byte NGUID holding non-ASCII
      characters is rejected here (the source slices its bytes). */
  function GetDeviceIdentifierFromSysfs(view: NamespaceView, identifierType: string): (r: Result<string, IdentifierError>)
    ensures |view.namespaces| == 0 ==> r == Err(NoNamespace)
    ensures (|view.namespaces| > 0 && (identifierType !in view.identifiers
                                       || view.identifiers[identifierType].Absent?))
            ==> r == Err(IdentifierMissing)
    ensures (|view.namespaces| > 0 && identifierType in view.identifiers
             && view.identifiers[identifierType].Unreadable?)
            ==> r == Err(IdentifierUnreadable)
    ensures |view.namespaces| > 0 && identifierType in view.identifiers && view.identifiers[identifierType].Content? ==>
              var identifier := TrimSpace(view.identifiers[identifierType].data);
              var stripped := RemoveChar(identifier, ' ');
              && (identifier == "" ==> r == Err(IdentifierEmpty))
              && (identifier != "" && identifierType != "nguid" ==> r == Ok(identifier))
              && (identifier != "" && identifierType == "nguid" && Utf8Len(stripped) != 32 ==>
                    r == Err(InvalidNguidLength(Utf8Len(stripped))))
              && (identifier != "" && identifierType == "nguid" && Utf8Len(stripped) == 32 ==>
                    (r.Ok? <==> IsAscii(stripped))
                    && (r.Ok? ==> |stripped| == 32 && r.value == NguidToUuid(stripped)))
    ensures r.Ok? ==> |view.namespaces| > 0 && identifierType in view.identifiers
                      && view.identifiers[identifierType].Content?
    ensures r.Ok? ==> r.value != ""
    ensures r.Ok? && identifierType != "nguid" ==>
              r.value == TrimSpace(view.identifiers[identifierType].data)
    ensures r.Ok? && identifierType == "nguid" ==>
              IsDashedUuid(r.value)
              && UuidToNguid(r.value) == RemoveChar(TrimSpace(view.identifiers[identifierType].data), ' ')
  {
    if |view.namespaces| == 0 then Err(NoNamespace)
    else if identifierType !in view.identifiers then Err(IdentifierMissing)
    else match view.identifiers[identifierType]
      case Absent => Err(IdentifierMissing)
      case Unreadable => Err(IdentifierUnreadable)
      case Content(data) =>
        var identifier := TrimSpace(data);
        if identifier == "" then Err(IdentifierEmpty)
        else if identifierType == "nguid" then
          var stripped := RemoveChar(identifier, ' ');
          if Utf8Len(stripped) != 32 then Err(InvalidNguidLength(Utf8Len(stripped)))
          else if !IsAscii(stripped) then Err(NonAsciiNguid)
          else
            AsciiUtf8Len(stripped);
            NguidRoundTrip(stripped);
            Ok(NguidToUuid(stripped))
        else Ok(identifier)
  }

  /** `getDeviceUUID`: the uuid file wins over the nguid file; "" when both fail. */
  function GetDeviceUUID(view: NamespaceView): (uuid: string)
    ensures GetDeviceIdentifierFromSysfs(view, "uuid").Ok? ==>
              uuid == GetDeviceIdentifierFromSysfs(view, "uuid").value
    ensures GetDeviceIdentifierFromSysfs(view, "uuid").Err? && GetDeviceIdentifierFromSysfs(view, "nguid").Ok? ==>
              uuid == GetDeviceIdentifierFromSysfs(view, "nguid").value
    ensures uuid == "" <==>
              GetDeviceIdentifierFromSysfs(view, "uuid").Err? && GetDeviceIdentifierFromSysfs(view, "nguid").Err?
  {
    match GetDeviceIdentifierFromSysfs(view, "uuid")
    case Ok(id) => id
    case Err(_) =>
      match GetDeviceIdentifierFromSysfs(view, "nguid")
      case Ok(id) => id
      case Err(_) => ""
  }

  /** `parseDeviceToControllerPath`: "c0" goes in front of the last "n" of the
      device name, so nvme0n1 maps to controller path nvme0c0n1. A name without
      any "n" makes the Go slice expression panic. */
  function ParseDeviceToControllerPath(deviceName: string): (path: string)
    requires 'n' in deviceName
    ensures exists k :: 0 <= k < |deviceName| && deviceName[k] == 'n' && 'n' !in deviceName[k + 1..]
              && path == ControllerPrefix + "/" + deviceName[..k] + "c0" + deviceName[k..] + "/" + RescanSuffix
  {
    var index := LastIndexOf(deviceName, 'n');
    ControllerPrefix + "/" + deviceName[..index] + "c0" + deviceName[index..] + "/" + RescanSuffix
  }

  /** The last "n" of `pre + "n" + post` is the one in the middle when `post`
      holds none. */
  lemma {:induction false} LastNAfterPrefix(pre: string, post: string)
    requires 'n' !in post
    ensures 'n' in pre + "n" + post
    ensures LastIndexOf(pre + "n" + post, 'n') == |pre|
    decreases |post|
  {
    var name := pre + "n" + post;
    assert name[|pre|] == 'n';
    if |post| > 0 {
      var shorter := post[..|post| - 1];
      assert name[|name| - 1] == post[|post| - 1];
      assert name[..|name| - 1] == pre + "n" + shorter;
      assert 'n' !in shorter by {
        assert forall x :: x in shorter ==> x in post;
      }
      LastNAfterPrefix(pre, shorter);
    }
  }

  /** "c0" lands exactly in front of the last "n". */
  lemma ControllerPathSplit(pre: string, post: string)
    requires 'n' !in post
    ensures 'n' in pre + "n" + post
    ensures ParseDeviceToControllerPath(pre + "n" + post)
            == ControllerPrefix + "/" + pre + "c0" + "n" + post + "/" + RescanSuffix
  {
    var name := pre + "n" + post;
    LastNAfterPrefix(pre, post);
    assert name[..|pre|] == pre;
    assert name[|pre|..] == "n" + post;
  }

  /** Device nvme0n1 is rescanned through controller nvme0c0n1. */
  lemma ControllerPathExample()
    ensures ParseDeviceToControllerPath("nvme0n1") == ControllerPrefix + "/" + "nvme0c0n1" + "/" + RescanSuffix
  {
    ControllerPathSplit("nvme0", "1");
    assert "nvme0" + "n" + "1" == "nvme0n1";
    assert "nvme0" + "c0" + "n" + "1" == "nvme0c0n1";
  }

  /** The by-id link of a namespace UUID: `strings.Join([prefix, uuid], ".")`. */
  function DevicePathForUuid(uuid: string): (path: string)
    ensures HasPrefix(path, UuidLinkPrefix + ".")
    ensures path[|UuidLinkPrefix| + 1..] == uuid
  {
    UuidLinkPrefix + "." + uuid
  }

  /** What one attempt of `findPathWithRetry` sees: the controller listing, the
      namespace view of each controller, and the stat result of each path. */
  datatype Probe = Probe(
    controllers: Option<seq<ControllerEntry>>,
    namespaces: map<string, NamespaceView>,
    stat: string -> StatResult)

  function ViewOf(p: Probe, deviceName: string): NamespaceView {
    if deviceName in p.namespaces then p.namespaces[deviceName] else NamespaceView([], map[])
  }

  /** One attempt: device name, then UUID, then the by-id path must exist. */
  function ProbeDevicePath(p: Probe, targetNqn: string): (r: Option<string>)
    ensures r.Some? ==> HasPrefix(r.value, UuidLinkPrefix + ".")
    ensures r.Some? ==> IsFileExisting(p.stat(r.value))
    ensures GetDeviceNameBySubNqn(p.controllers, targetNqn) == "" ==> r.None?
    ensures r.Some? ==> var uuid := GetDeviceUUID(ViewOf(p, GetDeviceNameBySubNqn(p.controllers, targetNqn)));
                        uuid != "" && r.value == DevicePathForUuid(uuid)
  {
    var deviceName := GetDeviceNameBySubNqn(p.controllers, targetNqn);
    if deviceName == "" then None
    else
      var uuid := GetDeviceUUID(ViewOf(p, deviceName));
      if uuid == "" then None
      else
        var devicePath := DevicePathForUuid(uuid);
        if !IsFileExisting(p.stat(devicePath)) then None else Some(devicePath)
  }

  /** An attempt succeeds whenever the controller is found, its namespace has
      an identifier, and the by-id link of that identifier exists. */
  lemma ProbeFindsExistingLink(p: Probe, targetNqn: string)
    requires GetDeviceNameBySubNqn(p.controllers, targetNqn) != ""
    requires GetDeviceUUID(ViewOf(p, GetDeviceNameBySubNqn(p.controllers, targetNqn))) != ""
    requires IsFileExisting(p.stat(DevicePathForUuid(
               GetDeviceUUID(ViewOf(p, GetDeviceNameBySubNqn(p.controllers, targetNqn))))))
    ensures ProbeDevicePath(p, targetNqn)
            == Some(DevicePathForUuid(GetDeviceUUID(ViewOf(p, GetDeviceNameBySubNqn(p.controllers, targetNqn)))))
  {
  }

  /** The record of a `findPathWithRetry` run: sleeps taken, probes made, and the
      device path found. */
  datatype PathSearch = PathSearch(sleeps: nat, probes: nat, path: Option<string>)

  /** The retry loop from attempt `i` on: sleep, probe, stop at the first success.
      `attempt(k)` is the outcome of probe `k`. */
  function FindPathFrom(i: nat, maxRetries: int, attempt: nat -> Option<string>): (s: PathSearch)
    ensures s.sleeps == s.probes
    ensures i < maxRetries ==> i < s.probes <= maxRetries
    ensures i >= maxRetries ==> s == PathSearch(i, i, None)
    ensures s.path.Some? ==> i < s.probes && s.path == attempt(s.probes - 1)
    ensures forall k :: i <= k < s.probes - 1 ==> attempt(k).None?
    ensures s.path.None? ==> forall k :: i <= k < s.probes ==> attempt(k).None?
    ensures s.path.None? && i < maxRetries ==> s.probes == maxRetries
    decreases maxRetries - i
  {
    if i >= maxRetries then PathSearch(i, i, None)
    else if attempt(i).Some? then PathSearch(i + 1, i + 1, attempt(i))
    else FindPathFrom(i + 1, maxRetries, attempt)
  }

  /** `findPathWithRetry`: at most `maxRetries` attempts, each preceded by a sleep;
      the first attempt that finds an existing by-id link wins. `observe(k)` is
      what attempt `k` sees. */
  function FindPathWithRetry(targetNqn: string, maxRetries: Int32, intervalSeconds: Int32, observe: nat -> Probe): (s: PathSearch)
    ensures s.sleeps == s.probes
    ensures maxRetries <= 0 ==> s.probes == 0 && s.path.None?
    ensures s.probes <= if maxRetries < 0 then 0 else maxRetries
    ensures s.path.Some? <==> exists k :: 0 <= k < maxRetries && ProbeDevicePath(observe(k), targetNqn).Some?
    ensures s.path.Some? ==> s.probes >= 1 && s.path == ProbeDevicePath(observe(s.probes - 1), targetNqn)
                             && forall k :: 0 <= k < s.probes - 1 ==> ProbeDevicePath(observe(k), targetNqn).None?
    ensures s.path.Some? ==> HasPrefix(s.path.value, UuidLinkPrefix + ".")
    ensures s.path.None? && maxRetries > 0 ==> s.probes == maxRetries
  {
    FindPathAttempts(targetNqn, maxRetries, observe);
    FindPathFrom(0, maxRetries, Attempts(observe, targetNqn))
  }

  /** Attempt `k` of the search, as a function of `k`. */
  function Attempts(observe: nat -> Probe, targetNqn: string): nat -> Option<string> {
    (k: nat) => ProbeDevicePath(observe(k), targetNqn)
  }

  /** One attempt is one probe. */
  lemma AttemptIsProbe(observe: nat -> Probe, targetNqn: string, k: nat)
    ensures Attempts(observe, targetNqn)(k) == ProbeDevicePath(observe(k), targetNqn)
  {
  }

  /** The retry loop from the first attempt finds a path iff some attempt
      below the budget succeeds. */
  lemma FindPathFromStart(maxRetries: int, attempt: nat -> Option<string>)
    ensures var s := FindPathFrom(0, maxRetries, attempt);
      s.path.Some? <==> exists k :: 0 <= k < maxRetries && attempt(k).Some?
  {
    var s := FindPathFrom(0, maxRetries, attempt);
    if s.path.Some? {
      assert attempt(s.probes - 1).Some?;
    }
  }

  /** The generic retry loop, read back in terms of the probes. */
  lemma FindPathAttempts(targetNqn: string, maxRetries: int, observe: nat -> Probe)
    ensures var s := FindPathFrom(0, maxRetries, Attempts(observe, targetNqn));
      (s.path.Some? <==> exists k :: 0 <= k < maxRetries && ProbeDevicePath(observe(k), targetNqn).Some?)
      && (s.path.Some? ==> s.path == ProbeDevicePath(observe(s.probes - 1), targetNqn)
                           && forall k :: 0 <= k < s.probes - 1 ==> ProbeDevicePath(observe(k), targetNqn).None?)
  {
    var attempt := Attempts(observe, targetNqn);
    var s := FindPathFrom(0, maxRetries, attempt);
    FindPathFromStart(maxRetries, attempt);
    if s.path.Some? {
      AttemptIsProbe(observe, targetNqn, s.probes - 1);
      forall k | 0 <= k < s.probes - 1
        ensures ProbeDevicePath(observe(k), targetNqn).None?
      {
        AttemptIsProbe(observe, targetNqn, k);
      }
    } else {
      forall k | 0 <= k < maxRetries
        ensures ProbeDevicePath(observe(k), targetNqn).None?
      {
        AttemptIsProbe(observe, targetNqn, k);
      }
    }
  }

  /** `waitForPathToExist`: up to `maxRetries` checks of the path, with a sleep
      between two checks but none after the last; `observe(i)` is the stat result
      of check `i`. Returns whether the path was found, the checks made and the
      sleeps taken. */
  method WaitForPathToExist(devicePath: string, maxRetries: int, intervalSeconds: int, observe: nat -> StatResult)
    returns (found: bool, checks: nat, sleeps: nat)
    ensures found <==> exists i :: 0 <= i < maxRetries && IsFileExisting(observe(i))
    ensures found ==> checks >= 1 && IsFileExisting(observe(checks - 1))
                      && forall i :: 0 <= i < checks - 1 ==> !IsFileExisting(observe(i))
    ensures !found ==> checks == if maxRetries < 0 then 0 else maxRetries
    ensures sleeps == if checks == 0 then 0 else checks - 1
  {
    found, checks, sleeps := false, 0, 0;
    var i := 0;
    while i < maxRetries
      invariant 0 <= i
      invariant maxRetries > 0 ==> i < maxRetries
      invariant maxRetries <= 0 ==> i == 0
      invariant checks == i && sleeps == i && !found
      invariant forall k :: 0 <= k < i ==> !IsFileExisting(observe(k))
      decreases maxRetries - i
    {
      checks := checks + 1;
      if IsFileExisting(observe(i)) {
        found := true;
        return;
      }
      if i == maxRetries - 1 {
        break;
      }
      sleeps := sleeps + 1;
      i := i + 1;
    }
  }

  /** The outcome of `os.Lstat` on the by-id link, and of resolving it. */
  datatype LinkStatus = LinkNotExist | LinkStatFailed | NotSymlink | Symlink(resolved: Option<string>)

  /** The last '/'-separated component of a path. */
  function LastComponent(path: string): (name: string)
    ensures '/' !in name
    ensures '/' in path ==> exists pre :: path == pre + "/" + name
    ensures '/' !in path ==> name == path
  {
    var parts := Split(path, '/');
    if '/' in path then
      JoinSplit(path, '/');
      SplitCount(path, '/');
      JoinLast(parts, '/');
      parts[|parts| - 1]
    else
      parts[0]
  }

  lemma {:induction false} JoinLast(parts: seq<string>, sep: char)
    requires |parts| >= 2
    ensures Join(parts, sep) == Join(parts[..|parts| - 1], sep) + [sep] + parts[|parts| - 1]
    decreases |parts|
  {
    if |parts| > 2 {
      JoinLast(parts[1..], sep);
      assert parts[1..][..|parts| - 2] == parts[..|parts| - 1][1..];
    }
  }

  /** `GetDeviceNameByVolumeID`: resolve /dev/disk/by-id/nvme-uuid.<volumeID>;
      it must be a symlink whose target starts with "/dev", and the answer is the
      target's last path component. `lstat` stands for the file system. */
  function GetDeviceNameByVolumeID(volumeId: string, lstat: string -> LinkStatus): (r: Result<string, string>)
    ensures r.Ok? <==> lstat(DevicePathForUuid(volumeId)).Symlink?
                       && lstat(DevicePathForUuid(volumeId)).resolved.Some?
                       && HasPrefix(lstat(DevicePathForUuid(volumeId)).resolved.value, "/dev")
    ensures r.Ok? ==> '/' !in r.value
                      && exists pre :: lstat(DevicePathForUuid(volumeId)).resolved.value == pre + "/" + r.value
  {
    var linkPath := DevicePathForUuid(volumeId);
    match lstat(linkPath)
    case LinkNotExist => Err("volumeID link path not found")
    case LinkStatFailed => Err("error getting stat of link")
    case NotSymlink => Err("volumeID link file found, but was not a symlink")
    case Symlink(None) => Err("error reading target of symlink")
    case Symlink(Some(resolved)) =>
      if !HasPrefix(resolved, "/dev") then Err("resolved symlink was unexpected")
      else
        assert resolved[0] == '/';
        Ok(LastComponent(resolved))
  }
}

=== FILE: results.dfy ===
/** Failure-carrying values shared by every module of the model, and the
    fixed-width integer the Go code stores retry settings in. */
module Results {

  /** A value that may be missing, like a nil pointer or a nil map in Go. */
  datatype Option<+T> = None | Some(value: T)

  /** The Go idiom `(value, error)`: exactly one of the two is meaningful. */
  datatype Result<+T, +E> = Ok(value: T) | Err(error: E)

  /** Go's `int32`. */
  type Int32 = x: int | -0x8000_0000 <= x < 0x8000_0000

  /** Looking a key up in a Go `map[string]string` yields "" when the key is absent
      (also for a nil map, which the model represents as an empty one). */
  function Lookup(m: map<string, string>, key: string): (v: string)
    ensures key !in m ==> v == ""
    ensures key in m ==> v == m[key]
  {
    if key in m then m[key] else ""
  }
}

=== FILE: utils.dfy ===
/** pkg/utils/utils.go: the per-volume try-lock table, endpoint parsing, and the
    file helpers seen as pure functions of their inputs. */
module Utils {
  import opened Results
  import opened GoStrings

  /** The outcome of `os.Stat` on some path. */
  datatype StatResult = StatOk | StatNotExist | StatFailed

  /** `IsFileExisting`: only a "does not exist" error makes a path count as missing;
      any other stat failure is reported as existing. */
  function IsFileExisting(stat: StatResult): (r: bool)
    ensures !r <==> stat == StatNotExist
  {
    match stat
    case StatOk => true
    case StatNotExist => false
    case StatFailed => true
  }

  /** The names currently locked (`VolumeLocks.locks`). */
  type LockSet = set<string>

  /** `VolumeLocks.TryAcquire`: succeed and take the name iff nobody holds it. */
  function TryAcquire(locks: LockSet, volumeId: string): (out: (bool, LockSet))
    ensures out.0 <==> volumeId !in locks
    ensures volumeId in out.1
    ensures forall v :: v != volumeId ==> (v in out.1 <==> v in locks)
    ensures !out.0 ==> out.1 == locks
  {
    if volumeId in locks then (false, locks) else (true, locks + {volumeId})
  }

  /** `VolumeLocks.Release`: drop the name, whether or not it was held. */
  function Release(locks: LockSet, volumeId: string): (r: LockSet)
    ensures volumeId !in r
    ensures forall v :: v != volumeId ==> (v in r <==> v in locks)
  {
    locks - {volumeId}
  }

  /** Releasing twice is the same as releasing once. */
  lemma ReleaseIdempotent(locks: LockSet, volumeId: string)
    ensures Release(Release(locks, volumeId), volumeId) == Release(locks, volumeId)
  {
  }

  /** A successful acquire followed by a release restores the lock table. */
  lemma AcquireThenRelease(locks: LockSet, volumeId: string)
    requires TryAcquire(locks, volumeId).0
    ensures Release(TryAcquire(locks, volumeId).1, volumeId) == locks
  {
  }

  /** Holding a name excludes a second holder until it is released. */
  lemma AcquireExcludes(locks: LockSet, volumeId: string)
    ensures !TryAcquire(TryAcquire(locks, volumeId).1, volumeId).0
    ensures TryAcquire(Release(TryAcquire(locks, volumeId).1, volumeId), volumeId).0
  {
  }

  /** First index at or after `from` where `sub` occurs in `s`. */
  function FirstOccurrence(s: string, sub: string, from: nat): (r: Option<nat>)
    requires |sub| > 0
    ensures r.Some? ==> from <= r.value && OccursAt(s, sub, r.value)
    ensures r.Some? ==> forall k: nat :: from <= k < r.value ==> !OccursAt(s, sub, k)
    ensures r.None? ==> forall k: nat :: from <= k ==> !OccursAt(s, sub, k)
    decreases |s| - from
  {
    if from + |sub| > |s| then None
    else if OccursAt(s, sub, from) then Some(from)
    else FirstOccurrence(s, sub, from + 1)
  }

  /** `strings.SplitN(s, sep, 2)`: the text before the first `sep` and the rest. */
  function SplitFirst(s: string, sep: string): (parts: seq<string>)
    requires |sep| > 0
    ensures 1 <= |parts| <= 2
    ensures |parts| == 2 ==> s == parts[0] + sep + parts[1]
    ensures |parts| == 1 <==> FirstOccurrence(s, sep, 0).None?
    ensures |parts| == 2 ==> FirstOccurrence(s, sep, 0) == Some(|parts[0]|)
    ensures |parts| == 1 ==> parts[0] == s
  {
    match FirstOccurrence(s, sep, 0)
    case None => [s]
    case Some(i) =>
      assert s == s[..i] + s[i..i + |sep|] + s[i + |sep|..];
      [s[..i], s[i + |sep|..]]
  }

  /** The two schemes a CSI endpoint may use, compared case-insensitively. */
  predicate HasEndpointScheme(ep: string, scheme: string) {
    HasPrefix(ToLower(ep), scheme + "://")
  }

  /** A scheme written `scheme` (any letter case) occupies the first |scheme|
      characters, and the first "://" comes right after it. */
  lemma SchemeSeparator(ep: string, scheme: string)
    requires scheme == "unix" || scheme == "tcp"
    requires HasEndpointScheme(ep, scheme)
    ensures FirstOccurrence(ep, "://", 0) == Some(|scheme|)
  {
    var low := ToLower(ep);
    assert low[..|scheme| + 3] == scheme + "://";
    forall k: nat | k < |scheme|
      ensures !OccursAt(ep, "://", k)
    {
      assert low[k] == scheme[k];
    }
    assert ep[|scheme|] == ':' by { assert low[|scheme|] == ':'; }
    assert ep[|scheme| + 1] == '/' by { assert low[|scheme| + 1] == '/'; }
    assert ep[|scheme| + 2] == '/' by { assert low[|scheme| + 2] == '/'; }
    assert OccursAt(ep, "://", |scheme|);
  }

  /** `ParseEndpoint`: accepts `unix://` or `tcp://` (any letter case) followed by a
      non-empty address, and returns the scheme as written and the address. */
  function ParseEndpoint(ep: string): (r: Result<(string, string), string>)
    ensures r.Ok? ==> ep == r.value.0 + "://" + r.value.1
    ensures r.Ok? ==> r.value.1 != "" && ToLower(r.value.0) in {"unix", "tcp"}
    ensures r.Ok? <==>
      ((HasEndpointScheme(ep, "unix") && |ep| > 7) || (HasEndpointScheme(ep, "tcp") && |ep| > 6))
  {
    if HasEndpointScheme(ep, "unix") || HasEndpointScheme(ep, "tcp") then
      var scheme := if HasEndpointScheme(ep, "unix") then "unix" else "tcp";
      SchemeSeparator(ep, scheme);
      var s := SplitFirst(ep, "://");
      assert s[0] == ep[..|scheme|] && s[1] == ep[|scheme| + 3..];
      assert ToLower(ep)[..|scheme| + 3] == scheme + "://";
      assert ToLower(s[0]) == ToLower(ep)[..|scheme|] == scheme;
      if s[1] != "" then Ok((s[0], s[1])) else Err("Invalid endpoint: " + ep)
    else
      Err("Invalid endpoint: " + ep)
  }

  /** Any `unix`/`tcp` scheme (in any letter case) joined to a non-empty address
      parses back to exactly that scheme and address. */
  lemma ParseEndpointRoundTrip(scheme: string, addr: string)
    requires ToLower(scheme) in {"unix", "tcp"}
    requires addr != ""
    ensures ParseEndpoint(scheme + "://" + addr) == Ok((scheme, addr))
  {
    var ep := scheme + "://" + addr;
    var low := ToLower(scheme);
    assert ToLower(ep)[..|scheme| + 3] == low + "://" by {
      forall k | 0 <= k < |scheme| + 3
        ensures ToLower(ep)[k] == (low + "://")[k]
      {
        if k < |scheme| { assert ep[k] == scheme[k]; }
      }
    }
    var r := ParseEndpoint(ep);
    assert r.Ok?;
    assert |r.value.0| == |scheme| by {
      if |r.value.0| != |scheme| {
        SchemeSeparator(ep, if HasEndpointScheme(ep, "unix") then "unix" else "tcp");
      }
    }
    assert r.value.0 == ep[..|scheme|];
    assert ep[..|scheme|] == scheme;
    assert r.value.1 == ep[|scheme| + 3..];
  }

  datatype WriteError = WriteFailed | WriteNothing | FlushFailed

  /** `WriteStringToFile` through a buffered writer. `writeFails` and `flushFails`
      are the outcomes of the underlying writes. Empty data is an error. */
  function WriteStringToFile(data: string, writeFails: bool, flushFails: bool): (r: Result<(), WriteError>)
    ensures r.Ok? ==> data != "" && !writeFails && !flushFails
    ensures !writeFails && data == "" ==> r == Err(WriteNothing)
    ensures !writeFails && !flushFails && data != "" ==> r.Ok?
  {
    if writeFails then Err(WriteFailed)
    else if Utf8Len(data) == 0 then Err(WriteNothing)
    else if flushFails then Err(FlushFailed)
    else Ok(())
  }

  /** `ReadLinesFromFile` on a file whose whole content is `data`: one trimmed line
      per newline-terminated segment, plus the segment after the last newline
      (so "a\n" gives ["a", ""]). Trimming a segment with or without its newline
      gives the same text. */
  function ReadLines(data: string): (lines: seq<string>)
    ensures |lines| == CountChar(data, '\n') + 1
    ensures forall i :: 0 <= i < |lines| ==> IsTrimmed(lines[i]) && '\n' !in lines[i]
    ensures |lines| == |Split(data, '\n')|
    ensures forall i :: 0 <= i < |lines| ==> lines[i] == TrimSpace(Split(data, '\n')[i])
  {
    var parts := Split(data, '\n');
    SplitCount(data, '\n');
    var lines := seq(|parts|, i requires 0 <= i < |parts| => TrimSpace(parts[i]));
    assert forall i :: 0 <= i < |lines| ==> '\n' !in lines[i] by {
      forall i | 0 <= i < |lines| ensures '\n' !in lines[i] {
        var a, b :| 0 <= a <= b <= |parts[i]| && lines[i] == parts[i][a..b];
      }
    }
    lines
  }

  /** The first line is the trimmed text before the first newline; without a
      newline the file is one trimmed line. */
  lemma ReadLinesFirst(data: string)
    ensures '\n' !in data ==> ReadLines(data) == [TrimSpace(data)]
    ensures '\n' in data ==> ReadLines(data)[0] == TrimSpace(data[..IndexOf(data, '\n')])
  {
  }

  /** Lines that are already trimmed and newline-free come back unchanged from a
      file holding them joined by newlines. */
  lemma ReadLinesOfJoined(lines: seq<string>)
    requires |lines| >= 1
    requires forall i :: 0 <= i < |lines| ==> IsTrimmed(lines[i]) && '\n' !in lines[i]
    ensures ReadLines(Join(lines, '\n')) == lines
  {
    SplitJoin(lines, '\n');
    var r := ReadLines(Join(lines, '\n'));
    forall i | 0 <= i < |lines| ensures r[i] == lines[i] {
      TrimSpaceOfTrimmed(lines[i]);
    }
  }

  /** The line list of "a\n" is ["a", ""]. */
  lemma ReadLinesTrailingNewline()
    ensures ReadLines("a\n") == ["a", ""]
  {
    assert !IsSpace('a');
    assert Join(["a", ""], '\n') == "a\n";
    ReadLinesOfJoined(["a", ""]);
  }
}
